=== FILE: README.md ===
# School management backend: request policy, caching, mail fan-out and API analytics

This project models the core of a Django REST Framework backend for a school:
users with a role (student, teacher, admin), student profiles, courses and
enrollments, attendance rows, grades, in-app notifications, and a log of API
requests. It models what each view does with a request:

- who may call it: role checks, role-filtered querysets, ownership checks;
- what it answers: status and body;
- what it writes: to the database, to the cache, and to the background mail
  queue;
- how the logging middleware records the call afterwards.

Module by module:

- `Common`, `Users`, `Students`, `Courses`, `Attendances`, `Grades`,
  `Notifications`, `Analytics`: the records, their serializer documents, their
  string forms, and the defaults the models and serializers apply.
- `Tables`: tables are sequences in primary-key order, with one id counter
  shared by all tables. `Database.Store` holds all tables.
  - `Database.Valid` is the store invariant:
    - ids are unique and below the counter;
    - emails are unique, and so are profile-to-user links;
    - every profile, attendance row and grade names rows that exist;
    - grade codes fit the column.
  - Every write (`AddUser`, `SaveCourse`, `DeleteUser`, ...) preserves the
    invariant, and states exactly what the write does.
  - `DeleteUser` performs the cascade:
    - profiles, attendance and grades go with the user;
    - the user's request logs are kept, with the user set to null.
- `Cache`: the named entries the views read and write, and the cache-aside
  read (`ReadThrough`). The key strings are proved one-to-one.
- `Policy`: the permission checks and the role-filtered querysets. It also
  holds the user-detail permission check as written and as corrected (see
  Findings).
- `Views.Backend`: a class holding the store, the cache and the outbox of
  queued mail tasks. It has one method per view handler, and each method
  states, for every branch, the response and the new state.
- `Mail`: the four notification tasks and the mails they send. Also the
  course fan-out loop, proved against its specification.
- `AnalyticsQuery`: the analytics view's filter, group-by and order-by, with
  the all-inputs property of its answer.
- `Middleware`: a request goes through authentication, then the view, then
  `LogAPIRequestsMiddleware`, which appends one log row for every path under
  `/api/`.

The attendance create view checks only that the caller is a teacher, not that
the caller teaches the row's course. The model follows the code. The same
holds for grades: any teacher may create or update any grade.

The model exhibits three defects in the code (see Findings). A `Build` value
selects between the code as written and the code with the defects corrected:

- the permission check of the user detail view (`Policy.UserWriteAdmitted`);
- the URL routing of the attendance POST (`Middleware.Routed`);
- the PATCH and DELETE handlers that the attendance, course and grade detail
  views inherit from DRF without the role checks of their `put`
  (`Middleware.RoleRefused`).

`Views.Backend.UpdateUser`, the `Patch` and `Destroy` methods of
`Views.Backend` for courses, grades and attendance, `Middleware.Dispatch` and
`Middleware.Serve` take that value. With `AsWritten` they do what the program
does, including the defects.

## Model

| member | source | states |
|---|---|---|
| Users.ParseRole | users/models.py:5-10 | a code is accepted only if it is the stored code of the role it names |
| Users.RoleCodeRoundTrip | users/models.py:5-10 | exactly "student", "teacher", "admin" are accepted; each role's code parses back to it and fits the 10-character column |
| Users.UsernameFromEmail | users/serializers.py:8 | the result is a prefix of the email without '@', and is followed by '@' when shorter than the email |
| Users.SignUpUsername | users/serializers.py:7-8 | a missing or empty username becomes the email's local part; a supplied one is kept |
| Users.CreateUser | users/serializers.py:6-9 | the new user carries the given id and email and the sign-up username (the email's local part when none is given); the role is student unless one is given |
| Users.SignUpJson | users/serializers.py:11-13 | the sign-up response has the create fields except the write-only password |
| Users.UserJson | users/serializers.py:15-20 | the read document has exactly the five read fields, no password, and role and role_display agree with the role |
| Users.UserJsonInjective | users/serializers.py:15-20 | two users with the same read document are the same user |
| Students.NewProfile | students/models.py:4-7 | a new profile keeps the given user and date of birth, and its registration date is today's |
| Students.UpdateProfile | students/views.py:62-64 | saving a profile changes only the date of birth; id, user and registration date stay |
| Students.ProfileStr | students/models.py:9-10 | the string form is the username, then " - ", then the email |
| Students.ProfileJson | students/serializers.py:5-11 | the profile document nests its user's read document |
| Courses.NewCourse | courses/views.py:52 | a created course's instructor is the creator, whatever the input says; name, description and active flag come from the input |
| Courses.UpdateCourse | courses/views.py:82-84 | updating a course keeps its id and instructor and takes name, description and active flag from the input |
| Courses.PatchedCourseInput | courses/views.py:60-63 | the default PATCH merges the body into the row: each field present in the body is taken from it, each absent one is kept |
| Courses.EmptyCoursePatch | courses/views.py:60-63 | a PATCH with an empty body saves the course unchanged |
| Courses.ActiveCourses | courses/views.py:17 | exactly the active courses are listed |
| Attendances.NewAttendance | attendance/models.py:5-9 | a new row's date is today's; student, course and status come from the input |
| Attendances.UpdateAttendance | attendance/serializers.py:13-14 | saving a row keeps its id and date; student, course and status come from the input |
| Attendances.PatchedAttendanceInput | attendance/views.py:75-78 | the default PATCH merges the body into the row: each field present in the body is taken from it, each absent one is kept |
| Attendances.EmptyAttendancePatch | attendance/views.py:75-78 | a PATCH with an empty body saves the row unchanged |
| Attendances.StatusLabel | attendance/serializers.py:16-17 | the label is "Present" exactly when the status is true and "Absent" exactly when it is false |
| Attendances.AttendanceStr | attendance/models.py:11-13 | the string form is exactly the username, " - ", the status label, " on " and the date: it starts with the first four, ends with the date and has their total length |
| Attendances.AttendanceJson | attendance/serializers.py:6-17 | the row document has the six serializer fields, nests student and course, and its label says "Present" exactly when present |
| Grades.NewGrade | grades/models.py:6-12 | a created grade's teacher is the creator and its date today's; the other fields come from the input |
| Grades.UpdateGrade | grades/views.py:78-80 | updating a grade keeps id, teacher and date; student, course, code and comment come from the input |
| Grades.PatchedGradeInput | grades/views.py:59-62 | the default PATCH merges the body into the row: each field present in the body is taken from it, each absent one is kept |
| Grades.EmptyGradePatch | grades/views.py:59-62 | a PATCH with an empty body saves the grade unchanged |
| Grades.GradeStr | grades/models.py:14-15 | the string form is exactly "Grade G for username in " followed by the course name: it starts with the first, ends with the second and has their total length |
| Notifications.NewNotification | notifications/views.py:45-47 | a created notification belongs to the caller, is unread and carries the creation time |
| Notifications.PatchNotification | notifications/views.py:67-69 | a partial update writes only the fields present; owner, id and creation time never change |
| Notifications.PatchEmpty | notifications/views.py:67 | an empty partial update changes nothing |
| Notifications.InboxOf | notifications/views.py:29 | exactly the user's notifications, newest first |
| Analytics.NewLog | analytics/middleware.py:11-16 | a middleware log row carries user, path, method, status and time, with no IP address or user agent |
| Analytics.LogStr | analytics/models.py:18-19 | the string form is exactly the user's email (or "None" for no user), " - ", the endpoint, " - " and the method, each at its own position, with their total length |
| Analytics.ShortIp | analytics/admin.py:8-9 | a missing or empty address shows "N/A", any other shows as it is |
| Analytics.ShortUserAgent | analytics/admin.py:11-12 | an agent over 50 characters shows its first 50 and "..."; any other shows as it is |
| Analytics.ShortUserAgentIdempotent | analytics/admin.py:11-12 | the shortened agent is at most 53 characters, and shortening it again changes nothing |
| Common.Upper | analytics/views.py:38 | upper-casing keeps the length and maps each character through the ASCII upper-case map |
| Common.UpperIdempotent | analytics/views.py:38 | upper-casing twice equals upper-casing once |
| Common.BeforeFirst | users/serializers.py:8 | `split(sep)[0]`: a prefix without `sep`, followed by `sep` when shorter than the string |
| Common.DecimalInjective | users/views.py:64 | different numbers render to different decimal strings |
| Cache.KeyTextInjective | users/views.py:64 | two cache keys with the same key string are the same key |
| Cache.ReadThrough | courses/views.py:28-35 | a hit serves the entry and changes nothing; a miss serves the computed value and stores it under its key |
| Cache.ReadThroughRepeatable | courses/views.py:28-35 | a second read with no write in between serves the same body and leaves the cache as it was |
| Cache.ReadAfterDeleteIsFresh | notifications/views.py:48 | after the key is deleted, the next read serves the value computed from the store |
| Cache.ReadThroughTouchesOnlyItsKey | courses/views.py:28-35 | a read leaves every other key as it was |
| Mail.CourseMail | courses/tasks.py:10-16 | a new-course mail has subject "New Course Available" and goes from the school address to one student; its message is pinned by Mail.CourseMailNamesCourse |
| Mail.CourseMailNamesCourse | courses/tasks.py:12 | the new-course message is exactly `A new course "`, the course name and `" has been added.`, so the name can be read back from it |
| Mail.AbsenceMail | attendance/tasks.py:9-15 | the absence mail has subject "Attendance Alert" and goes from the school address to one student; its message is pinned by Mail.AbsenceMailNamesCourse |
| Mail.AbsenceMailNamesCourse | attendance/tasks.py:11 | the absence message is exactly "You have been marked absent in ", the course name and ". Please contact your teacher." |
| Mail.ProfileUpdateMail | students/tasks.py:9-15 | the profile-update mail has a fixed subject and text and one recipient |
| Mail.GradeMail | grades/tests.py:49-55 | the new-grade mail has subject "New Grade Assigned" and goes from the school address to one student |
| Mail.GradeMailNamesCourseAndGrade | grades/tests.py:51 | the message is the fixed opening, the course, ": ", the grade and a full stop, so both can be read back |
| Mail.GradeMailExample | grades/tests.py:46-55 | the test's call: student@example.com, "Math 101" and "A" give exactly the expected subject, text, sender and recipient |
| Mail.TaskMails | courses/tasks.py:9-16 | a task sends one mail per recipient, in order, each to that recipient alone |
| Mail.CourseMails | courses/tasks.py:9-16 | the i-th fan-out mail is the course mail to the i-th address |
| Mail.DeliveredPrefix | courses/tasks.py:7-19 | mails up to the first refused one are sent, and the one after them is the refused one |
| Mail.NotifyStudentsAboutNewCourse | courses/tasks.py:6-19 | the loop sends exactly the mails before the first refusal, and reports failure exactly when some mail is refused |
| Mail.CourseFanOutReachesAll | courses/tasks.py:9-16 | when no mail is refused, every student gets exactly one mail, in list order |
| AnalyticsQuery.Filtered | analytics/views.py:33-38 | a log is kept exactly when it passes the user filter and the upper-cased method filter |
| AnalyticsQuery.FilteredMultiplicity | analytics/views.py:33-38 | a passing log is kept as many times as it was logged and a failing one not at all; when every log passes, the logs are kept unchanged and in order |
| AnalyticsQuery.NoFilterKeepsAll | analytics/views.py:33-38 | without parameters every log is counted |
| AnalyticsQuery.FiltersCompose | analytics/views.py:35-38 | both filters together equal the user filter followed by the method filter |
| AnalyticsQuery.CountsJson | analytics/views.py:40-44 | one `{"endpoint", "request_count"}` object per line, in order |
| AnalyticsQuery.BumpListed | analytics/views.py:40-41 | counting one more call adds its endpoint to the listed endpoints |
| AnalyticsQuery.BumpDistinct | analytics/views.py:40-41 | counting one more call keeps one line per endpoint |
| AnalyticsQuery.BumpCounts | analytics/views.py:40-41 | counting one more call raises that endpoint's count and the total by one |
| AnalyticsQuery.TallyFacts | analytics/views.py:40-41 | the grouping has one line per logged endpoint, each count positive and equal to that endpoint's number of logs, summing to the number of logs |
| AnalyticsQuery.DistinctCountIn | analytics/views.py:40-41 | with one line per endpoint, a line's count is the endpoint's total |
| AnalyticsQuery.EndpointCountsCorrect | analytics/views.py:29-44 | for all logs and filters: sorted by count descending, one line per endpoint, each count equal to the endpoint's number of filtered logs, every filtered endpoint listed, counts summing to the filtered total |
| AnalyticsQuery.ThreeLogsExample | analytics/tests.py:6-20 | two calls of /api/test1/ and one of /api/test2/ answer test1 with 2 first, then test2 with 1 |
| AnalyticsQuery.FilterByUserExample | analytics/tests.py:23-44 | with three logs of two users, the `user_id` filter leaves two lines, one per endpoint of that user |
| AnalyticsQuery.FilterByMethodExample | analytics/tests.py:23-44 | with the same three logs, the `method` filter `POST` leaves only /api/test2/ with 1 |
| Sorting.SortDescSorted | analytics/views.py:42 | `order_by('-field')` yields a non-increasing sequence |
| Sorting.SortDescMembers | analytics/views.py:42 | ordering keeps exactly the same elements |
| Sorting.SortDescSum | analytics/views.py:42 | ordering keeps every sum over the elements |
| Sorting.SortDescDistinct | analytics/views.py:42 | ordering keeps a column distinct |
| Database.OwnNotification | notifications/views.py:66 | a notification is found only if it has that id and belongs to the caller; one that does is found |
| Database.AddUser | users/serializers.py:6-9 | sign-up on a free email appends the created user, takes the next id and keeps the store valid |
| Database.AddProfile | students/models.py:4-7 | a profile for a user without one is appended with the next id; the store stays valid |
| Database.SaveUser | users/views.py:89-91 | saving a user replaces exactly that row by the edited user, leaves the other tables and the counter alone, and keeps the store valid |
| Database.DetachUser | analytics/models.py:5-10 | a log of the deleted user keeps its id and gets a null user; other logs are unchanged |
| Database.DeleteUser | users/views.py:110-111 | the user goes, with their profile and its attendance and grades and the grades they gave; logs remain with the user nulled; the store stays valid |
| Database.CascadeReferences | attendance/models.py:6-7 | what the cascade leaves refers only to rows it leaves |
| Database.SaveProfile | students/views.py:62-64 | saving a profile replaces exactly that row and keeps the store valid |
| Database.AddCourse | courses/views.py:50-52 | a created course is appended with the next id; the store stays valid |
| Database.SaveCourse | courses/views.py:82-84 | saving a course replaces exactly that row and keeps the store valid |
| Database.DeleteCourse | courses/views.py:60-63 | the default DELETE of a course removes exactly that course and, by the cascade of attendance/models.py:7 and grades/models.py:8, exactly its attendance rows and grades; nothing else changes and the store stays valid |
| Database.AddEnrollment | courses/views.py:111-113 | an enrollment is appended with the next id; the store stays valid |
| Database.AddAttendance | attendance/views.py:62-64 | a row naming an existing student and course is appended with today's date and the next id; the store stays valid |
| Database.SaveAttendance | attendance/views.py:98 | saving a row replaces exactly that row and keeps the store valid |
| Database.DeleteAttendance | attendance/views.py:109 | exactly the row with that id goes; the store stays valid |
| Database.AddGrade | grades/views.py:46-48 | a grade naming an existing student and course, with a code of at most two characters, is appended; the store stays valid |
| Database.SaveGrade | grades/views.py:78-80 | saving a grade replaces exactly that row and keeps the store valid |
| Database.DeleteGrade | grades/views.py:59-62 | the default DELETE of a grade removes exactly the grade with that id and keeps the store valid |
| Database.AddNotification | notifications/views.py:45-47 | a notification owned by the caller is appended with the next id |
| Database.SaveNotification | notifications/views.py:67-69 | saving a notification replaces exactly that row |
| Database.DeleteNotification | notifications/views.py:85-86 | exactly the notification with that id goes |
| Database.AppendLog | analytics/middleware.py:11-16 | one log row is appended at the end with the next id; nothing else changes |
| Policy.PatchSkipsAdminCheck | users/views.py:51-54 | as written, a student passes the permission check for PATCH on a user |
| Policy.UserWritesNeedAdmin | users/views.py:51-54 | corrected: PUT, PATCH and DELETE are admitted exactly for admins, GET for everyone; it never admits what the original refuses, and the two differ exactly on a PATCH by a non-admin |
| Policy.UserWriteAdmitted | users/views.py:51-54 | as written, only PUT and DELETE need an admin; corrected, PUT, PATCH and DELETE are admitted exactly for admins |
| Policy.VisibleUsers | users/views.py:19-25 | admins see every user, teachers exactly the student-role users, students nobody |
| Policy.VisibleStudents | students/views.py:19-25 | admins see every profile, teachers exactly those of student-role users, students none |
| Policy.VisibilityGrowsWithRole | users/views.py:19-25 | whatever a non-admin sees of users and profiles, an admin sees; a student sees nothing |
| Policy.VisibleAttendance | attendance/views.py:19-25 | a teacher sees exactly the rows of courses they teach, a student exactly their own rows, an admin is refused |
| Policy.AttendanceDenial | attendance/views.py:80-86 | admins pass; a refusal carries the teacher's or the student's message |
| Policy.DetailAgreesWithList | attendance/views.py:80-86 | a teacher or student may open a row exactly when their list shows it |
| Views.AbsenceNotices | attendance/views.py:65-69 | an absent row queues one absence task, a present row none; the task is addressed to the row's student's email and names the row's course |
| Views.AbsenceNoticeReachesStudent | attendance/views.py:65-69 | in a valid store, the notice of a stored absent row goes to the email of the user behind the row's student profile and names the row's course |
| Views.AllStudentEmails | courses/views.py:53 | one address per student profile, in table order: that profile's user's email |
| Views.AllStudentEmailsCoverEachStudentOnce | courses/views.py:53-54 | every student's email is in the new-course task, and no address appears twice |
| Views.ValidateAttendance | attendance/views.py:62-63 | a row is accepted exactly when the field checks passed and its student and course exist; a missing student or course is reported as a non-empty error body |
| Views.ValidateGrade | grades/views.py:46-47 | a grade is accepted exactly when the field checks passed, student and course exist and the code fits two characters |
| Views.ValidateEnrollment | courses/views.py:111-112 | an enrollment is accepted exactly when the field checks passed and its student and course exist |
| Views.AttendancePatchInput | attendance/views.py:75-78 | a PATCH body is accepted exactly when its field checks passed, and then stands for the row with the present fields replaced; a rejected body keeps its errors |
| Views.CoursePatchInput | courses/views.py:60-63 | the same for a course PATCH body |
| Views.GradePatchInput | grades/views.py:59-62 | the same for a grade PATCH body |
| Views.ValidateSignUp | users/models.py:11 | sign-up is accepted exactly when the field checks passed and no user holds the email |
| Views.Backend.SignUp | users/serializers.py:6-9 | a taken email is a 400 and changes nothing; otherwise the user is created and the answer is 201 with the create fields |
| Views.Backend.UserList | users/views.py:32-43 | the cache serves admins only; an admin reads through `user_list`; others get their role's view and nothing is cached |
| Views.Backend.RetrieveUser | users/views.py:61-76 | a cached user is served as it is; on a miss an unknown id is a 404 and a known one is served and cached |
| Views.Backend.UpdateUser | users/views.py:51-99 | a request the build's permission check refuses is a 403 with nothing changed; a missing user is a 404, bad input a 400; otherwise the row is saved and `user_{pk}` replaced. As written, a PATCH of an existing user with valid input is saved and answered 200 whatever the caller's role; corrected, a 200 implies an admin |
| Views.Backend.DestroyUser | users/views.py:106-118 | admin only; a missing user is a 404; otherwise the cascade runs, the id is gone, and `user_{pk}` and `user_list` leave the cache |
| Views.Backend.StudentList | students/views.py:32-43 | admins and teachers only; an admin reads through `student_list`, a teacher gets the filtered list uncached |
| Views.Backend.UpdateStudent | students/views.py:57-73 | admins and teachers only; a saved profile queues exactly one mail to the student's own address and replaces `student_{pk}` |
| Views.Backend.CourseList | courses/views.py:26-37 | the active courses, read through `course_list` for everyone |
| Views.Backend.CreateCourse | courses/views.py:45-57 | teachers only; the actor becomes instructor; one task carrying every student's email is queued; `course_list` is left as it was |
| Views.Backend.UpdateCourse | courses/views.py:71-92 | teachers only, and only the course's instructor; a 200 implies the caller instructed the course; `course_{pk}` is replaced |
| Views.Backend.PatchCourse | courses/views.py:60-63 | as written, DRF's default PATCH: a missing course is a 404, an invalid body a 400, otherwise the merged row is saved and returned with 200, whatever the caller's role; corrected, the checks of `put` come first (teachers only, only the instructor), so a 200 implies the caller instructed the course; the cache and the outbox never change |
| Views.Backend.DestroyCourse | courses/views.py:60-63 | as written, DRF's default DELETE: a missing course is a 404, otherwise the course, its attendance and its grades are deleted and the answer is 204, whatever the caller's role; corrected, teachers only and only the instructor |
| Views.Backend.Enroll | courses/views.py:106-116 | students only; an enrollment naming a missing student or course is a 400; a valid one is stored and answered with 201 |
| Views.Backend.AttendanceList | attendance/views.py:32-44 | a hit on the caller's key is served whatever the role; on a miss an admin is refused and others read through their own key |
| Views.Backend.CreateAttendance | attendance/views.py:57-72 | teachers only; a valid row is stored with today's date and queues exactly one absence mail when absent, none when present (only the corrected routing reaches this view) |
| Views.Backend.RetrieveAttendance | attendance/views.py:80-86 | a missing row is a 404, a row the caller may not open a 403, otherwise the row; nothing changes |
| Views.Backend.UpdateAttendance | attendance/views.py:94-98 | teachers only, then the ownership check, then validation; a 200 implies the caller teaches the row's course; no mail, no cache change |
| Views.Backend.PatchAttendance | attendance/views.py:75-86 | as written, DRF's default PATCH behind `get_object`: a missing row is a 404, a row the caller may not open a 403, an invalid merged row a 400, otherwise it is saved and answered 200; a student who sends only a status for their own row gets 200; corrected, a non-teacher is refused first, so a 200 implies a teacher |
| Views.Backend.DestroyAttendance | attendance/views.py:105-109 | teachers only, and only rows of their own courses; a 204 implies the caller teaches the row's course |
| Views.Backend.GradeList | grades/views.py:23-33 | every grade, read through `grade_list` |
| Views.Backend.CreateGrade | grades/views.py:40-56 | teachers only (403 with an `error` body); the actor becomes the grade's teacher; exactly one new-grade mail is queued; `grade_list` is left as it was |
| Views.Backend.UpdateGrade | grades/views.py:69-88 | teachers only, with no ownership check; a missing grade is a 404; otherwise saved and `grade_{pk}` replaced |
| Views.Backend.PatchGrade | grades/views.py:59-62 | as written, DRF's default PATCH: a missing grade is a 404, an invalid merged row a 400, otherwise it is saved and answered 200, whatever the caller's role; corrected, non-teachers get the 403 of `put` first |
| Views.Backend.DestroyGrade | grades/views.py:59-62 | as written, DRF's default DELETE: a missing grade is a 404, otherwise it is deleted and the answer is 204, whatever the caller's role; corrected, non-teachers get the 403 of `put` first |
| Views.Backend.NotificationList | notifications/views.py:21-36 | the caller's notifications, newest first, read through the caller's key; a failure is a 500 with nothing changed |
| Views.Backend.CreateNotification | notifications/views.py:43-52 | the owner is the caller; the caller's cached list is dropped |
| Views.Backend.UpdateNotification | notifications/views.py:63-76 | only the caller's own notification is found (anyone else's is a 404); a partial update; the caller's cached list is dropped |
| Views.Backend.DestroyNotification | notifications/views.py:82-92 | only the caller's own notification is removed; the caller's cached list is dropped |
| Views.Backend.Analytics | analytics/views.py:29-44 | the answer is the endpoint counts of the filtered logs; nothing changes |
| Middleware.Dispatch | analytics/middleware.py:8 | an anonymous call to a view that needs a login is a 401 with nothing changed; an authenticated call no view handles is a 405 with nothing changed; corrected, a non-teacher's attendance POST is a 403, and a non-admin's write to a user or a non-teacher's default PATCH or DELETE on attendance, courses or grades gets its view's 403, with nothing changed; as written, any caller's valid PATCH of an existing user is a 200, a student's status-only PATCH of their own attendance row a 200, and any caller's DELETE of an existing course or grade a 204 that deletes it; an unmodelled request answers with its own response and leaves the store it carries |
| Middleware.OutcomeFacts | analytics/middleware.py:8 | what each view family promises for a routed call (`RoutedOutcome`), restated clause by clause as `Dispatch` states it |
| Middleware.DefaultHandlersSkipRoleChecks | courses/views.py:60-63 | as written, a student's PATCH or DELETE on attendance, courses or grades passes every check before the handler, though the corrected build refuses it |
| Middleware.CorrectedDefaultHandlersCheckRole | courses/views.py:71-73 | corrected, such a call is refused exactly for non-teachers, with the 403 of the view's own `put` |
| Middleware.AttendanceCreateUnrouted | attendance/urls.py:4-7 | as written, the attendance create test's request is routed to no handler |
| Middleware.CorrectedRoutesEveryView | attendance/urls.py:4-7 | corrected, every modelled call is routed, and the builds differ exactly on the attendance POST |
| Middleware.LogRequest | analytics/middleware.py:11-16 | appends exactly one log row (caller, path, method, status, time) and changes nothing else |
| Middleware.Serve | analytics/middleware.py:7-17 | the view's response is returned unchanged: a 401 for an anonymous call to a protected view, a 405 for an authenticated unrouted call, the corrected build's 403s, the as-written 200s and 204s of the default handlers; after an `/api/` call the newest log row is the call's own, with its user, path, method and final status; a call the view refuses, and an unmodelled request, leave the view's store plus that log row under `/api/` and the view's store alone elsewhere |

## Left out

- Password hashing and storage, login and token issuing, and the permission
  class files are not part of this model. `IsAdmin` and `IsAdminOrTeacher`
  are taken to mean what their names say.
- Unauthenticated requests: DRF answers 401 or 403 depending on the
  authentication classes configured in settings, which are not shown. The
  model answers 401 "Authentication credentials were not provided." Sign-up
  and the analytics view, which names no permission class, are open to
  anonymous callers.
- The serializers' field checks (required fields, types, choices, lengths)
  are an input verdict `Checked<T>`. The model folds in only the checks that
  depend on the store: a taken email, a missing student or course (for
  attendance, grades and enrollments), a grade code longer than two
  characters.
- Views.Backend.UpdateStudent, Views.Backend.CreateAttendance, Views.Backend.UpdateAttendance: the serializers nest the user, student and course documents. DRF refuses to save writable nested fields by default, and that failure is not modelled. The input is taken as the writable scalar fields and the ids of the related rows.
- Database.DeleteUser: courses, enrollments and notifications are kept when a user is deleted. Their foreign keys to the user (`Course.instructor`, `Enrollment.student`, `Notification.user`) are declared in courses/models.py and notifications/models.py, which are not part of this model, so their `on_delete` is unknown. After a teacher is deleted, their courses keep a dangling instructor id, and the store invariant does not cover the references of these three tables.
- Database.SaveUser, Views.Backend.UpdateUser: the email cannot change on update. `User.USERNAME_FIELD` is `email` (users/models.py:13), and the user serializer inherits djoser's `read_only_fields = (LOGIN_FIELD,)`, which makes the login field, the email, read-only. The test in users/tests.py:147-156 expects a PUT to change the email. The model sides with the serializer; djoser's code is not part of this model.
- The id counter (`nextId` of `Database.Store`): one counter is shared by all tables and starts at 0, while the database numbers each table from 1. The ids in a 201 body therefore differ from the ones the program would return; only their uniqueness within a table and their order are modelled.
- Username uniqueness, which the user model inherits from Django's
  `AbstractUser`, is not part of the store invariant. Two users may share a
  username in the model.
- DRF's default PATCH and DELETE on the attendance, course and grade detail
  views are modelled (`Views.Backend.PatchAttendance`, `PatchCourse`,
  `DestroyCourse`, `PatchGrade`, `DestroyGrade`). The other default handlers
  the views do not override are not:
  - retrieving a course or a grade;
  - PATCH and DELETE on a student profile;
  - the list and create handlers of enrollments and student profiles;
  - the admin site and static files.

  `Middleware.Call.Other` stands for any such request. It carries the
  response it got and the store it leaves behind, which may hold any write
  such a handler makes, as long as the store invariant holds. The model
  states nothing else about it.
- A PATCH body is modelled as the fields it carries, each optional; the
  merged row is validated as a whole. DRF's per-field partial validation is
  not modelled beyond that.
- The 404 of a default handler is DRF's "No Attendance matches the given
  query."-style `detail` body, whose wording depends on the DRF version; the
  model answers with one fixed `detail` message.
- Views.Backend.DestroyCourse: the course's enrollments are kept. The
  `on_delete` of `Enrollment.course` is declared in courses/models.py, which
  is not part of this model; attendance rows and grades cascade
  (attendance/models.py:7, grades/models.py:8).
- The corrected DELETE handlers answer with the message of `put` on the same
  view (for example "Only teachers can update courses."); the code has no
  DELETE message for courses and grades to follow.
- courses/models.py, courses/serializers.py, notifications/models.py,
  notifications/serializers.py, grades/serializers.py and grades/tasks.py
  are not part of this model. The course and notification fields are
  assumed. The grade mail text follows the test of the grade mail
  (grades/tests.py).
- Cache entries never expire; the 300-second TTL is not modelled. Cache and
  database failures are a parameter of `NotificationList`, the only view
  that catches them. Elsewhere they are not modelled.
- Logging calls (`logger.info` / `logger.error`) have no observable effect
  and are left out.
- The mail queue is an outbox of tasks. Running a task is modelled by
  `Mail.TaskMails` and `Mail.NotifyStudentsAboutNewCourse`, with the mail
  transport's verdict as a parameter. Delivery itself is not modelled.
- Clock values (`today`, `now`) are parameters.
- The analytics `user_id` parameter is an optional number. A value that is
  not a number, which would make the query fail, is not modelled.
- Equal keys under `order_by`: the model keeps input order; the database
  leaves it unspecified.
- Analytics.NewLog: the 255-character `endpoint` and 10-character `method`
  column limits are not enforced; a longer path is stored whole.
- Upper-casing is ASCII only; Python's full Unicode case mapping is not
  modelled.
- Concurrency: requests are served one at a time.

## Findings

| source | as written | input that shows it | evidently intended | confidence | as-written member | corrected member |
|---|---|---|---|---|---|---|
| users/views.py:51-54 | `get_permissions` adds the admin check only for PUT and DELETE. DRF routes PATCH to `partial_update`, which calls the same `update` handler, so PATCH needs only a login. | A student sends PATCH to their own user with `{"username": "student1", "role": "admin"}`. The update handler validates with a full, non-partial serializer (users/views.py:89), so the username must be present. The check admits the request, and the handler saves the new role and answers 200. | Every write to a user (PUT, PATCH, DELETE) requires the admin role. | not executed | Policy.PatchSkipsAdminCheck | Policy.UserWritesNeedAdmin |
| courses/views.py:60-73 | The course detail view, and likewise the grade detail view (grades/views.py:59-74) and the attendance detail view (attendance/views.py:75-109), extend `RetrieveUpdateDestroyAPIView` with `IsAuthenticated` only and put their role checks inside `put` (and, for attendance, `delete`). DRF routes PATCH to `partial_update` and, for courses and grades, DELETE to `destroy`; neither runs those checks. | A student sends DELETE to `/api/courses/1/` for an existing course: the answer is 204 and the course goes, with its attendance and grades. A student sends PATCH `{"status": true}` for their own absent attendance row: `get_object` admits them and the answer is 200. | Every write on these views carries the role checks of `put`: teachers only, and for courses only the instructor. | not executed | Middleware.DefaultHandlersSkipRoleChecks | Middleware.CorrectedDefaultHandlersCheckRole |
| attendance/urls.py:4-7 | The URL file mounts only `AttendanceListView` and `AttendanceDetailView`. `AttendanceCreateView` (attendance/views.py:47-72) is never routed, so a POST to `/api/attendance/` reaches the list view, which has no POST handler, and DRF answers 405. | A teacher POSTs `{"student": 1, "course": 2, "status": true}` to `/api/attendance/`, as attendance/tests.py:17 does. The test expects 201; as written the answer is 405. | POST `/api/attendance/` reaches `AttendanceCreateView`, which answers 201 to a teacher and 403 "Only teachers can add attendance records." to a student (attendance/tests.py:19, 33-34). | not executed; the project-level URL file is not part of this model | Middleware.AttendanceCreateUnrouted | Middleware.CorrectedRoutesEveryView |

=== FILE: analytics.dfy ===
/** The request log kept by the analytics app, and the two display helpers of
    its admin page. */
module Analytics {
  import opened Common

  /** One logged API call. `user` is null for anonymous calls and becomes
      null when the user is deleted; `timestamp` is set at creation; the IP
      address and user agent are optional. */
  datatype ApiRequestLog = ApiRequestLog(id: nat, user: Option<nat>, endpoint: string, httpMethod: string,
                                         timestamp: int, statusCode: int,
                                         ipAddress: Option<string>, userAgent: Option<string>)

  function LogId(l: ApiRequestLog): nat { l.id }

  /** The declared widths of the `endpoint` and `method` columns. */
  const MaxEndpointLength: nat := 255
  const MaxMethodLength: nat := 10

  /** A log row as the middleware creates it: no IP address or user agent. */
  function NewLog(id: nat, user: Option<nat>, path: string, httpMethod: string, statusCode: int, now: int): (l: ApiRequestLog)
    ensures l.user == user && l.endpoint == path && l.httpMethod == httpMethod && l.statusCode == statusCode
    ensures l.timestamp == now && l.ipAddress.None? && l.userAgent.None?
  {
    ApiRequestLog(id, user, path, httpMethod, now, statusCode, None, None)
  }

  /** `str(log)`: "<user> - <endpoint> - <method>", where a user prints as
      its email and a missing user as "None". */
  function LogStr(l: ApiRequestLog, userEmail: Option<string>): (r: string)
    ensures userEmail.None? ==> StartsWith(r, "None - ")
    ensures userEmail.Some? ==> StartsWith(r, userEmail.value + " - ")
    ensures var who := if userEmail.Some? then userEmail.value else "None";
            var k := |who| + 3;
            && |r| == k + |l.endpoint| + 3 + |l.httpMethod|
            && r[k..k + |l.endpoint|] == l.endpoint
            && r[k + |l.endpoint|..|r| - |l.httpMethod|] == " - "
            && r[|r| - |l.httpMethod|..] == l.httpMethod
  {
    (if userEmail.Some? then userEmail.value else "None") + " - " + l.endpoint + " - " + l.httpMethod
  }

  /** `obj.ip_address or "N/A"`: a missing or empty address shows "N/A". */
  function ShortIp(ip: Option<string>): (r: string)
    ensures ip.Some? && ip.value != "" ==> r == ip.value
    ensures ip.None? || ip.value == "" ==> r == "N/A"
  {
    if ip.Some? && ip.value != "" then ip.value else "N/A"
  }

  const UserAgentWidth: nat := 50

  /** A user agent longer than 50 characters shows its first 50 followed by
      "..."; a shorter, empty or missing one shows as it is. */
  function ShortUserAgent(ua: Option<string>): (r: Option<string>)
    ensures ua.Some? && |ua.value| > UserAgentWidth ==>
              r.Some? && |r.value| == UserAgentWidth + 3
              && r.value[..UserAgentWidth] == ua.value[..UserAgentWidth]
              && r.value[UserAgentWidth..] == "..."
    ensures ua.None? || |ua.value| <= UserAgentWidth ==> r == ua
  {
    if ua.Some? && |ua.value| > UserAgentWidth then Some(ua.value[..UserAgentWidth] + "...") else ua
  }

  /** The shortened agent is never longer than 53 characters, and shortening
      it again changes nothing. */
  lemma ShortUserAgentIdempotent(ua: Option<string>)
    ensures ShortUserAgent(ua).Some? ==> |ShortUserAgent(ua).value| <= UserAgentWidth + 3
    ensures ShortUserAgent(ShortUserAgent(ua)) == ShortUserAgent(ua)
  {
    if ua.Some? && |ua.value| > UserAgentWidth {
      var once := ShortUserAgent(ua).value;
      assert once[..UserAgentWidth] + "..." == once;
    }
  }
}

=== FILE: analytics_query.dfy ===
/** The analytics view: the request logs, optionally narrowed to one user and
    one HTTP method, grouped by endpoint with a count per endpoint, ordered by
    count, largest first. */
module AnalyticsQuery {
  import opened Common
  import opened Sorting
  import opened Analytics

  /** The query parameters. A missing or empty `user_id` is `None`; a
      missing or empty `method` is ignored. */
  datatype QueryFilter = QueryFilter(userId: Option<nat>, httpMethod: Option<string>)

  /** One line of the answer: `{"endpoint": ..., "request_count": ...}`. */
  datatype EndpointCount = EndpointCount(endpoint: string, count: nat)

  function EndpointOf(r: EndpointCount): string { r.endpoint }
  function CountOf(r: EndpointCount): int { r.count }

  predicate MethodFilterOn(f: QueryFilter)
  {
    f.httpMethod.Some? && f.httpMethod.value != ""
  }

  /** Whether a log passes both filters: the user filter compares the log's
      user, the method filter compares with the upper-cased parameter. */
  predicate Keep(f: QueryFilter, l: ApiRequestLog)
  {
    && (f.userId.Some? ==> l.user == Some(f.userId.value))
    && (MethodFilterOn(f) ==> l.httpMethod == Upper(f.httpMethod.value))
  }

  /** `logs.filter(user_id=...)` then `.filter(method=method.upper())`. */
  function Filtered(logs: seq<ApiRequestLog>, f: QueryFilter): (r: seq<ApiRequestLog>)
    ensures forall l :: l in r <==> l in logs && Keep(f, l)
  {
    if logs == [] then []
    else if Keep(f, logs[0]) then [logs[0]] + Filtered(logs[1..], f)
    else Filtered(logs[1..], f)
  }

  /** Filtering keeps every passing log as often as it was logged and drops
      every other; when every log passes, nothing is dropped or reordered. */
  lemma {:induction false} FilteredMultiplicity(logs: seq<ApiRequestLog>, f: QueryFilter)
    ensures forall l :: multiset(Filtered(logs, f))[l] == if Keep(f, l) then multiset(logs)[l] else 0
    ensures (forall l :: l in logs ==> Keep(f, l)) ==> Filtered(logs, f) == logs
  {
    if logs != [] {
      var x, rest := logs[0], logs[1..];
      FilteredMultiplicity(rest, f);
      assert logs == [x] + rest;
      assert multiset(logs) == multiset{x} + multiset(rest);
      if Keep(f, x) {
        assert Filtered(logs, f) == [x] + Filtered(rest, f);
        assert multiset(Filtered(logs, f)) == multiset{x} + multiset(Filtered(rest, f));
      } else {
        assert Filtered(logs, f) == Filtered(rest, f);
      }
    }
  }

  /** Without parameters every log is counted. */
  lemma {:induction false} NoFilterKeepsAll(logs: seq<ApiRequestLog>)
    ensures Filtered(logs, QueryFilter(None, None)) == logs
  {
    if logs != [] {
      NoFilterKeepsAll(logs[1..]);
      assert logs == [logs[0]] + logs[1..];
    }
  }

  /** Both parameters together give the logs that pass each one alone. */
  lemma {:induction false} FiltersCompose(logs: seq<ApiRequestLog>, u: Option<nat>, m: Option<string>)
    ensures Filtered(logs, QueryFilter(u, m)) == Filtered(Filtered(logs, QueryFilter(u, None)), QueryFilter(None, m))
  {
    if logs != [] {
      FiltersCompose(logs[1..], u, m);
    }
  }

  /** The number of logs of an endpoint. */
  function CountEndpoint(logs: seq<ApiRequestLog>, e: string): nat
  {
    if logs == [] then 0
    else CountEndpoint(logs[..|logs| - 1], e) + (if logs[|logs| - 1].endpoint == e then 1 else 0)
  }

  /** The endpoints that occur in the logs. */
  function LoggedEndpoints(logs: seq<ApiRequestLog>): set<string>
  {
    set l | l in logs :: l.endpoint
  }

  /** The endpoints that have a line in the answer. */
  function Listed(rows: seq<EndpointCount>): set<string>
  {
    set r | r in rows :: r.endpoint
  }

  /** The total count of an endpoint over the lines that carry it. */
  function CountIn(rows: seq<EndpointCount>, e: string): nat
  {
    if rows == [] then 0
    else (if rows[0].endpoint == e then rows[0].count else 0) + CountIn(rows[1..], e)
  }

  /** Counts one more call of `e`: its line grows by one, or a new line with
      count 1 is added at the end. */
  function Bump(rows: seq<EndpointCount>, e: string): seq<EndpointCount>
  {
    if rows == [] then [EndpointCount(e, 1)]
    else if rows[0].endpoint == e then [EndpointCount(e, rows[0].count + 1)] + rows[1..]
    else [rows[0]] + Bump(rows[1..], e)
  }

  /** `values('endpoint').annotate(request_count=Count('id'))`: one line per
      endpoint, in order of first appearance. */
  function Tally(logs: seq<ApiRequestLog>): seq<EndpointCount>
  {
    if logs == [] then [] else Bump(Tally(logs[..|logs| - 1]), logs[|logs| - 1].endpoint)
  }

  /** The whole query: filter, group, order by count, largest first. */
  function EndpointCounts(logs: seq<ApiRequestLog>, f: QueryFilter): seq<EndpointCount>
  {
    SortDesc(Tally(Filtered(logs, f)), CountOf)
  }

  /** The response body. */
  function CountsJson(rows: seq<EndpointCount>): (j: Json)
    ensures j.JList? && |j.items| == |rows|
    ensures forall i :: 0 <= i < |rows| ==>
              j.items[i] == JObj([("endpoint", JStr(rows[i].endpoint)), ("request_count", JInt(rows[i].count))])
  {
    if rows == [] then JList([])
    else JList([JObj([("endpoint", JStr(rows[0].endpoint)), ("request_count", JInt(rows[0].count))])]
               + CountsJson(rows[1..]).items)
  }

  /** Bumping adds `e` to the listed endpoints. */
  lemma {:induction false} BumpListed(rows: seq<EndpointCount>, e: string)
    ensures Listed(Bump(rows, e)) == Listed(rows) + {e}
  {
    if rows == [] {
      assert Bump(rows, e) == [EndpointCount(e, 1)];
    } else {
      var head, tail := rows[0], rows[1..];
      assert forall r :: r in rows <==> r == head || r in tail;
      assert Listed(rows) == {head.endpoint} + Listed(tail);
      var b := Bump(rows, e);
      if head.endpoint == e {
        assert forall r :: r in b <==> r == b[0] || r in tail;
        assert Listed(b) == {e} + Listed(tail);
      } else {
        BumpListed(tail, e);
        var bt := Bump(tail, e);
        assert b == [head] + bt;
        assert forall r :: r in b <==> r == head || r in bt;
        assert Listed(b) == {head.endpoint} + Listed(bt);
      }
    }
  }

  /** Bumping keeps one line per endpoint. */
  lemma {:induction false} BumpDistinct(rows: seq<EndpointCount>, e: string)
    requires DistinctBy(rows, EndpointOf)
    ensures DistinctBy(Bump(rows, e), EndpointOf)
  {
    if rows != [] {
      var head, tail := rows[0], rows[1..];
      assert rows == [head] + tail;
      ConsDistinct(head, tail, EndpointOf);
      if head.endpoint == e {
        ConsDistinct(EndpointCount(e, head.count + 1), tail, EndpointOf);
      } else {
        var bt := Bump(tail, e);
        BumpDistinct(tail, e);
        BumpListed(tail, e);
        forall y | y in bt ensures EndpointOf(y) != EndpointOf(head) {
          assert y.endpoint in Listed(bt);
          if y.endpoint != e {
            var z :| z in tail && z.endpoint == y.endpoint;
          }
        }
        ConsDistinct(head, bt, EndpointOf);
      }
    }
  }

  /** Bumping adds one to the count of `e` and to the total, and keeps every
      count positive. */
  lemma {:induction false} BumpCounts(rows: seq<EndpointCount>, e: string)
    requires forall r :: r in rows ==> r.count >= 1
    ensures forall r :: r in Bump(rows, e) ==> r.count >= 1
    ensures forall x :: CountIn(Bump(rows, e), x) == CountIn(rows, x) + (if x == e then 1 else 0)
    ensures SumBy(Bump(rows, e), CountOf) == SumBy(rows, CountOf) + 1
  {
    if rows == [] {
      assert Bump(rows, e)[1..] == [];
    } else {
      var b := Bump(rows, e);
      if rows[0].endpoint == e {
        assert b[1..] == rows[1..];
      } else {
        BumpCounts(rows[1..], e);
        assert b[1..] == Bump(rows[1..], e);
      }
    }
  }

  /** The grouped lines: one per endpoint occurring in the logs, each with a
      positive count equal to that endpoint's number of logs; the counts add
      up to the number of logs. */
  lemma {:induction false} TallyFacts(logs: seq<ApiRequestLog>)
    ensures DistinctBy(Tally(logs), EndpointOf)
    ensures forall r :: r in Tally(logs) ==> r.count >= 1
    ensures Listed(Tally(logs)) == LoggedEndpoints(logs)
    ensures forall x :: CountIn(Tally(logs), x) == CountEndpoint(logs, x)
    ensures SumBy(Tally(logs), CountOf) == |logs|
  {
    if logs != [] {
      var init, last := logs[..|logs| - 1], logs[|logs| - 1];
      TallyFacts(init);
      BumpDistinct(Tally(init), last.endpoint);
      BumpListed(Tally(init), last.endpoint);
      BumpCounts(Tally(init), last.endpoint);
      assert LoggedEndpoints(logs) == LoggedEndpoints(init) + {last.endpoint} by {
        assert logs == init + [last];
        assert forall l :: l in logs <==> l in init || l == last;
      }
    }
  }

  /** With one line per endpoint, a line's count is the endpoint's total. */
  lemma {:induction false} DistinctCountIn(rows: seq<EndpointCount>, r: EndpointCount)
    requires DistinctBy(rows, EndpointOf)
    requires r in rows
    ensures CountIn(rows, r.endpoint) == r.count
  {
    if rows[0] != r {
      var tail := rows[1..];
      assert DistinctBy(tail, EndpointOf) by {
        forall i, j | 0 <= i < j < |tail| ensures tail[i].endpoint != tail[j].endpoint {
          assert rows[i + 1] == tail[i] && rows[j + 1] == tail[j];
        }
      }
      var k :| 0 <= k < |tail| && tail[k] == r;
      assert rows[k + 1] == r;
      DistinctCountIn(tail, r);
    } else {
      CountInAbsent(rows[1..], r.endpoint, rows);
    }
  }

  /** An endpoint with no line in `tail` counts zero there. */
  lemma {:induction false} CountInAbsent(tail: seq<EndpointCount>, e: string, rows: seq<EndpointCount>)
    requires DistinctBy(rows, EndpointOf) && |rows| > 0 && tail == rows[1..] && rows[0].endpoint == e
    ensures CountIn(tail, e) == 0
  {
    if tail != [] {
      assert rows[1].endpoint != e;
      var rows' := [rows[0]] + tail[1..];
      assert DistinctBy(rows', EndpointOf) by {
        forall i, j | 0 <= i < j < |rows'| ensures rows'[i].endpoint != rows'[j].endpoint {
          if i == 0 { assert rows'[j] == rows[j + 1]; }
          else { assert rows'[i] == rows[i + 1] && rows'[j] == rows[j + 1]; }
        }
      }
      CountInAbsent(tail[1..], e, rows');
    }
  }

  /** What the analytics view answers, for every log table and filter:
      - the lines are ordered by count, largest first;
      - each endpoint has at most one line;
      - each line's count is the number of filtered logs of its endpoint,
        and is positive;
      - every endpoint of a filtered log has a line;
      - the counts add up to the number of filtered logs. */
  lemma EndpointCountsCorrect(logs: seq<ApiRequestLog>, f: QueryFilter)
    ensures SortedDesc(EndpointCounts(logs, f), CountOf)
    ensures DistinctBy(EndpointCounts(logs, f), EndpointOf)
    ensures forall r :: r in EndpointCounts(logs, f) ==>
              r.count == CountEndpoint(Filtered(logs, f), r.endpoint) && r.count >= 1
    ensures Listed(EndpointCounts(logs, f)) == LoggedEndpoints(Filtered(logs, f))
    ensures SumBy(EndpointCounts(logs, f), CountOf) == |Filtered(logs, f)|
  {
    var t := Tally(Filtered(logs, f));
    TallyFacts(Filtered(logs, f));
    SortDescSorted(t, CountOf);
    SortDescDistinct(t, CountOf, EndpointOf);
    SortDescSum(t, CountOf, CountOf);
    forall r ensures r in SortDesc(t, CountOf) <==> r in t {
      SortDescMembers(t, CountOf, r);
    }
    forall r | r in t ensures r.count == CountEndpoint(Filtered(logs, f), r.endpoint) {
      DistinctCountIn(t, r);
    }
    assert Listed(SortDesc(t, CountOf)) == Listed(t);
  }

  /** The two-endpoint example: two calls of /api/test1/ and one of
      /api/test2/ give test1 first with count 2, then test2 with count 1. */
  lemma ThreeLogsExample(u: nat)
    ensures EndpointCounts([ApiRequestLog(1, Some(u), "/api/test1/", "GET", 0, 200, None, None),
                            ApiRequestLog(2, Some(u), "/api/test1/", "POST", 0, 201, None, None),
                            ApiRequestLog(3, Some(u), "/api/test2/", "GET", 0, 404, None, None)],
                           QueryFilter(None, None))
            == [EndpointCount("/api/test1/", 2), EndpointCount("/api/test2/", 1)]
  {
    var logs := [ApiRequestLog(1, Some(u), "/api/test1/", "GET", 0, 200, None, None),
                 ApiRequestLog(2, Some(u), "/api/test1/", "POST", 0, 201, None, None),
                 ApiRequestLog(3, Some(u), "/api/test2/", "GET", 0, 404, None, None)];
    var a, b := EndpointCount("/api/test1/", 2), EndpointCount("/api/test2/", 1);
    NoFilterKeepsAll(logs);
    assert logs[..|logs| - 1] == logs[..2];
    assert logs[..2][..1] == [logs[0]];
    assert [logs[0]][..0] == [];
    assert Tally([logs[0]]) == [EndpointCount("/api/test1/", 1)];
    assert Tally(logs[..2]) == [a];
    assert "/api/test1/" != "/api/test2/" by { assert "/api/test1/"[9] != "/api/test2/"[9]; }
    assert Bump([a], "/api/test2/") == [a, b];
    assert Tally(logs) == [a, b];
    assert SortDesc([b], CountOf) == [b];
    assert [a, b][1..] == [b];
  }

  /** The filtered case, by user: with three logs of two users, the
      `user_id` filter leaves one line per endpoint of that user. */
  lemma FilterByUserExample(u1: nat, u2: nat)
    requires u1 != u2
    ensures var logs := [ApiRequestLog(1, Some(u1), "/api/test1/", "GET", 0, 200, None, None),
                         ApiRequestLog(2, Some(u2), "/api/test1/", "GET", 0, 200, None, None),
                         ApiRequestLog(3, Some(u1), "/api/test2/", "POST", 0, 201, None, None)];
            |EndpointCounts(logs, QueryFilter(Some(u1), None))| == 2
  {
    var logs := [ApiRequestLog(1, Some(u1), "/api/test1/", "GET", 0, 200, None, None),
                 ApiRequestLog(2, Some(u2), "/api/test1/", "GET", 0, 200, None, None),
                 ApiRequestLog(3, Some(u1), "/api/test2/", "POST", 0, 201, None, None)];
    assert "/api/test1/" != "/api/test2/" by { assert "/api/test1/"[9] != "/api/test2/"[9]; }
    var fu := QueryFilter(Some(u1), None);
    var tail := logs[1..][1..];
    assert tail == [logs[2]] && tail[1..] == [];
    assert Filtered(tail, fu) == [logs[2]];
    assert Filtered(logs[1..], fu) == [logs[2]];
    var byUser := Filtered(logs, fu);
    assert byUser == [logs[0], logs[2]];
    assert byUser[..1] == [logs[0]] && [logs[0]][..0] == [];
    assert Tally([logs[0]]) == [EndpointCount("/api/test1/", 1)];
    assert byUser[..|byUser| - 1] == [logs[0]];
    assert Bump([EndpointCount("/api/test1/", 1)], "/api/test2/")
           == [EndpointCount("/api/test1/", 1), EndpointCount("/api/test2/", 1)];
    assert Tally(byUser) == [EndpointCount("/api/test1/", 1), EndpointCount("/api/test2/", 1)];
  }

  /** The filtered case, by method: the `method` filter `POST` leaves only
      the endpoint called with POST. */
  lemma FilterByMethodExample(u1: nat, u2: nat)
    ensures var logs := [ApiRequestLog(1, Some(u1), "/api/test1/", "GET", 0, 200, None, None),
                         ApiRequestLog(2, Some(u2), "/api/test1/", "GET", 0, 200, None, None),
                         ApiRequestLog(3, Some(u1), "/api/test2/", "POST", 0, 201, None, None)];
            EndpointCounts(logs, QueryFilter(None, Some("POST"))) == [EndpointCount("/api/test2/", 1)]
  {
    var logs := [ApiRequestLog(1, Some(u1), "/api/test1/", "GET", 0, 200, None, None),
                 ApiRequestLog(2, Some(u2), "/api/test1/", "GET", 0, 200, None, None),
                 ApiRequestLog(3, Some(u1), "/api/test2/", "POST", 0, 201, None, None)];
    var fm := QueryFilter(None, Some("POST"));
    var tail := logs[1..][1..];
    assert tail == [logs[2]] && tail[1..] == [];
    assert Upper("POST") == "POST";
    assert Filtered(tail, fm) == [logs[2]];
    assert Filtered(logs[1..], fm) == [logs[2]];
    var byMethod := Filtered(logs, fm);
    assert byMethod == [logs[2]];
    assert byMethod[..0] == [];
    assert Tally(byMethod) == [EndpointCount("/api/test2/", 1)];
  }
}

=== FILE: attendance.dfy ===
/** Attendance rows: which student was present or absent in which course on
    which date, their string form and the serializer's status label. */
module Attendances {
  import opened Common
  import opened Users

  /** `date` is set to today's date when the row is created; `status` is
      the required present (true) / absent (false) flag. */
  datatype Attendance = Attendance(id: nat, studentId: nat, courseId: nat, date: string, status: bool)

  function AttendanceId(a: Attendance): nat { a.id }

  /** The fields a caller writes; `date` is read-only. */
  datatype AttendanceInput = AttendanceInput(studentId: nat, courseId: nat, status: bool)

  /** A row created from validated input: the date is today's. */
  function NewAttendance(id: nat, input: AttendanceInput, today: string): (a: Attendance)
    ensures a.date == today && a.status == input.status
    ensures a.studentId == input.studentId && a.courseId == input.courseId && a.id == id
  {
    Attendance(id, input.studentId, input.courseId, today, input.status)
  }

  /** `serializer.save()` on a row: the date and the id stay. */
  function UpdateAttendance(a: Attendance, input: AttendanceInput): (r: Attendance)
    ensures r.id == a.id && r.date == a.date
    ensures r.status == input.status && r.studentId == input.studentId && r.courseId == input.courseId
  {
    a.(studentId := input.studentId, courseId := input.courseId, status := input.status)
  }

  /** The body of a PATCH: the fields it leaves out are `None`. */
  datatype AttendancePatchBody = AttendancePatchBody(studentId: Option<nat>, courseId: Option<nat>, status: Option<bool>)

  /** What a serializer with `partial=True` validates and saves: the
      patched fields, and the row's own value for every field left out. */
  function PatchedAttendanceInput(a: Attendance, p: AttendancePatchBody): (r: AttendanceInput)
    ensures p.studentId.Some? ==> r.studentId == p.studentId.value
    ensures p.studentId.None? ==> r.studentId == a.studentId
    ensures p.courseId.Some? ==> r.courseId == p.courseId.value
    ensures p.courseId.None? ==> r.courseId == a.courseId
    ensures p.status.Some? ==> r.status == p.status.value
    ensures p.status.None? ==> r.status == a.status
  {
    AttendanceInput(if p.studentId.Some? then p.studentId.value else a.studentId,
                    if p.courseId.Some? then p.courseId.value else a.courseId,
                    if p.status.Some? then p.status.value else a.status)
  }

  /** An empty PATCH saves the row as it was. */
  lemma EmptyAttendancePatch(a: Attendance)
    ensures UpdateAttendance(a, PatchedAttendanceInput(a, AttendancePatchBody(None, None, None))) == a
  {
  }

  /** The label used by `str()` and by the serializer's `status_label`. */
  function StatusLabel(status: bool): (r: string)
    ensures r == "Present" <==> status
    ensures r == "Absent" <==> !status
  {
    if status then "Present" else "Absent"
  }

  /** `str(attendance)`: "username - Present on date" or "... Absent on ...". */
  function AttendanceStr(a: Attendance, username: string): (r: string)
    ensures StartsWith(r, username + " - " + StatusLabel(a.status) + " on ")
    ensures |r| == |username| + 3 + |StatusLabel(a.status)| + 4 + |a.date|
    ensures r[|r| - |a.date|..] == a.date
  {
    username + " - " + StatusLabel(a.status) + " on " + a.date
  }

  /** `AttendanceSerializer(row).data`, given the nested student and course
      documents. */
  function AttendanceJson(a: Attendance, student: Json, course: Json): (j: Json)
    ensures j.JObj? && Keys(j.fields) == ["id", "student", "course", "date", "status", "status_label"]
    ensures j.fields[1].1 == student && j.fields[2].1 == course
    ensures j.fields[5].1 == JStr("Present") <==> a.status
  {
    JObj([("id", JInt(a.id)), ("student", student), ("course", course), ("date", JStr(a.date)),
          ("status", JBool(a.status)), ("status_label", JStr(StatusLabel(a.status)))])
  }
}

=== FILE: cache.dfy ===
/** The cache entries the views read and write. Each entry is named by a
    string key; the model names them by a datatype and proves that the
    rendering to the view's key strings is one-to-one, so distinct entries of
    the model are distinct entries of the cache. Entries are treated as never
    expiring. */
module Cache {
  import opened Common

  datatype CacheKey =
    | UserListKey                     // 'user_list'
    | UserKey(pk: nat)                // f'user_{pk}'
    | StudentListKey                  // 'student_list'
    | StudentKey(pk: nat)             // f'student_{pk}'
    | CourseListKey                   // 'course_list'
    | CourseKey(pk: nat)              // f'course_{pk}'
    | AttendanceListKey(userId: nat)  // f'attendance_list_{user.id}'
    | GradeListKey                    // 'grade_list'
    | GradeKey(pk: nat)               // f'grade_{pk}'
    | NotificationsKey(userId: nat)   // f'notifications_{user.id}'

  type CacheStore = map<CacheKey, Json>

  /** The fixed part of a key's text. */
  function Prefix(k: CacheKey): string
  {
    match k
    case UserListKey => "user_list"
    case UserKey(_) => "user_"
    case StudentListKey => "student_list"
    case StudentKey(_) => "student_"
    case CourseListKey => "course_list"
    case CourseKey(_) => "course_"
    case AttendanceListKey(_) => "attendance_list_"
    case GradeListKey => "grade_list"
    case GradeKey(_) => "grade_"
    case NotificationsKey(_) => "notifications_"
  }

  /** The number a key carries, if any. */
  function Number(k: CacheKey): Option<nat>
  {
    match k
    case UserKey(pk) => Some(pk)
    case StudentKey(pk) => Some(pk)
    case CourseKey(pk) => Some(pk)
    case AttendanceListKey(u) => Some(u)
    case GradeKey(pk) => Some(pk)
    case NotificationsKey(u) => Some(u)
    case _ => None
  }

  /** The key string the views use. */
  function KeyText(k: CacheKey): string
  {
    Prefix(k) + (if Number(k).Some? then Decimal(Number(k).value) else "")
  }

  predicate NoDigits(s: string)
  {
    forall i :: 0 <= i < |s| ==> !('0' <= s[i] <= '9')
  }

  /** A digit-free prefix followed by a number splits only one way. */
  lemma SplitUnique(p1: string, n: nat, p2: string, m: nat)
    requires NoDigits(p1) && NoDigits(p2)
    requires p1 + Decimal(n) == p2 + Decimal(m)
    ensures p1 == p2 && n == m
  {
    var t := p1 + Decimal(n);
    assert '0' <= t[|p1|] <= '9' && '0' <= (p2 + Decimal(m))[|p1|] <= '9';
    assert '0' <= t[|p2|] <= '9' && '0' <= (p1 + Decimal(n))[|p2|] <= '9';
    assert |p1| == |p2|;
    assert p1 == t[..|p1|] == p2;
    assert Decimal(n) == t[|p1|..] == Decimal(m);
    DecimalInjective(n, m);
  }

  /** The prefix alone tells the kind of key. */
  lemma PrefixDetermines(a: CacheKey, b: CacheKey)
    requires Prefix(a) == Prefix(b)
    ensures Number(a).Some? == Number(b).Some?
    ensures Number(a) == Number(b) ==> a == b
  {
    assert |Prefix(a)| == |Prefix(b)|;
  }

  lemma PrefixNoDigits(k: CacheKey)
    ensures NoDigits(Prefix(k))
  {
    match k
    case UserListKey =>
    case UserKey(_) =>
    case StudentListKey =>
    case StudentKey(_) =>
    case CourseListKey =>
    case CourseKey(_) =>
    case AttendanceListKey(_) =>
    case GradeListKey =>
    case GradeKey(_) =>
    case NotificationsKey(_) =>
  }

  /** A key with a number ends in a digit; one without does not. */
  lemma LastCharTellsNumber(k: CacheKey)
    ensures |KeyText(k)| > 0
    ensures ('0' <= KeyText(k)[|KeyText(k)| - 1] <= '9') <==> Number(k).Some?
  {
    PrefixNoDigits(k);
    if Number(k).Some? {
      var d := Decimal(Number(k).value);
      assert KeyText(k)[|KeyText(k)| - 1] == d[|d| - 1];
    } else {
      assert KeyText(k) == Prefix(k);
    }
  }

  /** Two keys with the same text are the same key. */
  lemma KeyTextInjective(a: CacheKey, b: CacheKey)
    requires KeyText(a) == KeyText(b)
    ensures a == b
  {
    LastCharTellsNumber(a);
    LastCharTellsNumber(b);
    PrefixNoDigits(a);
    PrefixNoDigits(b);
    if Number(a).Some? {
      SplitUnique(Prefix(a), Number(a).value, Prefix(b), Number(b).value);
    }
    PrefixDetermines(a, b);
  }

  /** `if cached:`: an entry serves a read only when present and non-empty. */
  predicate Hit(c: CacheStore, k: CacheKey)
  {
    k in c && Truthy(c[k])
  }

  /** A cache-aside read of `k`: a hit serves the entry and changes
      nothing; a miss serves `computed`, the value computed from the store, and
      keeps it under `k`. */
  function ReadThrough(c: CacheStore, k: CacheKey, computed: Json): (r: (Json, CacheStore))
    ensures Hit(c, k) ==> r == (c[k], c)
    ensures !Hit(c, k) ==> r == (computed, c[k := computed])
  {
    if Hit(c, k) then (c[k], c) else (computed, c[k := computed])
  }

  /** Reading twice with no write in between serves the same body twice and
      leaves the cache as the first read left it. */
  lemma ReadThroughRepeatable(c: CacheStore, k: CacheKey, computed: Json)
    ensures ReadThrough(ReadThrough(c, k, computed).1, k, computed) == ReadThrough(c, k, computed)
  {
    if !Hit(c, k) && !Truthy(computed) {
      assert c[k := computed][k := computed] == c[k := computed];
    }
  }

  /** Once a write has deleted `k`, the next read serves the store's
      current value, never the old entry. */
  lemma ReadAfterDeleteIsFresh(c: CacheStore, k: CacheKey, computed: Json)
    ensures ReadThrough(c - {k}, k, computed).0 == computed
  {
  }

  /** A read touches no key but its own. */
  lemma ReadThroughTouchesOnlyItsKey(c: CacheStore, k: CacheKey, computed: Json, other: CacheKey)
    requires other != k
    ensures other in ReadThrough(c, k, computed).1 <==> other in c
    ensures other in c ==> ReadThrough(c, k, computed).1[other] == c[other]
  {
  }
}

=== FILE: common.dfy ===
/** Values shared by every part of the backend: optional values, the JSON
    bodies that responses and cache entries carry, and the few string
    operations the views use. */
module Common {

  datatype Option<T> = None | Some(value: T)

  /** A JSON document, as produced by a serializer and kept in the cache. */
  datatype Json =
    | JNull
    | JBool(b: bool)
    | JInt(i: int)
    | JStr(s: string)
    | JList(items: seq<Json>)
    | JObj(fields: seq<(string, Json)>)

  /** Python truthiness of a cached value: `if cached:` treats None, empty
      strings, zero, False and empty lists or dicts as a miss. */
  predicate Truthy(v: Json)
  {
    match v
    case JNull => false
    case JBool(b) => b
    case JInt(i) => i != 0
    case JStr(s) => s != ""
    case JList(items) => items != []
    case JObj(fields) => fields != []
  }

  /** The field names of a JSON object, in order. */
  function Keys(fields: seq<(string, Json)>): (r: seq<string>)
    ensures |r| == |fields|
    ensures forall i :: 0 <= i < |fields| ==> r[i] == fields[i].0
  {
    if fields == [] then [] else [fields[0].0] + Keys(fields[1..])
  }

  /** An optional string as JSON: a missing value is null. */
  function OptStr(o: Option<string>): Json
  {
    match o
    case None => JNull
    case Some(s) => JStr(s)
  }

  /** Python's `s.startswith(p)`. */
  predicate StartsWith(s: string, p: string)
  {
    |p| <= |s| && s[..|p|] == p
  }

  /** Upper-casing of one character; only the ASCII letters change. */
  function UpperChar(c: char): (r: char)
    ensures 'a' <= c <= 'z' ==> 'A' <= r <= 'Z'
    ensures !('a' <= c <= 'z') ==> r == c
  {
    if 'a' <= c <= 'z' then (c as int - 'a' as int + 'A' as int) as char else c
  }

  /** Python's `s.upper()`, restricted to ASCII letters. */
  function Upper(s: string): (r: string)
    ensures |r| == |s|
    ensures forall i :: 0 <= i < |s| ==> r[i] == UpperChar(s[i])
  {
    if s == [] then [] else [UpperChar(s[0])] + Upper(s[1..])
  }

  /** Upper-casing twice is upper-casing once. */
  lemma UpperIdempotent(s: string)
    ensures Upper(Upper(s)) == Upper(s)
  {
    assert forall i :: 0 <= i < |s| ==> Upper(Upper(s))[i] == Upper(s)[i];
  }

  /** Python's `s.split(sep)[0]`: the text before the first `sep`, or all of
      `s` when `sep` does not occur. */
  function BeforeFirst(s: string, sep: char): (r: string)
    ensures |r| <= |s| && r == s[..|r|]
    ensures sep !in r
    ensures |r| < |s| ==> s[|r|] == sep
  {
    if s == [] then []
    else if s[0] == sep then []
    else [s[0]] + BeforeFirst(s[1..], sep)
  }

  /** The decimal form of a natural number, as Python's `str(n)` writes it. */
  function Decimal(n: nat): (r: string)
    ensures |r| >= 1
    ensures forall i :: 0 <= i < |r| ==> '0' <= r[i] <= '9'
    ensures (|r| == 1) == (n < 10)
  {
    if n < 10 then [DigitChar(n)] else Decimal(n / 10) + [DigitChar(n % 10)]
  }

  function DigitChar(d: nat): (c: char)
    requires d < 10
    ensures '0' <= c <= '9'
    ensures c as int - '0' as int == d
  {
    ('0' as int + d) as char
  }

  /** Different numbers have different decimal forms. */
  lemma {:induction false} DecimalInjective(a: nat, b: nat)
    requires Decimal(a) == Decimal(b)
    ensures a == b
  {
    var da, db := Decimal(a), Decimal(b);
    if a < 10 || b < 10 {
      assert |da| == 1 && |db| == 1;
      assert DigitChar(a) == da[0] == db[0] == DigitChar(b);
    } else {
      assert da[|da| - 1] == DigitChar(a % 10);
      assert db[|db| - 1] == DigitChar(b % 10);
      assert da[..|da| - 1] == Decimal(a / 10);
      assert db[..|db| - 1] == Decimal(b / 10);
      DecimalInjective(a / 10, b / 10);
    }
  }
}

=== FILE: courses.dfy ===
/** Courses and enrollments. The course model and its serializer are not
    part of this model; a course is taken to carry a name, a description, its
    instructor and an active flag, and an enrollment a student and a
    course. */
module Courses {
  import opened Common
  import opened Tables

  datatype Course = Course(id: nat, name: string, description: string, instructor: nat, isActive: bool)

  function CourseId(c: Course): nat { c.id }
  function IsActive(c: Course): bool { c.isActive }

  /** The fields a caller writes on a course; the instructor is set by the
      view, never by the caller. */
  datatype CourseInput = CourseInput(name: string, description: string, isActive: bool)

  /** A course created by `serializer.save(instructor=request.user)`. */
  function NewCourse(id: nat, input: CourseInput, instructor: nat): (c: Course)
    ensures c.instructor == instructor && c.name == input.name && c.id == id
    ensures c.description == input.description && c.isActive == input.isActive
  {
    Course(id, input.name, input.description, instructor, input.isActive)
  }

  /** `serializer.save()` on a course: the instructor stays. */
  function UpdateCourse(c: Course, input: CourseInput): (r: Course)
    ensures r.id == c.id && r.instructor == c.instructor
    ensures r.name == input.name && r.description == input.description && r.isActive == input.isActive
  {
    c.(name := input.name, description := input.description, isActive := input.isActive)
  }

  /** The body of a PATCH: the fields it leaves out are `None`. */
  datatype CoursePatchBody = CoursePatchBody(name: Option<string>, description: Option<string>, isActive: Option<bool>)

  /** What a serializer with `partial=True` validates and saves: the
      patched fields, and the course's own value for every field left out. */
  function PatchedCourseInput(c: Course, p: CoursePatchBody): (r: CourseInput)
    ensures p.name.Some? ==> r.name == p.name.value
    ensures p.name.None? ==> r.name == c.name
    ensures p.description.Some? ==> r.description == p.description.value
    ensures p.description.None? ==> r.description == c.description
    ensures p.isActive.Some? ==> r.isActive == p.isActive.value
    ensures p.isActive.None? ==> r.isActive == c.isActive
  {
    CourseInput(if p.name.Some? then p.name.value else c.name,
                if p.description.Some? then p.description.value else c.description,
                if p.isActive.Some? then p.isActive.value else c.isActive)
  }

  /** An empty PATCH saves the course as it was. */
  lemma EmptyCoursePatch(c: Course)
    ensures UpdateCourse(c, PatchedCourseInput(c, CoursePatchBody(None, None, None))) == c
  {
  }

  /** `Course.objects.filter(is_active=True)`. */
  function ActiveCourses(courses: seq<Course>): (r: seq<Course>)
    ensures forall c :: c in r <==> c in courses && c.isActive
  {
    Filter(courses, IsActive)
  }

  function CourseJson(c: Course): (j: Json)
    ensures j.JObj? && Keys(j.fields) == ["id", "name", "description", "instructor", "is_active"]
  {
    JObj([("id", JInt(c.id)), ("name", JStr(c.name)), ("description", JStr(c.description)),
          ("instructor", JInt(c.instructor)), ("is_active", JBool(c.isActive))])
  }

  datatype Enrollment = Enrollment(id: nat, studentId: nat, courseId: nat)

  function EnrollmentId(e: Enrollment): nat { e.id }

  /** The fields a caller writes on an enrollment. */
  datatype EnrollmentInput = EnrollmentInput(studentId: nat, courseId: nat)

  function EnrollmentJson(e: Enrollment): (j: Json)
    ensures j.JObj? && Keys(j.fields) == ["id", "student", "course"]
    ensures j.fields[2].1 == JInt(e.courseId)
  {
    JObj([("id", JInt(e.id)), ("student", JInt(e.studentId)), ("course", JInt(e.courseId))])
  }
}

=== FILE: database.dfy ===
/** The database behind the views: every table they touch, the integrity
    the schema keeps, and the writes the views make, each proved to keep
    it. The integrity is: unique primary keys, all below the next id to be
    handed out; unique emails; at most one student profile per user; every
    profile, attendance row and grade refers to rows that exist; every grade
    code fits its column. */
module Database {
  import opened Common
  import opened Tables
  import opened Users
  import opened Students
  import opened Courses
  import opened Attendances
  import opened Grades
  import opened Notifications
  import opened Analytics

  /** All tables, each in primary-key order. Ids are drawn from one counter,
      so a new row of any table gets `nextId`. */
  datatype Store = Store(users: seq<User>, students: seq<StudentProfile>, courses: seq<Course>,
                         enrollments: seq<Enrollment>, attendance: seq<Attendance>, grades: seq<Grade>,
                         notifications: seq<Notification>, logs: seq<ApiRequestLog>, nextId: nat)

  const Empty: Store := Store([], [], [], [], [], [], [], [], 0)

  ghost predicate KeysUnique(s: Store)
  {
    && Unique(s.users, UserId) && Unique(s.users, UserEmail)
    && Unique(s.students, ProfileId) && Unique(s.students, ProfileUser)
    && Unique(s.courses, CourseId) && Unique(s.enrollments, EnrollmentId)
    && Unique(s.attendance, AttendanceId) && Unique(s.grades, GradeId)
    && Unique(s.notifications, NotificationId) && Unique(s.logs, LogId)
  }

  ghost predicate IdsBelow(s: Store)
  {
    && Below(s.users, UserId, s.nextId) && Below(s.students, ProfileId, s.nextId)
    && Below(s.courses, CourseId, s.nextId) && Below(s.enrollments, EnrollmentId, s.nextId)
    && Below(s.attendance, AttendanceId, s.nextId) && Below(s.grades, GradeId, s.nextId)
    && Below(s.notifications, NotificationId, s.nextId) && Below(s.logs, LogId, s.nextId)
  }

  /** A student profile names an existing user. */
  predicate ProfileRefs(s: Store, p: StudentProfile)
  {
    p.userId in Column(s.users, UserId)
  }

  /** An attendance row names an existing student and course. */
  predicate AttendanceRefs(s: Store, a: Attendance)
  {
    a.studentId in Column(s.students, ProfileId) && a.courseId in Column(s.courses, CourseId)
  }

  /** A grade names an existing student and course and its code fits. */
  predicate GradeRefs(s: Store, g: Grade)
  {
    g.studentId in Column(s.students, ProfileId) && g.courseId in Column(s.courses, CourseId)
    && GradeCodeFits(g.grade)
  }

  ghost predicate References(s: Store)
  {
    && (forall p :: p in s.students ==> ProfileRefs(s, p))
    && (forall a :: a in s.attendance ==> AttendanceRefs(s, a))
    && (forall g :: g in s.grades ==> GradeRefs(s, g))
  }

  ghost predicate Valid(s: Store)
  {
    KeysUnique(s) && IdsBelow(s) && References(s)
  }

  lemma EmptyValid()
    ensures Valid(Empty)
  {
  }

  /** The row a primary key names, if any. */
  function UserById(s: Store, pk: nat): Option<User> { Lookup(s.users, UserId, pk) }
  function ProfileById(s: Store, pk: nat): Option<StudentProfile> { Lookup(s.students, ProfileId, pk) }
  function CourseById(s: Store, pk: nat): Option<Course> { Lookup(s.courses, CourseId, pk) }
  function AttendanceById(s: Store, pk: nat): Option<Attendance> { Lookup(s.attendance, AttendanceId, pk) }
  function GradeById(s: Store, pk: nat): Option<Grade> { Lookup(s.grades, GradeId, pk) }

  /** `Notification.objects.get(pk=pk, user=owner)`: found only when the row
      exists and belongs to `owner`. */
  function OwnNotification(s: Store, pk: nat, owner: nat): (r: Option<Notification>)
    requires Unique(s.notifications, NotificationId)
    ensures r.Some? ==> r.value in s.notifications && r.value.id == pk && r.value.userId == owner
    ensures r.None? <==> !exists n :: n in s.notifications && n.id == pk && n.userId == owner
  {
    match Lookup(s.notifications, NotificationId, pk)
    case Some(n) =>
      if n.userId == owner then Some(n)
      else
        forall m | m in s.notifications && m.id == pk ensures m == n {
          LookupUnique(s.notifications, NotificationId, m);
        }
        None
    case None => None
  }

  /** The unique check on the email column: no user holds `email` yet. */
  predicate EmailFree(s: Store, email: string)
  {
    email !in Column(s.users, UserEmail)
  }

  /** The profile of a user, if the user has one. */
  function ProfileOfUser(s: Store, userId: nat): Option<StudentProfile>
  {
    Lookup(s.students, ProfileUser, userId)
  }

  /** `create_user` through the sign-up serializer, on an email nobody holds. */
  function AddUser(s: Store, input: SignUpInput): (r: Store)
    requires Valid(s) && EmailFree(s, input.email)
    ensures Valid(r)
    ensures r.users == s.users + [CreateUser(s.nextId, input.email, input.username, input.role)]
    ensures r == s.(users := r.users, nextId := s.nextId + 1)
  {
    var u := CreateUser(s.nextId, input.email, input.username, input.role);
    AppendFresh(s.users, UserId, u, s.nextId);
    AppendUnique(s.users, u, UserEmail);
    var r := s.(users := s.users + [u], nextId := s.nextId + 1);
    assert References(r) by {
      assert Column(s.users, UserId) <= Column(r.users, UserId);
    }
    r
  }

  /** `Student.objects.create(user=..., dob=...)` for a user without a
      profile; the registration date is today's. */
  function AddProfile(s: Store, userId: nat, input: ProfileInput, today: string): (r: Store)
    requires Valid(s) && userId in Column(s.users, UserId) && userId !in Column(s.students, ProfileUser)
    ensures Valid(r)
    ensures r.students == s.students + [NewProfile(s.nextId, userId, input, today)]
    ensures r == s.(students := r.students, nextId := s.nextId + 1)
  {
    var p := NewProfile(s.nextId, userId, input, today);
    AppendFresh(s.students, ProfileId, p, s.nextId);
    AppendUnique(s.students, p, ProfileUser);
    var r := s.(students := s.students + [p], nextId := s.nextId + 1);
    assert References(r) by {
      forall q | q in r.students ensures ProfileRefs(r, q) {
        if q != p { assert ProfileRefs(s, q); }
      }
      assert Column(s.students, ProfileId) <= Column(r.students, ProfileId);
      forall a | a in r.attendance ensures AttendanceRefs(r, a) {
        assert AttendanceRefs(s, a);
      }
      forall g | g in r.grades ensures GradeRefs(r, g) {
        assert GradeRefs(s, g);
      }
    }
    r
  }

  /** `serializer.save()` on a user: username and role change, the id and
      the email (read-only) stay, so emails stay unique. */
  function SaveUser(s: Store, u: User, input: UserInput): (r: Store)
    requires Valid(s) && u in s.users
    ensures Valid(r)
    ensures forall x :: x in r.users <==> x == ApplyUserInput(u, input) || (x in s.users && x.id != u.id)
    ensures r == s.(users := r.users)
  {
    var v := ApplyUserInput(u, input);
    var i :| 0 <= i < |s.users| && s.users[i] == u;
    ReplaceUnique(s.users, i, v, UserEmail);
    var r := s.(users := Save(s.users, UserId, v));
    assert References(r) by {
      assert Column(r.users, UserId) == Column(s.users, UserId);
    }
    r
  }

  /** A log row after its user `pk` was deleted: the user becomes null. */
  function DetachUser(l: ApiRequestLog, pk: nat): (r: ApiRequestLog)
    ensures r.id == l.id && r.user != Some(pk)
    ensures l.user != Some(pk) ==> r == l
  {
    if l.user == Some(pk) then l.(user := None) else l
  }

  /** `user.delete()`: the user's profile goes with it, and with the profile
      its attendance rows and grades; grades the user gave go too; request
      logs keep their rows with the user set to null. */
  function DeleteUser(s: Store, pk: nat): (r: Store)
    requires Valid(s)
    ensures Valid(r)
    ensures forall u :: u in r.users <==> u in s.users && u.id != pk
    ensures forall p :: p in r.students <==> p in s.students && p.userId != pk
    ensures forall a :: a in r.attendance <==> a in s.attendance && a.studentId in Column(r.students, ProfileId)
    ensures forall g :: g in r.grades <==>
              g in s.grades && g.studentId in Column(r.students, ProfileId) && g.teacher != pk
    ensures |r.logs| == |s.logs|
    ensures forall i :: 0 <= i < |s.logs| ==> r.logs[i] == DetachUser(s.logs[i], pk)
    ensures r.courses == s.courses && r.enrollments == s.enrollments
    ensures r.notifications == s.notifications && r.nextId == s.nextId
  {
    var keepUser := (u: User) => u.id != pk;
    var keepProfile := (p: StudentProfile) => p.userId != pk;
    var students := Filter(s.students, keepProfile);
    var kept := Column(students, ProfileId);
    var keepAttendance := (a: Attendance) => a.studentId in kept;
    var keepGrade := (g: Grade) => g.studentId in kept && g.teacher != pk;
    var detach := (l: ApiRequestLog) => DetachUser(l, pk);
    var r := s.(users := Filter(s.users, keepUser), students := students,
                attendance := Filter(s.attendance, keepAttendance), grades := Filter(s.grades, keepGrade),
                logs := MapRows(s.logs, detach));
    FilterKeeps(s.users, keepUser, UserId, s.nextId);
    FilterUnique(s.users, keepUser, UserEmail);
    FilterKeeps(s.students, keepProfile, ProfileId, s.nextId);
    FilterUnique(s.students, keepProfile, ProfileUser);
    FilterKeeps(s.attendance, keepAttendance, AttendanceId, s.nextId);
    FilterKeeps(s.grades, keepGrade, GradeId, s.nextId);
    MapRowsUnique(s.logs, detach, LogId);
    assert Below(r.logs, LogId, r.nextId);
    CascadeReferences(s, pk, r);
    r
  }

  /** What the cascade leaves refers only to rows it leaves. */
  lemma CascadeReferences(s: Store, pk: nat, r: Store)
    requires References(s)
    requires forall u :: u in r.users <==> u in s.users && u.id != pk
    requires forall p :: p in r.students <==> p in s.students && p.userId != pk
    requires forall a :: a in r.attendance ==> a in s.attendance && a.studentId in Column(r.students, ProfileId)
    requires forall g :: g in r.grades ==> g in s.grades && g.studentId in Column(r.students, ProfileId)
    requires r.courses == s.courses
    ensures References(r)
  {
    forall p | p in r.students ensures ProfileRefs(r, p) {
      var u :| u in s.users && u.id == p.userId;
      assert u in r.users;
    }
    forall a | a in r.attendance ensures AttendanceRefs(r, a) {
      assert AttendanceRefs(s, a);
    }
    forall g | g in r.grades ensures GradeRefs(r, g) {
      assert GradeRefs(s, g);
    }
  }

  /** `serializer.save()` on a profile: only the date of birth changes. */
  function SaveProfile(s: Store, p: StudentProfile, input: ProfileInput): (r: Store)
    requires Valid(s) && p in s.students
    ensures Valid(r)
    ensures forall x :: x in r.students <==> x == UpdateProfile(p, input) || (x in s.students && x.id != p.id)
    ensures r == s.(students := r.students)
  {
    var q := UpdateProfile(p, input);
    var i :| 0 <= i < |s.students| && s.students[i] == p;
    ReplaceUnique(s.students, i, q, ProfileUser);
    var r := s.(students := Save(s.students, ProfileId, q));
    assert References(r) by {
      forall x | x in r.students ensures ProfileRefs(r, x) {
        if x != q { assert ProfileRefs(s, x); } else { assert ProfileRefs(s, p); }
      }
      assert Column(r.students, ProfileId) == Column(s.students, ProfileId);
      forall a | a in r.attendance ensures AttendanceRefs(r, a) {
        assert AttendanceRefs(s, a);
      }
      forall g | g in r.grades ensures GradeRefs(r, g) {
        assert GradeRefs(s, g);
      }
    }
    r
  }

  /** `serializer.save(instructor=...)` on a new course. */
  function AddCourse(s: Store, input: CourseInput, instructor: nat): (r: Store)
    requires Valid(s)
    ensures Valid(r)
    ensures r.courses == s.courses + [NewCourse(s.nextId, input, instructor)]
    ensures r == s.(courses := r.courses, nextId := s.nextId + 1)
  {
    var c := NewCourse(s.nextId, input, instructor);
    AppendFresh(s.courses, CourseId, c, s.nextId);
    var r := s.(courses := s.courses + [c], nextId := s.nextId + 1);
    assert References(r) by {
      assert Column(s.courses, CourseId) <= Column(r.courses, CourseId);
    }
    r
  }

  /** `serializer.save()` on a course: its instructor stays. */
  function SaveCourse(s: Store, c: Course, input: CourseInput): (r: Store)
    requires Valid(s) && c in s.courses
    ensures Valid(r)
    ensures forall x :: x in r.courses <==> x == UpdateCourse(c, input) || (x in s.courses && x.id != c.id)
    ensures r == s.(courses := r.courses)
  {
    var r := s.(courses := Save(s.courses, CourseId, UpdateCourse(c, input)));
    assert References(r);
    r
  }

  /** `course.delete()`: its attendance rows and grades go with it (both
      foreign keys cascade); enrollments are kept, as for a deleted user. */
  function DeleteCourse(s: Store, pk: nat): (r: Store)
    requires Valid(s)
    ensures Valid(r)
    ensures forall c :: c in r.courses <==> c in s.courses && c.id != pk
    ensures forall a :: a in r.attendance <==> a in s.attendance && a.courseId != pk
    ensures forall g :: g in r.grades <==> g in s.grades && g.courseId != pk
    ensures r == s.(courses := r.courses, attendance := r.attendance, grades := r.grades)
  {
    var keepCourse := (c: Course) => c.id != pk;
    var keepAttendance := (a: Attendance) => a.courseId != pk;
    var keepGrade := (g: Grade) => g.courseId != pk;
    var r := s.(courses := Filter(s.courses, keepCourse), attendance := Filter(s.attendance, keepAttendance),
                grades := Filter(s.grades, keepGrade));
    FilterKeeps(s.courses, keepCourse, CourseId, s.nextId);
    FilterKeeps(s.attendance, keepAttendance, AttendanceId, s.nextId);
    FilterKeeps(s.grades, keepGrade, GradeId, s.nextId);
    assert References(r) by {
      forall a | a in r.attendance ensures AttendanceRefs(r, a) {
        assert AttendanceRefs(s, a);
        var c :| c in s.courses && c.id == a.courseId;
        assert c in r.courses;
      }
      forall g | g in r.grades ensures GradeRefs(r, g) {
        assert GradeRefs(s, g);
        var c :| c in s.courses && c.id == g.courseId;
        assert c in r.courses;
      }
    }
    r
  }

  /** `serializer.save()` on a new enrollment. */
  function AddEnrollment(s: Store, input: EnrollmentInput): (r: Store)
    requires Valid(s)
    ensures Valid(r)
    ensures r.enrollments == s.enrollments + [Enrollment(s.nextId, input.studentId, input.courseId)]
    ensures r == s.(enrollments := r.enrollments, nextId := s.nextId + 1)
  {
    var e := Enrollment(s.nextId, input.studentId, input.courseId);
    AppendFresh(s.enrollments, EnrollmentId, e, s.nextId);
    s.(enrollments := s.enrollments + [e], nextId := s.nextId + 1)
  }

  /** The references of attendance input name rows that exist. */
  predicate AttendanceInputRefs(s: Store, input: AttendanceInput)
  {
    input.studentId in Column(s.students, ProfileId) && input.courseId in Column(s.courses, CourseId)
  }

  /** `serializer.save()` on a new attendance row, dated today. */
  function AddAttendance(s: Store, input: AttendanceInput, today: string): (r: Store)
    requires Valid(s) && AttendanceInputRefs(s, input)
    ensures Valid(r)
    ensures r.attendance == s.attendance + [NewAttendance(s.nextId, input, today)]
    ensures r == s.(attendance := r.attendance, nextId := s.nextId + 1)
  {
    var a := NewAttendance(s.nextId, input, today);
    AppendFresh(s.attendance, AttendanceId, a, s.nextId);
    s.(attendance := s.attendance + [a], nextId := s.nextId + 1)
  }

  /** `serializer.save()` on an attendance row: its date stays. */
  function SaveAttendance(s: Store, a: Attendance, input: AttendanceInput): (r: Store)
    requires Valid(s) && a in s.attendance && AttendanceInputRefs(s, input)
    ensures Valid(r)
    ensures forall x :: x in r.attendance <==> x == UpdateAttendance(a, input) || (x in s.attendance && x.id != a.id)
    ensures r == s.(attendance := r.attendance)
  {
    s.(attendance := Save(s.attendance, AttendanceId, UpdateAttendance(a, input)))
  }

  /** `attendance.delete()`. */
  function DeleteAttendance(s: Store, pk: nat): (r: Store)
    requires Valid(s)
    ensures Valid(r)
    ensures forall x :: x in r.attendance <==> x in s.attendance && x.id != pk
    ensures r == s.(attendance := r.attendance)
  {
    var r := s.(attendance := Delete(s.attendance, AttendanceId, pk));
    assert IdsBelow(r) by {
      forall i | 0 <= i < |r.attendance| ensures r.attendance[i].id < r.nextId {
        assert r.attendance[i] in s.attendance;
      }
    }
    r
  }

  /** What the grade serializer checks against the store: the student and
      the course exist and the code fits its column. */
  predicate GradeInputFits(s: Store, input: GradeInput)
  {
    input.studentId in Column(s.students, ProfileId) && input.courseId in Column(s.courses, CourseId)
    && GradeCodeFits(input.grade)
  }

  /** `serializer.save(teacher=...)` on a new grade, dated today. */
  function AddGrade(s: Store, input: GradeInput, teacher: nat, today: string): (r: Store)
    requires Valid(s) && GradeInputFits(s, input)
    ensures Valid(r)
    ensures r.grades == s.grades + [NewGrade(s.nextId, input, teacher, today)]
    ensures r == s.(grades := r.grades, nextId := s.nextId + 1)
  {
    var g := NewGrade(s.nextId, input, teacher, today);
    AppendFresh(s.grades, GradeId, g, s.nextId);
    s.(grades := s.grades + [g], nextId := s.nextId + 1)
  }

  /** `serializer.save()` on a grade: its teacher and date stay. */
  function SaveGrade(s: Store, g: Grade, input: GradeInput): (r: Store)
    requires Valid(s) && g in s.grades && GradeInputFits(s, input)
    ensures Valid(r)
    ensures forall x :: x in r.grades <==> x == UpdateGrade(g, input) || (x in s.grades && x.id != g.id)
    ensures r == s.(grades := r.grades)
  {
    s.(grades := Save(s.grades, GradeId, UpdateGrade(g, input)))
  }

  /** `grade.delete()`: nothing refers to a grade. */
  function DeleteGrade(s: Store, pk: nat): (r: Store)
    requires Valid(s)
    ensures Valid(r)
    ensures forall x :: x in r.grades <==> x in s.grades && x.id != pk
    ensures r == s.(grades := r.grades)
  {
    var keep := (g: Grade) => g.id != pk;
    FilterKeeps(s.grades, keep, GradeId, s.nextId);
    s.(grades := Filter(s.grades, keep))
  }

  /** `serializer.save(user=...)` on a new notification. */
  function AddNotification(s: Store, owner: nat, input: NotificationInput, now: int): (r: Store)
    requires Valid(s)
    ensures Valid(r)
    ensures r.notifications == s.notifications + [NewNotification(s.nextId, owner, input, now)]
    ensures r == s.(notifications := r.notifications, nextId := s.nextId + 1)
  {
    var n := NewNotification(s.nextId, owner, input, now);
    AppendFresh(s.notifications, NotificationId, n, s.nextId);
    s.(notifications := s.notifications + [n], nextId := s.nextId + 1)
  }

  /** The partial `serializer.save()` on a notification. */
  function SaveNotification(s: Store, n: Notification, patch: NotificationPatch): (r: Store)
    requires Valid(s) && n in s.notifications
    ensures Valid(r)
    ensures forall x :: x in r.notifications <==>
              x == PatchNotification(n, patch) || (x in s.notifications && x.id != n.id)
    ensures r == s.(notifications := r.notifications)
  {
    s.(notifications := Save(s.notifications, NotificationId, PatchNotification(n, patch)))
  }

  /** `notification.delete()`. */
  function DeleteNotification(s: Store, pk: nat): (r: Store)
    requires Valid(s)
    ensures Valid(r)
    ensures forall x :: x in r.notifications <==> x in s.notifications && x.id != pk
    ensures r == s.(notifications := r.notifications)
  {
    var r := s.(notifications := Delete(s.notifications, NotificationId, pk));
    assert IdsBelow(r) by {
      forall i | 0 <= i < |r.notifications| ensures r.notifications[i].id < r.nextId {
        assert r.notifications[i] in s.notifications;
      }
    }
    r
  }

  /** `APIRequestLog.objects.create(...)`: one row more, at the end. */
  function AppendLog(s: Store, user: Option<nat>, path: string, httpMethod: string, statusCode: int, now: int): (r: Store)
    requires Valid(s)
    ensures Valid(r)
    ensures r.logs == s.logs + [NewLog(s.nextId, user, path, httpMethod, statusCode, now)]
    ensures r == s.(logs := r.logs, nextId := s.nextId + 1)
  {
    var l := NewLog(s.nextId, user, path, httpMethod, statusCode, now);
    AppendFresh(s.logs, LogId, l, s.nextId);
    s.(logs := s.logs + [l], nextId := s.nextId + 1)
  }
}

=== FILE: grades.dfy ===
/** Grades: a short grade code given by a teacher to a student in a course. */
module Grades {
  import opened Common

  /** `grade` is at most two characters (a store invariant), `comment` may be
      missing, `date` is set at creation and `teacher` names a user. */
  datatype Grade = Grade(id: nat, studentId: nat, courseId: nat, grade: string,
                         comment: Option<string>, date: string, teacher: nat)

  function GradeId(g: Grade): nat { g.id }

  /** The longest grade code the column accepts. */
  const MaxGradeLength: nat := 2

  predicate GradeCodeFits(code: string)
  {
    |code| <= MaxGradeLength
  }

  /** The fields a caller writes; `teacher` and `date` are set by the view
      and the model. */
  datatype GradeInput = GradeInput(studentId: nat, courseId: nat, grade: string, comment: Option<string>)

  /** `serializer.save(teacher=request.user)` on new input. */
  function NewGrade(id: nat, input: GradeInput, teacher: nat, today: string): (g: Grade)
    ensures g.teacher == teacher && g.date == today && g.id == id
    ensures g.grade == input.grade && g.comment == input.comment
    ensures g.studentId == input.studentId && g.courseId == input.courseId
  {
    Grade(id, input.studentId, input.courseId, input.grade, input.comment, today, teacher)
  }

  /** `serializer.save()` on an existing grade: the teacher and date stay. */
  function UpdateGrade(g: Grade, input: GradeInput): (r: Grade)
    ensures r.id == g.id && r.teacher == g.teacher && r.date == g.date
    ensures r.grade == input.grade && r.comment == input.comment
    ensures r.studentId == input.studentId && r.courseId == input.courseId
  {
    g.(studentId := input.studentId, courseId := input.courseId, grade := input.grade, comment := input.comment)
  }

  /** The body of a PATCH: the fields it leaves out are `None`; a comment
      that is sent may itself be null. */
  datatype GradePatchBody = GradePatchBody(studentId: Option<nat>, courseId: Option<nat>, grade: Option<string>,
                                   comment: Option<Option<string>>)

  /** What a serializer with `partial=True` validates and saves: the
      patched fields, and the grade's own value for every field left out. */
  function PatchedGradeInput(g: Grade, p: GradePatchBody): (r: GradeInput)
    ensures p.studentId.Some? ==> r.studentId == p.studentId.value
    ensures p.studentId.None? ==> r.studentId == g.studentId
    ensures p.courseId.Some? ==> r.courseId == p.courseId.value
    ensures p.courseId.None? ==> r.courseId == g.courseId
    ensures p.grade.Some? ==> r.grade == p.grade.value
    ensures p.grade.None? ==> r.grade == g.grade
    ensures p.comment.Some? ==> r.comment == p.comment.value
    ensures p.comment.None? ==> r.comment == g.comment
  {
    GradeInput(if p.studentId.Some? then p.studentId.value else g.studentId,
               if p.courseId.Some? then p.courseId.value else g.courseId,
               if p.grade.Some? then p.grade.value else g.grade,
               if p.comment.Some? then p.comment.value else g.comment)
  }

  /** An empty PATCH saves the grade as it was. */
  lemma EmptyGradePatch(g: Grade)
    ensures UpdateGrade(g, PatchedGradeInput(g, GradePatchBody(None, None, None, None))) == g
  {
  }

  /** `str(grade)`: "Grade G for username in course". */
  function GradeStr(g: Grade, username: string, courseName: string): (r: string)
    ensures StartsWith(r, "Grade " + g.grade + " for " + username + " in ")
    ensures |r| == 6 + |g.grade| + 5 + |username| + 4 + |courseName|
    ensures r[|r| - |courseName|..] == courseName
  {
    "Grade " + g.grade + " for " + username + " in " + courseName
  }

  function GradeJson(g: Grade): (j: Json)
    ensures j.JObj? && Keys(j.fields) == ["id", "student", "course", "grade", "comment", "date", "teacher"]
  {
    JObj([("id", JInt(g.id)), ("student", JInt(g.studentId)), ("course", JInt(g.courseId)),
          ("grade", JStr(g.grade)), ("comment", OptStr(g.comment)), ("date", JStr(g.date)),
          ("teacher", JInt(g.teacher))])
  }
}

=== FILE: http.dfy ===
/** What a handler receives besides the actor and returns: the request's
    HTTP method, the serializer's validation verdict, and the response. */
module Http {
  import opened Common

  datatype HttpMethod = GET | POST | PUT | PATCH | DELETE

  function MethodName(m: HttpMethod): string
  {
    match m
    case GET => "GET"
    case POST => "POST"
    case PUT => "PUT"
    case PATCH => "PATCH"
    case DELETE => "DELETE"
  }

  /** `serializer.is_valid()`: the validated data, or the field errors that
      make the response a 400. */
  datatype Checked<T> = Accepted(data: T) | Rejected(errors: Json)

  datatype Response = Response(status: int, body: Json)

  /** The body DRF writes for a raised `PermissionDenied` or
      `NotAuthenticated`: `{"detail": message}`. */
  function Detail(message: string): Json
  {
    JObj([("detail", JStr(message))])
  }

  /** The body the views write themselves: `{"error": message}`. */
  function ErrorBody(message: string): Json
  {
    JObj([("error", JStr(message))])
  }

  function MessageBody(message: string): Json
  {
    JObj([("message", JStr(message))])
  }

  /** DRF's message when a permission class refuses the request. */
  const NoPermission: string := "You do not have permission to perform this action."

  /** DRF's message when the routed view has no handler for a POST. */
  const PostNotAllowed: string := "Method \"POST\" not allowed."

  /** DRF's message when no credentials came with the request. */
  const NotAuthenticated: string := "Authentication credentials were not provided."

  function Forbidden(message: string): (r: Response)
    ensures r.status == 403
  {
    Response(403, Detail(message))
  }

  function NotFound(message: string): (r: Response)
    ensures r.status == 404
  {
    Response(404, ErrorBody(message))
  }
}

=== FILE: mail.dfy ===
/** The background notification tasks. A view hands a task to the queue
    (`.delay(...)`); the model keeps those hand-offs as `MailTask` values in
    an outbox. Running a task sends one or more mails through the mail
    transport, whose verdict on each mail is a parameter. */
module Mail {

  /** One `send_mail(subject, message, from_email, recipient_list)` call. */
  datatype Mail = Mail(subject: string, message: string, sender: string, recipients: seq<string>)

  /** Every notification is sent from this address. */
  const Sender: string := "admin@example.com"

  /** What a view enqueues: the task and the arguments it is called with. */
  datatype MailTask =
    | NewCourseTask(courseName: string, studentEmails: seq<string>)
    | AbsenceTask(studentEmail: string, courseName: string)
    | ProfileUpdateTask(studentEmail: string)
    | NewGradeTask(studentEmail: string, courseName: string, grade: string)

  /** The addresses a task writes to. */
  function TaskRecipients(t: MailTask): seq<string>
  {
    match t
    case NewCourseTask(_, emails) => emails
    case AbsenceTask(email, _) => [email]
    case ProfileUpdateTask(email) => [email]
    case NewGradeTask(email, _, _) => [email]
  }

  /** The mail about a new course, to one student. */
  function CourseMail(courseName: string, email: string): (m: Mail)
    ensures m.sender == Sender && m.recipients == [email] && m.subject == "New Course Available"
  {
    Mail("New Course Available", "A new course \"" + courseName + "\" has been added.", Sender, [email])
  }

  /** The course name quoted in a new-course message, if it has that form. */
  function QuotedCourse(message: string): (r: string)
  {
    var prefix, suffix := "A new course \"", "\" has been added.";
    if |message| >= |prefix| + |suffix| then message[|prefix|..|message| - |suffix|] else ""
  }

  /** The new-course message is the fixed opening, the quoted course name and
      the fixed closing; so the name can be read back, and two different
      courses never produce the same mail. */
  lemma CourseMailNamesCourse(courseName: string, email: string)
    ensures var msg := CourseMail(courseName, email).message;
            var prefix, suffix := "A new course \"", "\" has been added.";
            && |msg| == |prefix| + |courseName| + |suffix|
            && msg[..|prefix|] == prefix
            && msg[|prefix|..|msg| - |suffix|] == courseName
            && msg[|msg| - |suffix|..] == suffix
    ensures QuotedCourse(CourseMail(courseName, email).message) == courseName
  {
    var prefix, suffix := "A new course \"", "\" has been added.";
    var m := prefix + courseName + suffix;
    assert m[..|prefix|] == prefix;
    assert m[|prefix|..|m| - |suffix|] == courseName;
    assert m[|m| - |suffix|..] == suffix;
  }

  /** The mail telling a student they were marked absent. */
  function AbsenceMail(email: string, courseName: string): (m: Mail)
    ensures m.sender == Sender && m.recipients == [email] && m.subject == "Attendance Alert"
  {
    Mail("Attendance Alert",
         "You have been marked absent in " + courseName + ". Please contact your teacher.",
         Sender, [email])
  }

  /** The absence message is the fixed opening, the course, and the fixed
      closing request to contact the teacher. */
  lemma AbsenceMailNamesCourse(email: string, courseName: string)
    ensures var msg := AbsenceMail(email, courseName).message;
            var prefix, suffix := "You have been marked absent in ", ". Please contact your teacher.";
            && |msg| == |prefix| + |courseName| + |suffix|
            && msg[..|prefix|] == prefix
            && msg[|prefix|..|msg| - |suffix|] == courseName
            && msg[|msg| - |suffix|..] == suffix
  {
    var prefix, suffix := "You have been marked absent in ", ". Please contact your teacher.";
    var msg := prefix + courseName + suffix;
    assert msg[..|prefix|] == prefix;
    assert msg[|prefix|..|msg| - |suffix|] == courseName;
    assert msg[|msg| - |suffix|..] == suffix;
  }

  /** The mail telling a student their profile changed; its text is fixed. */
  function ProfileUpdateMail(email: string): (m: Mail)
    ensures m.sender == Sender && m.recipients == [email]
    ensures m.subject == "Profile Updated" && m.message == "Your student profile has been updated."
  {
    Mail("Profile Updated", "Your student profile has been updated.", Sender, [email])
  }

  /** The mail announcing a new grade, as its test pins it. */
  function GradeMail(email: string, courseName: string, grade: string): (m: Mail)
    ensures m.sender == Sender && m.recipients == [email] && m.subject == "New Grade Assigned"
  {
    Mail("New Grade Assigned", "You have received a new grade in " + courseName + ": " + grade + ".", Sender, [email])
  }

  /** The course and the grade can be read back from a new-grade message:
      the course sits between the fixed opening and the colon, the grade
      between the colon and the closing full stop. */
  lemma GradeMailNamesCourseAndGrade(email: string, courseName: string, grade: string)
    ensures var msg := GradeMail(email, courseName, grade).message;
            var prefix := "You have received a new grade in ";
            && |msg| == |prefix| + |courseName| + 2 + |grade| + 1
            && msg[..|prefix|] == prefix
            && msg[|prefix|..|prefix| + |courseName|] == courseName
            && msg[|prefix| + |courseName|..|prefix| + |courseName| + 2] == ": "
            && msg[|prefix| + |courseName| + 2..|msg| - 1] == grade
            && msg[|msg| - 1] == '.'
  {
    var prefix := "You have received a new grade in ";
    var msg := prefix + courseName + ": " + grade + ".";
    var k := |prefix| + |courseName|;
    assert msg[..|prefix|] == prefix;
    assert msg[|prefix|..k] == courseName;
    assert msg[k..k + 2] == ": ";
    assert msg[k + 2..|msg| - 1] == grade;
  }

  /** The call the grade task's test expects for student@example.com, course
      "Math 101" and grade "A". */
  lemma GradeMailExample()
    ensures GradeMail("student@example.com", "Math 101", "A")
            == Mail("New Grade Assigned", "You have received a new grade in Math 101: A.",
                    "admin@example.com", ["student@example.com"])
  {
  }

  /** The mails a task attempts, in order: one per student for a new course,
      otherwise exactly one. */
  function TaskMails(t: MailTask): (ms: seq<Mail>)
    ensures |ms| == |TaskRecipients(t)|
    ensures forall i :: 0 <= i < |ms| ==> ms[i].recipients == [TaskRecipients(t)[i]] && ms[i].sender == Sender
  {
    match t
    case NewCourseTask(name, emails) => CourseMails(name, emails)
    case AbsenceTask(email, course) => [AbsenceMail(email, course)]
    case ProfileUpdateTask(email) => [ProfileUpdateMail(email)]
    case NewGradeTask(email, course, grade) => [GradeMail(email, course, grade)]
  }

  /** One new-course mail per address, in list order. */
  function CourseMails(courseName: string, emails: seq<string>): (ms: seq<Mail>)
    ensures |ms| == |emails|
    ensures forall i :: 0 <= i < |emails| ==> ms[i] == CourseMail(courseName, emails[i])
  {
    if emails == [] then [] else CourseMails(courseName, emails[..|emails| - 1]) + [CourseMail(courseName, emails[|emails| - 1])]
  }

  /** How many addresses are mailed before the transport first refuses one:
      the whole list when it refuses none. */
  function DeliveredPrefix(courseName: string, emails: seq<string>, accepts: Mail -> bool): (n: nat)
    ensures n <= |emails|
    ensures forall i :: 0 <= i < n ==> accepts(CourseMail(courseName, emails[i]))
    ensures n < |emails| ==> !accepts(CourseMail(courseName, emails[n]))
  {
    if emails == [] then 0
    else if !accepts(CourseMail(courseName, emails[0])) then 0
    else 1 + DeliveredPrefix(courseName, emails[1..], accepts)
  }

  /** `notify_students_about_new_course`: one mail per address in list order;
      the first refused mail ends the loop, the error is caught (logged) and
      the task returns normally. `sent` are the mails the transport took. */
  method NotifyStudentsAboutNewCourse(courseName: string, studentEmails: seq<string>, accepts: Mail -> bool)
    returns (sent: seq<Mail>, failed: bool)
    ensures sent == CourseMails(courseName, studentEmails[..DeliveredPrefix(courseName, studentEmails, accepts)])
    ensures failed <==> exists i :: 0 <= i < |studentEmails| && !accepts(CourseMail(courseName, studentEmails[i]))
  {
    sent, failed := [], false;
    var i := 0;
    while i < |studentEmails|
      invariant 0 <= i <= |studentEmails|
      invariant forall k :: 0 <= k < i ==> accepts(CourseMail(courseName, studentEmails[k]))
      invariant i <= DeliveredPrefix(courseName, studentEmails, accepts)
      invariant sent == CourseMails(courseName, studentEmails[..i])
    {
      var m := CourseMail(courseName, studentEmails[i]);
      if !accepts(m) {
        failed := true;
        return;
      }
      assert studentEmails[..i + 1][..i] == studentEmails[..i];
      sent := sent + [m];
      i := i + 1;
    }
  }

  /** With a transport that takes every mail, each student gets exactly one
      mail, addressed to them alone, in list order; an empty list sends
      nothing. */
  lemma CourseFanOutReachesAll(courseName: string, emails: seq<string>, accepts: Mail -> bool)
    requires forall i :: 0 <= i < |emails| ==> accepts(CourseMail(courseName, emails[i]))
    ensures DeliveredPrefix(courseName, emails, accepts) == |emails|
    ensures var ms := CourseMails(courseName, emails[..DeliveredPrefix(courseName, emails, accepts)]);
            |ms| == |emails| && forall i :: 0 <= i < |emails| ==> ms[i].recipients == [emails[i]]
  {
    assert emails[..|emails|] == emails;
  }
}

=== FILE: middleware.dfy ===
/** The request path through the backend: authentication in front of the
    views, the view itself, and `LogAPIRequestsMiddleware`, which records
    every call under `/api/` once the view has answered. */
module Middleware {
  import opened Common
  import opened Users
  import opened Students
  import opened Courses
  import opened Attendances
  import opened Grades
  import opened Notifications
  import opened Analytics
  import opened AnalyticsQuery
  import opened Database
  import opened Http
  import opened Policy
  import opened Views
  import opened Mail
  import opened Cache

  /** One call to a modelled endpoint, with what the view reads from the
      request: the URL's `pk`, the serializer's verdict on the body, the
      query filter. The PATCH and DELETE calls on courses and grades and the
      PATCH on attendance reach DRF's default handlers, which these views do
      not override. `Other` is any request no modelled handler answers (the
      remaining default handlers, the admin site, static files): it carries
      the method it came with, the response it got and the database it left
      behind. */
  datatype Call =
    | RegisterPost(signUp: Checked<SignUpInput>)
    | UsersGet
    | UserGet(userPk: nat)
    | UserPut(userPk: nat, userInput: Checked<UserInput>)
    | UserPatch(userPk: nat, userPatch: Checked<UserInput>)
    | UserDelete(userPk: nat)
    | StudentsGet
    | StudentPut(studentPk: nat, profileInput: Checked<ProfileInput>)
    | CoursesGet
    | CoursesPost(newCourse: Checked<CourseInput>)
    | CoursePut(coursePk: nat, courseInput: Checked<CourseInput>)
    | CoursePatch(coursePk: nat, coursePatch: Checked<CoursePatchBody>)
    | CourseDelete(coursePk: nat)
    | EnrollmentsPost(enrollment: Checked<EnrollmentInput>)
    | AttendanceListGet
    | AttendancePost(newRow: Checked<AttendanceInput>)
    | AttendanceGet(rowPk: nat)
    | AttendancePut(rowPk: nat, rowInput: Checked<AttendanceInput>)
    | AttendancePatch(rowPk: nat, rowPatch: Checked<AttendancePatchBody>)
    | AttendanceDelete(rowPk: nat)
    | GradesGet
    | GradesPost(newGrade: Checked<GradeInput>)
    | GradePut(gradePk: nat, gradeInput: Checked<GradeInput>)
    | GradePatch(gradePk: nat, gradePatch: Checked<GradePatchBody>)
    | GradeDelete(gradePk: nat)
    | NotificationsGet(failure: bool)
    | NotificationsPost(newNotification: Checked<NotificationInput>)
    | NotificationPut(notificationPk: nat, patch: Checked<NotificationPatch>)
    | NotificationDelete(notificationPk: nat)
    | AnalyticsGet(filter: QueryFilter)
    | Other(otherMethod: HttpMethod, status: int, body: Json, after: Store)

  /** `request.user`: the authenticated user, or none for an anonymous
      request. */
  datatype Request = Request(path: string, actor: Option<User>, call: Call)

  /** The HTTP method each call arrives with. */
  function MethodOf(c: Call): HttpMethod
  {
    match c
    case RegisterPost(_) => POST
    case UsersGet => GET
    case UserGet(_) => GET
    case UserPut(_, _) => PUT
    case UserPatch(_, _) => PATCH
    case UserDelete(_) => DELETE
    case StudentsGet => GET
    case StudentPut(_, _) => PUT
    case CoursesGet => GET
    case CoursesPost(_) => POST
    case CoursePut(_, _) => PUT
    case CoursePatch(_, _) => PATCH
    case CourseDelete(_) => DELETE
    case EnrollmentsPost(_) => POST
    case AttendanceListGet => GET
    case AttendancePost(_) => POST
    case AttendanceGet(_) => GET
    case AttendancePut(_, _) => PUT
    case AttendancePatch(_, _) => PATCH
    case AttendanceDelete(_) => DELETE
    case GradesGet => GET
    case GradesPost(_) => POST
    case GradePut(_, _) => PUT
    case GradePatch(_, _) => PATCH
    case GradeDelete(_) => DELETE
    case NotificationsGet(_) => GET
    case NotificationsPost(_) => POST
    case NotificationPut(_, _) => PUT
    case NotificationDelete(_) => DELETE
    case AnalyticsGet(_) => GET
    case Other(m, _, _, _) => m
  }

  /** The views with `IsAuthenticated` among their permission classes:
      every modelled view except registration and the analytics view,
      which names no permission class. */
  predicate NeedsLogin(c: Call)
  {
    !(c.RegisterPost? || c.AnalyticsGet? || c.Other?)
  }

  /** `request.path.startswith('/api/')`. */
  predicate IsApiPath(path: string)
  {
    StartsWith(path, "/api/")
  }

  /** `request.user if request.user.is_authenticated else None`, as the
      log's user column. */
  function LoggedUser(actor: Option<User>): Option<nat>
  {
    if actor.Some? then Some(actor.value.id) else None
  }

  /** The calls each app's views answer. */
  predicate UsersCall(c: Call)
  {
    c.RegisterPost? || c.UsersGet? || c.UserGet? || c.UserPut? || c.UserPatch? || c.UserDelete?
    || c.StudentsGet? || c.StudentPut?
  }

  predicate CoursesCall(c: Call)
  {
    c.CoursesGet? || c.CoursesPost? || c.CoursePut? || c.CoursePatch? || c.CourseDelete? || c.EnrollmentsPost?
  }

  predicate AttendanceCall(c: Call)
  {
    c.AttendanceListGet? || c.AttendancePost? || c.AttendanceGet? || c.AttendancePut? || c.AttendancePatch?
    || c.AttendanceDelete?
  }

  predicate GradesCall(c: Call)
  {
    c.GradesGet? || c.GradesPost? || c.GradePut? || c.GradePatch? || c.GradeDelete?
  }

  predicate NotificationsCall(c: Call)
  {
    c.NotificationsGet? || c.NotificationsPost? || c.NotificationPut? || c.NotificationDelete?
  }

  /** Whether the URL configuration routes a call to a view with a handler
      for its method. As written, attendance/urls.py mounts only the list
      and detail views, so a POST to `/api/attendance/` reaches the list
      view, which has no POST handler; the create view is never reached. */
  predicate Routed(build: Build, c: Call)
  {
    !(build == AsWritten && c.AttendancePost?)
  }

  /** As written, the request the attendance create test sends is routed to
      no handler. */
  lemma AttendanceCreateUnrouted()
    ensures !Routed(AsWritten, AttendancePost(Accepted(AttendanceInput(1, 2, true))))
  {
  }

  /** Corrected, every modelled call reaches its view; the two builds route
      differently only the attendance POST. */
  lemma CorrectedRoutesEveryView(c: Call)
    ensures Routed(Corrected, c)
    ensures Routed(AsWritten, c) != Routed(Corrected, c) <==> c.AttendancePost?
  {
  }

  /** `get_response`: authentication, then the view the URL routes the call
      to. An anonymous request to a view that needs a login is refused with
      401 before any handler runs; an authenticated one the routed view has
      no handler for is refused with 405. */
  method Dispatch(b: Backend, build: Build, actor: Option<User>, call: Call, now: int, today: string) returns (resp: Response)
    requires b.Valid()
    requires call.Other? ==> Database.Valid(call.after)
    modifies b
    ensures b.Valid()
    ensures actor.None? && NeedsLogin(call) ==>
              resp == Response(401, Detail(NotAuthenticated)) && b.State() == old(b.State())
    ensures actor.Some? && !Routed(build, call) ==>
              resp == Response(405, Detail(PostNotAllowed)) && b.State() == old(b.State())
    ensures build == Corrected && actor.Some? && call.AttendancePost? && actor.value.role != Teacher ==>
              resp == Forbidden(OnlyTeachersAddAttendance) && b.State() == old(b.State())
    ensures build == Corrected && actor.Some? && RoleRefused(actor.value, call) ==>
              resp == RoleRefusal(call) && b.State() == old(b.State())
    ensures build == AsWritten && actor.Some? && call.UserPatch?
            && UserById(old(b.store), call.userPk).Some? && call.userPatch.Accepted? ==>
              resp.status == 200
    ensures build == AsWritten && actor.Some? && actor.value.role == Student && call.AttendancePatch?
            && call.rowPatch.Accepted? && call.rowPatch.data.studentId.None? && call.rowPatch.data.courseId.None?
            && (exists a :: a in old(b.store).attendance && a.id == call.rowPk && AttendedBy(old(b.store), a, actor.value.id)) ==>
              resp.status == 200
    ensures build == AsWritten && actor.Some? && call.CourseDelete? && CourseById(old(b.store), call.coursePk).Some? ==>
              resp == Response(204, JNull) && b.store == DeleteCourse(old(b.store), call.coursePk)
    ensures build == AsWritten && actor.Some? && call.GradeDelete? && GradeById(old(b.store), call.gradePk).Some? ==>
              resp == Response(204, JNull) && b.store == DeleteGrade(old(b.store), call.gradePk)
    ensures call.Other? ==> resp == Response(call.status, call.body) && b.State() == (call.after, old(b.cache), old(b.outbox))
    ensures Refused(build, actor, call) ==> b.State() == old(b.State())
  {
    if actor.None? && NeedsLogin(call) {
      resp := Response(401, Detail(NotAuthenticated));
    } else if !Routed(build, call) {
      resp := Response(405, Detail(PostNotAllowed));
    } else {
      ghost var s0 := b.State();
      resp := DispatchRouted(b, build, actor, call, now, today);
      OutcomeFacts(build, actor, call, s0, resp, b.State());
    }
  }

  /** The promises of `RoutedOutcome`, one clause per handler family, as
      `Dispatch` states them. */
  lemma OutcomeFacts(build: Build, actor: Option<User>, call: Call, s0: (Store, CacheStore, seq<MailTask>),
                     resp: Response, s1: (Store, CacheStore, seq<MailTask>))
    requires RoutedOutcome(build, actor, call, s0, resp, s1)
    ensures actor.Some? && call.AttendancePost? && actor.value.role != Teacher ==>
              resp == Forbidden(OnlyTeachersAddAttendance) && s1 == s0
    ensures build == Corrected && actor.Some? && RoleRefused(actor.value, call) ==> resp == RoleRefusal(call) && s1 == s0
    ensures build == AsWritten && actor.Some? && call.UserPatch?
            && UserById(s0.0, call.userPk).Some? && call.userPatch.Accepted? ==>
              resp.status == 200
    ensures build == AsWritten && actor.Some? && actor.value.role == Student && call.AttendancePatch?
            && call.rowPatch.Accepted? && call.rowPatch.data.studentId.None? && call.rowPatch.data.courseId.None?
            && (exists a :: a in s0.0.attendance && a.id == call.rowPk && AttendedBy(s0.0, a, actor.value.id)) ==>
              resp.status == 200
    ensures build == AsWritten && actor.Some? && call.CourseDelete? && Database.Valid(s0.0)
            && CourseById(s0.0, call.coursePk).Some? ==>
              resp == Response(204, JNull) && s1.0 == DeleteCourse(s0.0, call.coursePk)
    ensures build == AsWritten && actor.Some? && call.GradeDelete? && Database.Valid(s0.0)
            && GradeById(s0.0, call.gradePk).Some? ==>
              resp == Response(204, JNull) && s1.0 == DeleteGrade(s0.0, call.gradePk)
    ensures call.Other? ==> resp == Response(call.status, call.body) && s1 == (call.after, s0.1, s0.2)
  {
  }

  /** The calls `RoutedOutcome` promises nothing about beyond the handler's
      own contract. */
  predicate Quiet(call: Call)
  {
    !(call.AttendancePost? || call.UserPut? || call.UserPatch? || call.UserDelete? || call.AttendancePatch?
      || call.CoursePatch? || call.CourseDelete? || call.GradePatch? || call.GradeDelete? || call.Other?)
  }

  /** The corrected build's role check: a logged-in caller without `role`
      gets `refusal` and changes nothing. */
  ghost predicate RoleChecked(build: Build, actor: Option<User>, role: Role, refusal: Response,
                              s0: (Store, CacheStore, seq<MailTask>), resp: Response, s1: (Store, CacheStore, seq<MailTask>))
  {
    build == Corrected && actor.Some? && actor.value.role != role ==> resp == refusal && s1 == s0
  }

  /** What the views promise for a routed call, from the state `s0` before
      it to the response and the state `s1` after it: the teacher check of
      the attendance create view; the role checks the corrected build adds
      to the user writes and to the default handlers; the writes those
      default handlers make, as written, for any logged-in caller; and the
      response and store an unmodelled handler reports. */
  ghost predicate RoutedOutcome(build: Build, actor: Option<User>, call: Call, s0: (Store, CacheStore, seq<MailTask>),
                                resp: Response, s1: (Store, CacheStore, seq<MailTask>))
  {
    Quiet(call) ||
    match call
    case AttendancePost(_) =>
      actor.Some? && actor.value.role != Teacher ==> resp == Forbidden(OnlyTeachersAddAttendance) && s1 == s0
    case UserPut(_, _) | UserDelete(_) => RoleChecked(build, actor, Admin, Forbidden(NoPermission), s0, resp, s1)
    case UserPatch(pk, patch) =>
      && RoleChecked(build, actor, Admin, Forbidden(NoPermission), s0, resp, s1)
      && (build == AsWritten && actor.Some? && UserById(s0.0, pk).Some? && patch.Accepted? ==> resp.status == 200)
    case AttendancePatch(pk, patch) =>
      && RoleChecked(build, actor, Teacher, Forbidden(OnlyTeachersUpdateAttendance), s0, resp, s1)
      && (&& build == AsWritten && actor.Some? && actor.value.role == Student
          && patch.Accepted? && patch.data.studentId.None? && patch.data.courseId.None?
          && (exists a :: a in s0.0.attendance && a.id == pk && AttendedBy(s0.0, a, actor.value.id))
          ==> resp.status == 200)
    case CoursePatch(_, _) => RoleChecked(build, actor, Teacher, Forbidden(OnlyTeachersUpdateCourses), s0, resp, s1)
    case CourseDelete(pk) =>
      && RoleChecked(build, actor, Teacher, Forbidden(OnlyTeachersUpdateCourses), s0, resp, s1)
      && (build == AsWritten && actor.Some? && Database.Valid(s0.0) && CourseById(s0.0, pk).Some? ==>
            resp == Response(204, JNull) && s1.0 == DeleteCourse(s0.0, pk))
    case GradePatch(_, _) =>
      RoleChecked(build, actor, Teacher, Response(403, ErrorBody(OnlyTeachersUpdateGrades)), s0, resp, s1)
    case GradeDelete(pk) =>
      && RoleChecked(build, actor, Teacher, Response(403, ErrorBody(OnlyTeachersUpdateGrades)), s0, resp, s1)
      && (build == AsWritten && actor.Some? && Database.Valid(s0.0) && GradeById(s0.0, pk).Some? ==>
            resp == Response(204, JNull) && s1.0 == DeleteGrade(s0.0, pk))
    case Other(_, status, body, after) => resp == Response(status, body) && s1 == (after, s0.1, s0.2)
    case _ => true
  }

  /** The view a routed call reaches, by app. */
  method DispatchRouted(b: Backend, build: Build, actor: Option<User>, call: Call, now: int, today: string) returns (resp: Response)
    requires b.Valid() && Routed(build, call) && (actor.Some? || !NeedsLogin(call))
    requires call.Other? ==> Database.Valid(call.after)
    modifies b
    ensures b.Valid() && RoutedOutcome(build, actor, call, old(b.State()), resp, b.State())
  {
    match call
    case RegisterPost(_) | UsersGet | UserGet(_) | StudentsGet | StudentPut(_, _) =>
      resp := DispatchUsers(b, build, actor, call);
    case UserPut(_, _) | UserPatch(_, _) | UserDelete(_) =>
      resp := DispatchUserWrites(b, build, actor, call);
    case CoursesGet | CoursesPost(_) | CoursePut(_, _) | EnrollmentsPost(_) =>
      resp := DispatchCourses(b, build, actor, call);
    case AttendanceListGet | AttendancePost(_) | AttendanceGet(_) | AttendancePut(_, _) | AttendanceDelete(_) =>
      resp := DispatchAttendance(b, build, actor, call, today);
    case GradesGet | GradesPost(_) | GradePut(_, _) =>
      resp := DispatchGrades(b, build, actor, call, today);
    case AttendancePatch(_, _) | CoursePatch(_, _) | GradePatch(_, _) =>
      resp := DispatchDefaultPatches(b, build, actor, call);
    case CourseDelete(_) | GradeDelete(_) | Other(_, _, _, _) =>
      resp := DispatchDefaultDeletes(b, build, actor, call);
    case NotificationsGet(_) | NotificationsPost(_) | NotificationPut(_, _) | NotificationDelete(_) | AnalyticsGet(_) =>
      resp := DispatchNotifications(b, build, actor, call, now);
  }

  /** Registration and the read and student views of the users and students
      apps. */
  method DispatchUsers(b: Backend, build: Build, actor: Option<User>, call: Call) returns (resp: Response)
    requires b.Valid() && (actor.Some? || !NeedsLogin(call))
    requires call.RegisterPost? || call.UsersGet? || call.UserGet? || call.StudentsGet? || call.StudentPut?
    modifies b
    ensures b.Valid() && RoutedOutcome(build, actor, call, old(b.State()), resp, b.State())
  {
    match call {
      case RegisterPost(input) => resp := b.SignUp(input);
      case UsersGet => resp := b.UserList(actor.value);
      case UserGet(pk) => resp := b.RetrieveUser(pk);
      case StudentsGet => resp := b.StudentList(actor.value);
      case StudentPut(pk, input) => resp := b.UpdateStudent(actor.value, pk, input);
    }
  }

  /** The writes of the user detail view. */
  method DispatchUserWrites(b: Backend, build: Build, actor: Option<User>, call: Call) returns (resp: Response)
    requires b.Valid() && actor.Some? && (call.UserPut? || call.UserPatch? || call.UserDelete?)
    modifies b
    ensures b.Valid() && RoutedOutcome(build, actor, call, old(b.State()), resp, b.State())
  {
    match call
    case UserPut(pk, input) => resp := b.UpdateUser(actor.value, build, false, pk, input);
    case UserPatch(pk, input) => resp := b.UpdateUser(actor.value, build, true, pk, input);
    case UserDelete(pk) =>
      resp := b.DestroyUser(actor.value, pk);
      assert build == Corrected && RoleRefused(actor.value, call) ==> resp == RoleRefusal(call);
  }

  /** The views of the courses app that override their handler. */
  method DispatchCourses(b: Backend, build: Build, actor: Option<User>, call: Call) returns (resp: Response)
    requires b.Valid() && actor.Some? && (call.CoursesGet? || call.CoursesPost? || call.CoursePut? || call.EnrollmentsPost?)
    modifies b
    ensures b.Valid() && RoutedOutcome(build, actor, call, old(b.State()), resp, b.State())
  {
    match call {
      case CoursesGet => resp := b.CourseList();
      case CoursesPost(input) => resp := b.CreateCourse(actor.value, input);
      case CoursePut(pk, input) => resp := b.UpdateCourse(actor.value, pk, input);
      case EnrollmentsPost(input) => resp := b.Enroll(actor.value, input);
    }
  }

  /** The views of the attendance app that override their handler. */
  method DispatchAttendance(b: Backend, build: Build, actor: Option<User>, call: Call, today: string) returns (resp: Response)
    requires b.Valid() && actor.Some?
    requires call.AttendanceListGet? || call.AttendancePost? || call.AttendanceGet? || call.AttendancePut?
             || call.AttendanceDelete?
    modifies b
    ensures b.Valid() && RoutedOutcome(build, actor, call, old(b.State()), resp, b.State())
  {
    match call
    case AttendanceListGet => resp := b.AttendanceList(actor.value);
    case AttendancePost(input) => resp := b.CreateAttendance(actor.value, input, today);
    case AttendanceGet(pk) => resp := b.RetrieveAttendance(actor.value, pk);
    case AttendancePut(pk, input) => resp := b.UpdateAttendance(actor.value, pk, input);
    case AttendanceDelete(pk) => resp := b.DestroyAttendance(actor.value, pk);
  }

  /** The views of the grades app that override their handler. */
  method DispatchGrades(b: Backend, build: Build, actor: Option<User>, call: Call, today: string) returns (resp: Response)
    requires b.Valid() && actor.Some? && (call.GradesGet? || call.GradesPost? || call.GradePut?)
    modifies b
    ensures b.Valid() && RoutedOutcome(build, actor, call, old(b.State()), resp, b.State())
  {
    match call {
      case GradesGet => resp := b.GradeList();
      case GradesPost(input) => resp := b.CreateGrade(actor.value, input, today);
      case GradePut(pk, input) => resp := b.UpdateGrade(actor.value, pk, input);
    }
  }

  /** DRF's default `partial_update`, which the detail views of attendance,
      courses and grades do not override. */
  method DispatchDefaultPatches(b: Backend, build: Build, actor: Option<User>, call: Call) returns (resp: Response)
    requires b.Valid() && actor.Some? && (call.AttendancePatch? || call.CoursePatch? || call.GradePatch?)
    modifies b
    ensures b.Valid() && RoutedOutcome(build, actor, call, old(b.State()), resp, b.State())
  {
    if call.AttendancePatch? {
      resp := b.PatchAttendance(actor.value, build, call.rowPk, call.rowPatch);
    } else if call.CoursePatch? {
      resp := b.PatchCourse(actor.value, build, call.coursePk, call.coursePatch);
    } else {
      resp := b.PatchGrade(actor.value, build, call.gradePk, call.gradePatch);
    }
  }

  /** DRF's default `destroy`, which the course and grade detail views do
      not override, and every unmodelled request. */
  method DispatchDefaultDeletes(b: Backend, build: Build, actor: Option<User>, call: Call) returns (resp: Response)
    requires b.Valid() && (call.CourseDelete? || call.GradeDelete? ==> actor.Some?)
    requires call.CourseDelete? || call.GradeDelete? || call.Other?
    requires call.Other? ==> Database.Valid(call.after)
    modifies b
    ensures b.Valid() && RoutedOutcome(build, actor, call, old(b.State()), resp, b.State())
  {
    if call.CourseDelete? {
      resp := b.DestroyCourse(actor.value, build, call.coursePk);
    } else if call.GradeDelete? {
      resp := b.DestroyGrade(actor.value, build, call.gradePk);
    } else {
      b.Commit(call.after, b.cache, b.outbox);
      resp := Response(call.status, call.body);
    }
  }

  /** The views of the notifications app, and the analytics view. */
  method DispatchNotifications(b: Backend, build: Build, actor: Option<User>, call: Call, now: int) returns (resp: Response)
    requires b.Valid() && (actor.Some? || !NeedsLogin(call))
    requires call.NotificationsGet? || call.NotificationsPost? || call.NotificationPut? || call.NotificationDelete?
             || call.AnalyticsGet?
    modifies b
    ensures b.Valid() && RoutedOutcome(build, actor, call, old(b.State()), resp, b.State())
  {
    if call.NotificationsGet? {
      resp := b.NotificationList(actor.value, call.failure);
    } else if call.NotificationsPost? {
      resp := b.CreateNotification(actor.value, call.newNotification, now);
    } else if call.NotificationPut? {
      resp := b.UpdateNotification(actor.value, call.notificationPk, call.patch);
    } else if call.NotificationDelete? {
      resp := b.DestroyNotification(actor.value, call.notificationPk);
    } else {
      resp := b.Analytics(call.filter);
    }
  }

  /** The middleware's write, `APIRequestLog.objects.create`: exactly one
      log row, carrying the caller, the path, the method and the status the
      view answered with, and nothing else changes. */
  method LogRequest(b: Backend, path: string, actor: Option<User>, m: HttpMethod, status: int, now: int)
    requires b.Valid()
    modifies b
    ensures b.Valid()
    ensures b.State() == (AppendLog(old(b.store), LoggedUser(actor), path, MethodName(m), status, now), old(b.cache), old(b.outbox))
  {
    b.Commit(AppendLog(b.store, LoggedUser(actor), path, MethodName(m), status, now), b.cache, b.outbox);
  }

  /** The state the middleware leaves when the view left `st` and answered
      `req` with `status`: one more log row under `/api/`, `st` elsewhere. */
  function AfterLogging(st: (Store, CacheStore, seq<MailTask>), req: Request, status: int, now: int): (r: (Store, CacheStore, seq<MailTask>))
    requires Database.Valid(st.0)
    ensures Database.Valid(r.0) && r.1 == st.1 && r.2 == st.2
    ensures IsApiPath(req.path) ==> |r.0.logs| == |st.0.logs| + 1 && r.0.logs[..|st.0.logs|] == st.0.logs
    ensures !IsApiPath(req.path) ==> r == st
  {
    if IsApiPath(req.path) then
      (AppendLog(st.0, LoggedUser(req.actor), req.path, MethodName(MethodOf(req.call)), status, now), st.1, st.2)
    else st
  }

  /** The calls the corrected build refuses for the caller's role before
      any row is looked at. */
  predicate RoleRefused(actor: User, call: Call)
  {
    || ((call.UserPut? || call.UserPatch? || call.UserDelete?) && actor.role != Admin)
    || (DefaultWrite(call) && actor.role != Teacher)
  }

  /** The writes the attendance, course and grade detail views leave to
      DRF's default `partial_update` and `destroy`. */
  predicate DefaultWrite(call: Call)
  {
    call.AttendancePatch? || call.CoursePatch? || call.CourseDelete? || call.GradePatch? || call.GradeDelete?
  }

  /** As written, a default write passes every check the view makes before
      its handler for any logged-in caller: a student is not refused. */
  lemma DefaultHandlersSkipRoleChecks(student: User, call: Call)
    requires student.role == Student && DefaultWrite(call)
    ensures !Refused(AsWritten, Some(student), call)
    ensures RoleRefused(student, call) && Refused(Corrected, Some(student), call)
  {
  }

  /** Corrected, a default write is refused before its handler exactly for
      callers who are not teachers, with the 403 the view's `put` gives. */
  lemma CorrectedDefaultHandlersCheckRole(actor: User, call: Call)
    requires DefaultWrite(call)
    ensures Refused(Corrected, Some(actor), call) <==> actor.role != Teacher
    ensures RoleRefusal(call).status == 403
    ensures call.AttendancePatch? ==> RoleRefusal(call) == Forbidden(OnlyTeachersUpdateAttendance)
    ensures call.CoursePatch? || call.CourseDelete? ==> RoleRefusal(call) == Forbidden(OnlyTeachersUpdateCourses)
    ensures call.GradePatch? || call.GradeDelete? ==> RoleRefusal(call) == Response(403, ErrorBody(OnlyTeachersUpdateGrades))
  {
  }

  /** The corrected build's answer to a call `RoleRefused` names: the
      permission class's message for user writes, the message of `put` on
      the same view otherwise. */
  function RoleRefusal(call: Call): Response
  {
    if call.UserPut? || call.UserPatch? || call.UserDelete? then Forbidden(NoPermission)
    else if call.AttendancePatch? then Forbidden(OnlyTeachersUpdateAttendance)
    else if call.CoursePatch? || call.CourseDelete? then Forbidden(OnlyTeachersUpdateCourses)
    else Response(403, ErrorBody(OnlyTeachersUpdateGrades))
  }

  /** The calls the view answers without touching the store, the cache or
      the outbox: refused before the handler (not logged in, not routed), or
      by a handler's role check. */
  predicate Refused(build: Build, actor: Option<User>, call: Call)
  {
    || (actor.None? && NeedsLogin(call))
    || (actor.Some? && !Routed(build, call))
    || (actor.Some? && call.AttendancePost? && actor.value.role != Teacher)
    || (build == Corrected && actor.Some? && RoleRefused(actor.value, call))
  }

  /** `LogAPIRequestsMiddleware.__call__`: the view answers first, then the
      call is logged with the status it got. The newest log row is the
      request's own; an anonymous request to a protected view is refused
      and, under `/api/`, leaves nothing behind but its log row. */
  method Serve(b: Backend, build: Build, req: Request, now: int, today: string) returns (resp: Response)
    requires b.Valid()
    requires req.call.Other? ==> Database.Valid(req.call.after)
    modifies b
    ensures b.Valid()
    ensures IsApiPath(req.path) ==>
              && b.store.nextId > 0 && |b.store.logs| > 0
              && b.store.logs[|b.store.logs| - 1]
                 == NewLog(b.store.nextId - 1, LoggedUser(req.actor), req.path, MethodName(MethodOf(req.call)), resp.status, now)
    ensures req.actor.None? && NeedsLogin(req.call) ==> resp == Response(401, Detail(NotAuthenticated))
    ensures req.actor.Some? && !Routed(build, req.call) ==> resp == Response(405, Detail(PostNotAllowed))
    ensures build == Corrected && req.actor.Some? && req.call.AttendancePost? && req.actor.value.role != Teacher ==>
              resp == Forbidden(OnlyTeachersAddAttendance)
    ensures build == Corrected && req.actor.Some? && RoleRefused(req.actor.value, req.call) ==> resp == RoleRefusal(req.call)
    ensures build == AsWritten && req.actor.Some? && req.call.UserPatch?
            && UserById(old(b.store), req.call.userPk).Some? && req.call.userPatch.Accepted? ==>
              resp.status == 200
    ensures build == AsWritten && req.actor.Some? && req.call.CourseDelete? && CourseById(old(b.store), req.call.coursePk).Some? ==>
              resp == Response(204, JNull)
    ensures build == AsWritten && req.actor.Some? && req.call.GradeDelete? && GradeById(old(b.store), req.call.gradePk).Some? ==>
              resp == Response(204, JNull)
    ensures build == AsWritten && req.actor.Some? && req.actor.value.role == Student && req.call.AttendancePatch?
            && req.call.rowPatch.Accepted? && req.call.rowPatch.data.studentId.None? && req.call.rowPatch.data.courseId.None?
            && (exists a :: a in old(b.store).attendance && a.id == req.call.rowPk && AttendedBy(old(b.store), a, req.actor.value.id)) ==>
              resp.status == 200
    ensures req.call.Other? ==> resp == Response(req.call.status, req.call.body)
    ensures req.call.Other? ==>
              b.State() == AfterLogging((req.call.after, old(b.cache), old(b.outbox)), req, resp.status, now)
    ensures Refused(build, req.actor, req.call) ==> b.State() == AfterLogging(old(b.State()), req, resp.status, now)
  {
    resp := Dispatch(b, build, req.actor, req.call, now, today);
    if IsApiPath(req.path) {
      LogRequest(b, req.path, req.actor, MethodOf(req.call), resp.status, now);
    }
  }
}

=== FILE: notifications.dfy ===
/** In-app notifications of one user. The notification model and serializer
    are not part of this model; a notification is taken to carry its owner,
    a message, a read flag (false when created) and a creation time. */
module Notifications {
  import opened Common
  import opened Tables
  import opened Sorting

  datatype Notification = Notification(id: nat, userId: nat, message: string, read: bool, createdAt: int)

  function NotificationId(n: Notification): nat { n.id }
  function CreatedAt(n: Notification): int { n.createdAt }

  /** The fields a caller writes when creating a notification; the owner is
      always the requesting user. */
  datatype NotificationInput = NotificationInput(message: string)

  /** A partial update: only the fields present are written. */
  datatype NotificationPatch = NotificationPatch(message: Option<string>, read: Option<bool>)

  function NewNotification(id: nat, owner: nat, input: NotificationInput, now: int): (n: Notification)
    ensures n.userId == owner && !n.read && n.createdAt == now && n.message == input.message
  {
    Notification(id, owner, input.message, false, now)
  }

  /** `serializer.save()` with `partial=True`: absent fields keep their value,
      and the owner never changes. */
  function PatchNotification(n: Notification, p: NotificationPatch): (r: Notification)
    ensures r.id == n.id && r.userId == n.userId && r.createdAt == n.createdAt
    ensures r.message == (if p.message.Some? then p.message.value else n.message)
    ensures r.read == (if p.read.Some? then p.read.value else n.read)
  {
    n.(message := if p.message.Some? then p.message.value else n.message,
       read := if p.read.Some? then p.read.value else n.read)
  }

  /** An empty patch changes nothing. */
  lemma PatchEmpty(n: Notification)
    ensures PatchNotification(n, NotificationPatch(None, None)) == n
  {
  }

  /** `Notification.objects.filter(user=u).order_by('-created_at')`. */
  function InboxOf(notifications: seq<Notification>, userId: nat): (r: seq<Notification>)
    ensures forall n :: n in r <==> n in notifications && n.userId == userId
    ensures SortedDesc(r, CreatedAt)
  {
    var mine := Filter(notifications, (n: Notification) => n.userId == userId);
    SortDescSorted(mine, CreatedAt);
    forall n ensures n in SortDesc(mine, CreatedAt) <==> n in mine {
      SortDescMembers(mine, CreatedAt, n);
    }
    SortDesc(mine, CreatedAt)
  }

  function NotificationJson(n: Notification): (j: Json)
    ensures j.JObj? && Keys(j.fields) == ["id", "user", "message", "read", "created_at"]
  {
    JObj([("id", JInt(n.id)), ("user", JInt(n.userId)), ("message", JStr(n.message)),
          ("read", JBool(n.read)), ("created_at", JInt(n.createdAt))])
  }
}

=== FILE: policy.dfy ===
/** Who may do what: the permission classes the views name, the
    role-filtered querysets of the list views, and the ownership checks of
    the attendance detail view. */
module Policy {
  import opened Common
  import opened Tables
  import opened Users
  import opened Students
  import opened Courses
  import opened Attendances
  import opened Database
  import opened Http

  /** `IsAdmin`: the actor's role is admin. The permission classes live in
      users/permissions.py and students/permissions.py, which are not part
      of this model; each is taken to mean what its name says. */
  predicate IsAdmin(actor: User)
  {
    actor.role == Admin
  }

  /** `IsAdminOrTeacher`. */
  predicate IsAdminOrTeacher(actor: User)
  {
    actor.role == Admin || actor.role == Teacher
  }

  /** `UserDetailView.get_permissions` as written: the admin check is added
      for PUT and DELETE only. PATCH reaches the same `update` handler
      through DRF's `partial_update`, yet needs only authentication. */
  function UserDetailPermitsAsWritten(actor: User, m: HttpMethod): bool
  {
    if m == PUT || m == DELETE then IsAdmin(actor) else true
  }

  /** A student who PATCHes any user, their own role included, passes the
      check as written. */
  lemma PatchSkipsAdminCheck()
    ensures var student := User(1, "student@example.com", "student", Student);
            UserDetailPermitsAsWritten(student, PATCH) && !IsAdmin(student)
  {
  }

  /** The check the views evidently intend: every write to a user, by PUT,
      PATCH or DELETE, needs the admin role; reading needs none. */
  function UserDetailPermits(actor: User, m: HttpMethod): bool
  {
    if m == PUT || m == PATCH || m == DELETE then IsAdmin(actor) else true
  }

  /** The corrected check admits a write exactly for admins, never admits
      what the original refuses, and differs from it exactly on a PATCH by
      someone who is not an admin. */
  lemma UserWritesNeedAdmin(actor: User, m: HttpMethod)
    ensures m in {PUT, PATCH, DELETE} ==> (UserDetailPermits(actor, m) <==> actor.role == Admin)
    ensures m == GET ==> UserDetailPermits(actor, m)
    ensures UserDetailPermits(actor, m) ==> UserDetailPermitsAsWritten(actor, m)
    ensures UserDetailPermits(actor, m) != UserDetailPermitsAsWritten(actor, m) <==> m == PATCH && actor.role != Admin
  {
  }

  /** Which program runs: the code as written, or the code with the two
      defects the model exhibits corrected (the admin check on PATCH of a
      user, and the route to the attendance create view). */
  datatype Build = AsWritten | Corrected

  /** The permission check the user detail view runs in each build. */
  function UserWriteAdmitted(build: Build, actor: User, m: HttpMethod): (r: bool)
    ensures build == Corrected && m in {PUT, PATCH, DELETE} ==> (r <==> actor.role == Admin)
    ensures build == AsWritten ==> (r <==> (m == PUT || m == DELETE ==> actor.role == Admin))
  {
    if build == AsWritten then UserDetailPermitsAsWritten(actor, m) else UserDetailPermits(actor, m)
  }

  /** `UserListView.get_queryset`: an admin sees every user, a teacher the
      student-role users, anyone else nobody. */
  function VisibleUsers(actor: User, users: seq<User>): (r: seq<User>)
    ensures actor.role == Admin ==> r == users
    ensures actor.role == Teacher ==> forall u :: u in r <==> u in users && u.role == Student
    ensures actor.role == Student ==> r == []
  {
    match actor.role
    case Admin => users
    case Teacher => Filter(users, (u: User) => u.role == Student)
    case Student => []
  }

  /** `user__role='student'`: the profile's user has the student role. */
  predicate ProfileOfStudentRole(s: Store, p: StudentProfile)
  {
    exists u :: u in s.users && u.id == p.userId && u.role == Student
  }

  /** `StudentListView.get_queryset`: an admin sees every profile, a teacher
      those whose user has the student role, anyone else none. */
  function VisibleStudents(actor: User, s: Store): (r: seq<StudentProfile>)
    ensures actor.role == Admin ==> r == s.students
    ensures actor.role == Teacher ==> forall p :: p in r <==> p in s.students && ProfileOfStudentRole(s, p)
    ensures actor.role == Student ==> r == []
  {
    match actor.role
    case Admin => s.students
    case Teacher => Filter(s.students, (p: StudentProfile) => ProfileOfStudentRole(s, p))
    case Student => []
  }

  /** What an admin sees of users and profiles, a teacher sees too; a
      student sees nothing of either. */
  lemma VisibilityGrowsWithRole(actor: User, admin: User, s: Store)
    requires admin.role == Admin && actor.role != Admin
    ensures forall u :: u in VisibleUsers(actor, s.users) ==> u in VisibleUsers(admin, s.users)
    ensures forall p :: p in VisibleStudents(actor, s) ==> p in VisibleStudents(admin, s)
    ensures actor.role == Student ==> VisibleUsers(actor, s.users) == [] && VisibleStudents(actor, s) == []
  {
  }

  /** `course__instructor=teacher`: the row's course is taught by `teacher`. */
  predicate TaughtBy(s: Store, a: Attendance, teacher: nat)
  {
    exists c :: c in s.courses && c.id == a.courseId && c.instructor == teacher
  }

  /** `student__user=user`: the row's student profile belongs to `user`. */
  predicate AttendedBy(s: Store, a: Attendance, user: nat)
  {
    exists p :: p in s.students && p.id == a.studentId && p.userId == user
  }

  /** Why the attendance list refuses a role other than teacher or student. */
  const AttendanceListDenied: string := "Only teachers and students can view attendance records."

  /** `AttendanceListView.get_queryset`: a teacher's rows are those of the
      courses they teach, a student's those of their own profile; an admin
      is refused (`None`). */
  function VisibleAttendance(actor: User, s: Store): (r: Option<seq<Attendance>>)
    ensures r.None? <==> actor.role == Admin
    ensures actor.role == Teacher ==> r.Some? && forall a :: a in r.value <==> a in s.attendance && TaughtBy(s, a, actor.id)
    ensures actor.role == Student ==> r.Some? && forall a :: a in r.value <==> a in s.attendance && AttendedBy(s, a, actor.id)
  {
    match actor.role
    case Teacher => Some(Filter(s.attendance, (a: Attendance) => TaughtBy(s, a, actor.id)))
    case Student => Some(Filter(s.attendance, (a: Attendance) => AttendedBy(s, a, actor.id)))
    case Admin => None
  }

  const NotYourCourse: string := "You can only manage attendance records for your own courses."
  const NotYourRecord: string := "You can only view your own attendance records."

  /** `AttendanceDetailView.get_object`, once the row is found: a teacher
      must instruct the row's course (`attendance.course.instructor`), a
      student must own the row (`attendance.student.user`); an admin passes.
      The result is the refusal, if any. */
  function AttendanceDenial(actor: User, s: Store, a: Attendance): (r: Option<string>)
    ensures actor.role == Admin ==> r.None?
    ensures r.Some? ==> r.value == (if actor.role == Teacher then NotYourCourse else NotYourRecord)
  {
    var course := CourseById(s, a.courseId);
    var profile := ProfileById(s, a.studentId);
    if actor.role == Teacher && !(course.Some? && course.value.instructor == actor.id) then Some(NotYourCourse)
    else if actor.role == Student && !(profile.Some? && profile.value.userId == actor.id) then Some(NotYourRecord)
    else None
  }

  /** The detail check and the list agree: a teacher or a student may open
      exactly the rows their own list shows. */
  lemma DetailAgreesWithList(actor: User, s: Store, a: Attendance)
    requires Valid(s) && a in s.attendance && actor.role != Admin
    ensures AttendanceDenial(actor, s, a).None? <==> a in VisibleAttendance(actor, s).value
  {
    assert AttendanceRefs(s, a);
    var c :| c in s.courses && c.id == a.courseId;
    LookupUnique(s.courses, CourseId, c);
    var p :| p in s.students && p.id == a.studentId;
    LookupUnique(s.students, ProfileId, p);
    if actor.role == Teacher {
      if TaughtBy(s, a, actor.id) {
        var c' :| c' in s.courses && c'.id == a.courseId && c'.instructor == actor.id;
        LookupUnique(s.courses, CourseId, c');
      }
    } else {
      if AttendedBy(s, a, actor.id) {
        var p' :| p' in s.students && p'.id == a.studentId && p'.userId == actor.id;
        LookupUnique(s.students, ProfileId, p');
      }
    }
  }
}

=== FILE: sorting.dfy ===
/** `order_by('-field')`: a stable insertion sort, largest key first. The
    database leaves the order of equal keys unspecified; the model keeps the
    input order for them. */
module Sorting {

  /** Non-increasing in `key`. */
  ghost predicate SortedDesc<T>(s: seq<T>, key: T -> int)
  {
    forall i, j :: 0 <= i < j < |s| ==> key(s[i]) >= key(s[j])
  }

  /** The sum of `f` over the elements. */
  function SumBy<T>(s: seq<T>, f: T -> int): int
  {
    if s == [] then 0 else f(s[0]) + SumBy(s[1..], f)
  }

  /** No two elements share a value of `g`. */
  ghost predicate DistinctBy<T, K>(s: seq<T>, g: T -> K)
  {
    forall i, j :: 0 <= i < j < |s| ==> g(s[i]) != g(s[j])
  }

  /** Puts `x` before the first element with a smaller key. */
  function Insert<T>(x: T, s: seq<T>, key: T -> int): (r: seq<T>)
    ensures multiset(r) == multiset(s) + multiset{x}
    ensures |r| == |s| + 1
  {
    if s == [] then [x]
    else if key(x) >= key(s[0]) then [x] + s
    else
      assert s == [s[0]] + s[1..];
      [s[0]] + Insert(x, s[1..], key)
  }

  function SortDesc<T>(s: seq<T>, key: T -> int): (r: seq<T>)
    ensures multiset(r) == multiset(s)
    ensures |r| == |s|
  {
    if s == [] then []
    else
      assert s == [s[0]] + s[1..];
      Insert(s[0], SortDesc(s[1..], key), key)
  }

  lemma {:induction false} InsertSorted<T>(x: T, s: seq<T>, key: T -> int)
    requires SortedDesc(s, key)
    ensures SortedDesc(Insert(x, s, key), key)
  {
    if s != [] && key(x) < key(s[0]) {
      var t := s[1..];
      assert SortedDesc(t, key);
      InsertSorted(x, t, key);
      var r := Insert(x, s, key);
      forall j | 1 <= j < |r| ensures key(r[0]) >= key(r[j]) {
        assert r[j] in multiset(Insert(x, t, key));
        assert r[j] == x || r[j] in multiset(t);
      }
    }
  }

  /** The result of SortDesc is ordered by key, largest first. */
  lemma {:induction false} SortDescSorted<T>(s: seq<T>, key: T -> int)
    ensures SortedDesc(SortDesc(s, key), key)
  {
    if s != [] {
      SortDescSorted(s[1..], key);
      InsertSorted(s[0], SortDesc(s[1..], key), key);
    }
  }

  /** Sorting changes neither which elements there are nor how many. */
  lemma SortDescMembers<T>(s: seq<T>, key: T -> int, x: T)
    ensures x in SortDesc(s, key) <==> x in s
  {
    assert x in SortDesc(s, key) <==> x in multiset(SortDesc(s, key));
  }

  lemma {:induction false} InsertSum<T>(x: T, s: seq<T>, key: T -> int, f: T -> int)
    ensures SumBy(Insert(x, s, key), f) == f(x) + SumBy(s, f)
  {
    if s != [] && key(x) < key(s[0]) {
      InsertSum(x, s[1..], key, f);
      assert Insert(x, s, key)[1..] == Insert(x, s[1..], key);
    } else if s != [] {
      assert ([x] + s)[1..] == s;
    }
  }

  /** Sorting keeps any sum over the elements. */
  lemma {:induction false} SortDescSum<T>(s: seq<T>, key: T -> int, f: T -> int)
    ensures SumBy(SortDesc(s, key), f) == SumBy(s, f)
  {
    if s != [] {
      SortDescSum(s[1..], key, f);
      InsertSum(s[0], SortDesc(s[1..], key), key, f);
    }
  }

  /** `[x] + s` is distinct exactly when `s` is and no element of `s`
      shares `x`'s value. */
  lemma ConsDistinct<T, K>(x: T, s: seq<T>, g: T -> K)
    ensures DistinctBy([x] + s, g) <==> DistinctBy(s, g) && forall y :: y in s ==> g(y) != g(x)
  {
    var r := [x] + s;
    if DistinctBy(s, g) && forall y :: y in s ==> g(y) != g(x) {
      forall i, j | 0 <= i < j < |r| ensures g(r[i]) != g(r[j]) {
        if i > 0 { assert r[i] == s[i - 1] && r[j] == s[j - 1]; }
        else { assert r[j] in s; }
      }
    }
    if DistinctBy(r, g) {
      forall i, j | 0 <= i < j < |s| ensures g(s[i]) != g(s[j]) {
        assert r[i + 1] == s[i] && r[j + 1] == s[j];
      }
      forall y | y in s ensures g(y) != g(x) {
        var k :| 0 <= k < |s| && s[k] == y;
        assert r[0] == x && r[k + 1] == y;
      }
    }
  }

  lemma {:induction false} InsertDistinct<T, K>(x: T, s: seq<T>, key: T -> int, g: T -> K)
    requires DistinctBy(s, g)
    requires forall y :: y in s ==> g(y) != g(x)
    ensures DistinctBy(Insert(x, s, key), g)
  {
    if s == [] || key(x) >= key(s[0]) {
      ConsDistinct(x, s, g);
    } else {
      var t := s[1..];
      assert s == [s[0]] + t;
      ConsDistinct(s[0], t, g);
      InsertDistinct(x, t, key, g);
      forall y | y in Insert(x, t, key) ensures g(y) != g(s[0]) {
        assert y in multiset(Insert(x, t, key));
      }
      ConsDistinct(s[0], Insert(x, t, key), g);
    }
  }

  /** Sorting keeps a column distinct. */
  lemma {:induction false} SortDescDistinct<T, K>(s: seq<T>, key: T -> int, g: T -> K)
    requires DistinctBy(s, g)
    ensures DistinctBy(SortDesc(s, key), g)
  {
    if s != [] {
      var t := s[1..];
      assert s == [s[0]] + t;
      ConsDistinct(s[0], t, g);
      SortDescDistinct(t, key, g);
      forall y | y in SortDesc(t, key) ensures g(y) != g(s[0]) {
        SortDescMembers(t, key, y);
      }
      InsertDistinct(s[0], SortDesc(t, key), key, g);
    }
  }
}

=== FILE: students.dfy ===
/** The student profile: a one-to-one extension of a user, with an optional
    date of birth and a registration date set when the row is created. */
module Students {
  import opened Common
  import opened Users

  /** A student row. `userId` names its user; at most one profile exists per
      user and it is removed with the user (both store invariants). Dates are
      ISO `YYYY-MM-DD` strings. */
  datatype StudentProfile = StudentProfile(id: nat, userId: nat, dob: Option<string>, registrationDate: string)

  function ProfileId(s: StudentProfile): nat { s.id }
  function ProfileUser(s: StudentProfile): nat { s.userId }

  /** What a caller may write on a profile: only the date of birth; the user
      link and the registration date are not the caller's to set. */
  datatype ProfileInput = ProfileInput(dob: Option<string>)

  /** A new profile: the registration date is today's date, whatever the
      caller sent. */
  function NewProfile(id: nat, userId: nat, input: ProfileInput, today: string): (s: StudentProfile)
    ensures s.registrationDate == today && s.dob == input.dob
    ensures s.id == id && s.userId == userId
  {
    StudentProfile(id, userId, input.dob, today)
  }

  /** `serializer.save()` on a profile: the date of birth changes, the user
      link and the registration date do not. */
  function UpdateProfile(s: StudentProfile, input: ProfileInput): (r: StudentProfile)
    ensures r.id == s.id && r.userId == s.userId && r.registrationDate == s.registrationDate
    ensures r.dob == input.dob
  {
    s.(dob := input.dob)
  }

  /** `str(student)`: "username - email" of its user. */
  function ProfileStr(u: User): (r: string)
    ensures StartsWith(r, u.username)
    ensures r[|u.username|..] == " - " + u.email
  {
    u.username + " - " + u.email
  }

  /** `StudentSerializer(student).data`: the user is nested, not an id. */
  function ProfileJson(s: StudentProfile, u: User): (j: Json)
    requires u.id == s.userId
    ensures j.JObj? && Keys(j.fields) == ["id", "user", "dob", "registration_date"]
    ensures j.fields[1].1 == UserJson(u)
  {
    JObj([("id", JInt(s.id)), ("user", UserJson(u)), ("dob", OptStr(s.dob)),
          ("registration_date", JStr(s.registrationDate))])
  }
}

=== FILE: tables.dfy ===
/** A database table modelled as a sequence of rows in primary-key order,
    with the queryset operations the views use: lookup by key, filter,
    replace one row, and the uniqueness of a column. */
module Tables {
  import opened Common

  /** `rows.filter(p)`: the rows satisfying `p`, in their original order. */
  function Filter<T(==,!new)>(rows: seq<T>, p: T -> bool): (r: seq<T>)
    ensures |r| <= |rows|
    ensures forall x :: x in r <==> x in rows && p(x)
  {
    if rows == [] then []
    else if p(rows[0]) then [rows[0]] + Filter(rows[1..], p)
    else Filter(rows[1..], p)
  }

  /** A column whose value identifies the row: no two rows share it. */
  ghost predicate Unique<T, K>(rows: seq<T>, key: T -> K)
  {
    forall i, j :: 0 <= i < |rows| && 0 <= j < |rows| && key(rows[i]) == key(rows[j]) ==> i == j
  }

  /** The values a column takes. */
  function Column<T(==,!new), K(==)>(rows: seq<T>, key: T -> K): (r: set<K>)
    ensures forall x :: x in rows ==> key(x) in r
    ensures forall k :: k in r ==> exists x :: x in rows && key(x) == k
  {
    set x | x in rows :: key(x)
  }

  /** `objects.get(pk=k)`: the position of the row whose column is `k`. */
  function IndexOf<T(==,!new), K(==)>(rows: seq<T>, key: T -> K, k: K): (r: Option<nat>)
    ensures r.Some? ==> r.value < |rows| && key(rows[r.value]) == k
    ensures r.None? ==> k !in Column(rows, key)
  {
    if rows == [] then None
    else if key(rows[0]) == k then Some(0)
    else match IndexOf(rows[1..], key, k)
      case None => None
      case Some(i) => Some(i + 1)
  }

  /** With a unique column, the row found is the only one carrying `k`. */
  lemma IndexOfUnique<T(!new), K>(rows: seq<T>, key: T -> K, k: K, x: T)
    requires Unique(rows, key)
    requires x in rows && key(x) == k
    ensures IndexOf(rows, key, k).Some?
    ensures rows[IndexOf(rows, key, k).value] == x
  {
    var i :| 0 <= i < |rows| && rows[i] == x;
    assert k in Column(rows, key);
  }

  /** `obj.save()` on the row at position `i`. */
  function Replace<T>(rows: seq<T>, i: nat, x: T): (r: seq<T>)
    requires i < |rows|
    ensures |r| == |rows| && r[i] == x
    ensures forall j :: 0 <= j < |rows| && j != i ==> r[j] == rows[j]
  {
    rows[i := x]
  }

  /** Filtering keeps a unique column unique. */
  lemma {:induction false} FilterUnique<T(!new), K>(rows: seq<T>, p: T -> bool, key: T -> K)
    requires Unique(rows, key)
    ensures Unique(Filter(rows, p), key)
  {
    if rows != [] {
      var tail := rows[1..];
      assert Unique(tail, key) by {
        forall i, j | 0 <= i < |tail| && 0 <= j < |tail| && key(tail[i]) == key(tail[j])
          ensures i == j
        {
          assert key(rows[i + 1]) == key(rows[j + 1]);
        }
      }
      FilterUnique(tail, p, key);
      if p(rows[0]) {
        var r := Filter(rows, p);
        forall y | y in Filter(tail, p) ensures key(y) != key(rows[0]) {
          var j :| 0 <= j < |tail| && tail[j] == y;
          assert rows[j + 1] == y;
        }
        forall i, j | 0 <= i < |r| && 0 <= j < |r| && key(r[i]) == key(r[j]) ensures i == j {
          if i > 0 && j > 0 {
            assert r[i] == Filter(tail, p)[i - 1] && r[j] == Filter(tail, p)[j - 1];
          }
        }
      }
    }
  }

  /** Replacing a row by one with the same key keeps the key unique. */
  lemma ReplaceUnique<T, K>(rows: seq<T>, i: nat, x: T, key: T -> K)
    requires i < |rows| && Unique(rows, key)
    requires key(x) == key(rows[i])
    ensures Unique(Replace(rows, i, x), key)
  {
  }

  /** Replacing a row by one whose column value no other row has keeps the
      column unique. */
  lemma ReplaceUniqueFresh<T, K>(rows: seq<T>, i: nat, x: T, key: T -> K)
    requires i < |rows| && Unique(rows, key)
    requires forall j :: 0 <= j < |rows| && j != i ==> key(rows[j]) != key(x)
    ensures Unique(Replace(rows, i, x), key)
  {
  }

  /** Appending a row whose key is new keeps the key unique. */
  lemma AppendUnique<T(!new), K>(rows: seq<T>, x: T, key: T -> K)
    requires Unique(rows, key)
    requires key(x) !in Column(rows, key)
    ensures Unique(rows + [x], key)
  {
    var r := rows + [x];
    forall i, j | 0 <= i < |r| && 0 <= j < |r| && key(r[i]) == key(r[j]) ensures i == j {
      if i < |rows| { assert r[i] in rows; }
      if j < |rows| { assert r[j] in rows; }
    }
  }

  /** Every row of `rows`, in order, transformed by `f` (a bulk update). */
  function MapRows<T>(rows: seq<T>, f: T -> T): (r: seq<T>)
    ensures |r| == |rows|
    ensures forall i :: 0 <= i < |rows| ==> r[i] == f(rows[i])
  {
    if rows == [] then [] else [f(rows[0])] + MapRows(rows[1..], f)
  }

  /** Keeping each row's key, a bulk update keeps a unique column unique. */
  lemma MapRowsUnique<T, K>(rows: seq<T>, f: T -> T, key: T -> K)
    requires Unique(rows, key)
    requires forall x :: key(f(x)) == key(x)
    ensures Unique(MapRows(rows, f), key)
  {
  }

  /** `objects.get(pk=k)` returning the row itself, or nothing when no row
      carries `k`. */
  function Lookup<T(==,!new), K(==)>(rows: seq<T>, key: T -> K, k: K): (r: Option<T>)
    ensures r.Some? ==> r.value in rows && key(r.value) == k
    ensures r.None? <==> k !in Column(rows, key)
  {
    match IndexOf(rows, key, k)
    case Some(i) => Some(rows[i])
    case None => None
  }

  /** With a unique column, the row found is the one carrying `k`. */
  lemma LookupUnique<T(!new), K>(rows: seq<T>, key: T -> K, x: T)
    requires Unique(rows, key)
    requires x in rows
    ensures Lookup(rows, key, key(x)) == Some(x)
  {
    IndexOfUnique(rows, key, key(x), x);
  }

  /** `Serializer(rows, many=True).data`: one document per row, in order. */
  function JsonList<T>(rows: seq<T>, f: T -> Json): (j: Json)
    ensures j.JList? && |j.items| == |rows|
    ensures forall i :: 0 <= i < |rows| ==> j.items[i] == f(rows[i])
  {
    JList(seq(|rows|, i requires 0 <= i < |rows| => f(rows[i])))
  }

  /** `obj.save()` on an existing row: the row carrying `key(x)` becomes
      `x`, the others stay, and the set of keys is unchanged. */
  function Save<T(==,!new), K(==)>(rows: seq<T>, key: T -> K, x: T): (r: seq<T>)
    requires Unique(rows, key)
    requires key(x) in Column(rows, key)
    ensures Unique(r, key)
    ensures forall y :: y in r <==> y == x || (y in rows && key(y) != key(x))
    ensures Column(r, key) == Column(rows, key)
  {
    var i := IndexOf(rows, key, key(x)).value;
    SaveFacts(rows, key, i, x);
    rows[i := x]
  }

  lemma SaveFacts<T(!new), K>(rows: seq<T>, key: T -> K, i: nat, x: T)
    requires Unique(rows, key)
    requires i < |rows| && key(rows[i]) == key(x)
    ensures Unique(rows[i := x], key)
    ensures forall y :: y in rows[i := x] <==> y == x || (y in rows && key(y) != key(x))
  {
    var r := rows[i := x];
    forall y ensures y in r <==> y == x || (y in rows && key(y) != key(x)) {
      assert r[i] == x;
      if y in r && y != x {
        var j :| 0 <= j < |r| && r[j] == y;
        assert j != i && r[j] == rows[j];
        assert key(rows[j]) != key(rows[i]);
      }
      if y in rows && key(y) != key(x) {
        var j :| 0 <= j < |rows| && rows[j] == y;
        assert j != i && r[j] == y;
      }
    }
  }

  /** Every key of the table is below `n`: the next id to hand out. */
  ghost predicate Below<T>(rows: seq<T>, key: T -> nat, n: nat)
  {
    forall i :: 0 <= i < |rows| ==> key(rows[i]) < n
  }

  /** Appending a row that takes the next id keeps the key unique and moves
      the bound past it. */
  lemma AppendFresh<T(!new)>(rows: seq<T>, key: T -> nat, x: T, n: nat)
    requires Unique(rows, key) && Below(rows, key, n)
    requires key(x) == n
    ensures Unique(rows + [x], key) && Below(rows + [x], key, n + 1)
  {
    AppendUnique(rows, x, key);
  }

  /** `objects.filter(pk=k).delete()`: every row but the one carrying `k`. */
  function Delete<T(==,!new), K(==)>(rows: seq<T>, key: T -> K, k: K): (r: seq<T>)
    requires Unique(rows, key)
    ensures Unique(r, key)
    ensures forall y :: y in r <==> y in rows && key(y) != k
    ensures k !in Column(r, key)
  {
    FilterUnique(rows, (y: T) => key(y) != k, key);
    Filter(rows, (y: T) => key(y) != k)
  }

  /** Filtering keeps a unique key unique and below its bound. */
  lemma FilterKeeps<T(!new)>(rows: seq<T>, p: T -> bool, key: T -> nat, n: nat)
    requires Unique(rows, key) && Below(rows, key, n)
    ensures Unique(Filter(rows, p), key) && Below(Filter(rows, p), key, n)
  {
    FilterUnique(rows, p, key);
    var r := Filter(rows, p);
    forall i | 0 <= i < |r| ensures key(r[i]) < n {
      assert r[i] in rows;
      var j :| 0 <= j < |rows| && rows[j] == r[i];
    }
  }
}

=== FILE: users.dfy ===
/** The custom user model and its two serializers: the role enumeration with
    its stored codes and display labels, the default role, the
    username-from-email default applied at sign-up, and the fields each
    serializer exposes. */
module Users {
  import opened Common

  /** The three roles a user can have; the stored code is `RoleCode`. */
  datatype Role = Student | Teacher | Admin

  /** A user is created with the student role unless another is given. */
  const DefaultRole: Role := Student

  /** The code stored in the `role` column (at most 10 characters). */
  function RoleCode(r: Role): string
  {
    match r
    case Student => "student"
    case Teacher => "teacher"
    case Admin => "admin"
  }

  /** `get_role_display()`: the human-readable label of a role. */
  function RoleLabel(r: Role): string
  {
    match r
    case Student => "Student"
    case Teacher => "Teacher"
    case Admin => "Admin"
  }

  /** The choice validation of the `role` column: the role a code names. */
  function ParseRole(code: string): (r: Option<Role>)
    ensures r.Some? ==> RoleCode(r.value) == code
  {
    if code == "student" then Some(Student)
    else if code == "teacher" then Some(Teacher)
    else if code == "admin" then Some(Admin)
    else None
  }

  /** Exactly the three codes are accepted, and each names its own role. */
  lemma RoleCodeRoundTrip(r: Role, code: string)
    ensures ParseRole(RoleCode(r)) == Some(r)
    ensures ParseRole(code).Some? <==> code in {"student", "teacher", "admin"}
    ensures |RoleCode(r)| <= 10
  {
  }

  /** A user row. `email` is the login identifier and unique across users
      (a store invariant); `username` is required at creation. */
  datatype User = User(id: nat, email: string, username: string, role: Role)

  function UserId(u: User): nat { u.id }
  function UserEmail(u: User): string { u.email }

  /** `email.split('@')[0]`: the text before the first '@'. */
  function UsernameFromEmail(email: string): (r: string)
    ensures StartsWith(email, r) && '@' !in r
    ensures |r| < |email| ==> email[|r|] == '@'
  {
    BeforeFirst(email, '@')
  }

  /** The username kept at creation: a missing or empty username becomes
      the part of the email before '@'; a supplied one is kept. */
  function SignUpUsername(given: Option<string>, email: string): (r: string)
    ensures given.Some? && given.value != "" ==> r == given.value
    ensures given.None? || given.value == "" ==> r == UsernameFromEmail(email)
  {
    if given.Some? && given.value != "" then given.value else UsernameFromEmail(email)
  }

  /** The user created by `create_user` through the sign-up serializer. */
  function CreateUser(id: nat, email: string, username: Option<string>, role: Option<Role>): (u: User)
    ensures u.id == id && u.email == email && u.username == SignUpUsername(username, email)
    ensures role.None? ==> u.role == DefaultRole
    ensures role.Some? ==> u.role == role.value
  {
    User(id, email, SignUpUsername(username, email), if role.Some? then role.value else DefaultRole)
  }

  /** The sign-up serializer's fields. */
  const CreateFields: seq<string> := ["id", "email", "username", "password", "role"]
  /** What the sign-up serializer receives: username and role may be left
      out (the password is not part of this model). */
  datatype SignUpInput = SignUpInput(email: string, username: Option<string>, role: Option<Role>)

  /** The sign-up response: the create fields except the write-only
      password. */
  function SignUpJson(u: User): (j: Json)
    ensures j.JObj? && Keys(j.fields) == ["id", "email", "username", "role"]
    ensures forall k :: k in Keys(j.fields) <==> k in CreateFields && k != "password"
  {
    JObj([("id", JInt(u.id)), ("email", JStr(u.email)), ("username", JStr(u.username)),
          ("role", JStr(RoleCode(u.role)))])
  }

  /** What the read serializer writes on update. The email is the login
      field, which the serializer this one extends keeps read-only. */
  datatype UserInput = UserInput(username: string, role: Role)

  function ApplyUserInput(u: User, input: UserInput): User
  {
    u.(username := input.username, role := input.role)
  }

  /** The read serializer's fields. */
  const ReadFields: seq<string> := ["id", "email", "username", "role", "role_display"]

  /** `CustomUserSerializer(user).data`. */
  function UserJson(u: User): (j: Json)
    ensures j.JObj? && Keys(j.fields) == ReadFields
    ensures "password" !in Keys(j.fields)
    ensures j.fields[3].1 == JStr(RoleCode(u.role)) && j.fields[4].1 == JStr(RoleLabel(u.role))
  {
    JObj([("id", JInt(u.id)), ("email", JStr(u.email)), ("username", JStr(u.username)),
          ("role", JStr(RoleCode(u.role))), ("role_display", JStr(RoleLabel(u.role)))])
  }

  /** The read serializer is injective: different users read differently. */
  lemma UserJsonInjective(a: User, b: User)
    requires UserJson(a) == UserJson(b)
    ensures a == b
  {
    assert JStr(RoleCode(a.role)) == JStr(RoleCode(b.role));
    RoleCodeRoundTrip(a.role, "");
    RoleCodeRoundTrip(b.role, "");
  }

  /** The string form of a user is its login identifier, the email. */
  function UserStr(u: User): string
  {
    u.email
  }
}

=== FILE: views.dfy ===
/** The request handlers of the API, as methods of one `Backend` object
    that holds the database, the cache and the outbox of mail tasks handed
    to the queue. Each handler receives the authenticated actor and the
    request's arguments, and states the response it returns and the new
    database, cache and outbox. A serializer's own field validation arrives
    as a `Checked` verdict; what the serializer checks against the database
    (unique email, existing references, the grade width) is checked here. */
module Views {
  import opened Common
  import opened Tables
  import opened Users
  import opened Students
  import opened Courses
  import opened Attendances
  import opened Grades
  import opened Notifications
  import opened Analytics
  import opened AnalyticsQuery
  import opened Mail
  import opened Cache
  import opened Http
  import opened Database
  import opened Policy

  /** `student.user.email` for a user id; empty if the user is missing. */
  function UserEmailOf(s: Store, userId: nat): string
  {
    match UserById(s, userId)
    case Some(u) => u.email
    case None => ""
  }

  /** `row.student.user.email` for a student profile id. */
  function ProfileEmail(s: Store, studentId: nat): string
  {
    match ProfileById(s, studentId)
    case Some(p) => UserEmailOf(s, p.userId)
    case None => ""
  }

  /** `row.course.name` for a course id. */
  function CourseName(s: Store, courseId: nat): string
  {
    match CourseById(s, courseId)
    case Some(c) => c.name
    case None => ""
  }

  /** The mail an attendance row queues: one absence notice when the
      student was marked absent, none when present. */
  function AbsenceNotices(s: Store, a: Attendance): (r: seq<MailTask>)
    ensures |r| == (if a.status then 0 else 1)
    ensures !a.status ==> r[0].AbsenceTask? && TaskRecipients(r[0]) == [ProfileEmail(s, a.studentId)]
    ensures !a.status ==> r[0].courseName == CourseName(s, a.courseId)
  {
    if a.status then [] else [AbsenceTask(ProfileEmail(s, a.studentId), CourseName(s, a.courseId))]
  }

  /** In a valid store the absence notice of a stored row goes to the email
      of the row's own student's user and names the row's own course. */
  lemma AbsenceNoticeReachesStudent(s: Store, a: Attendance)
    requires Valid(s) && a in s.attendance && !a.status
    ensures exists p, u, c :: && p in s.students && p.id == a.studentId
                              && u in s.users && u.id == p.userId
                              && c in s.courses && c.id == a.courseId
                              && AbsenceNotices(s, a) == [AbsenceTask(u.email, c.name)]
  {
    assert AttendanceRefs(s, a);
    var p :| p in s.students && p.id == a.studentId;
    LookupUnique(s.students, ProfileId, p);
    assert ProfileRefs(s, p);
    var u :| u in s.users && u.id == p.userId;
    LookupUnique(s.users, UserId, u);
    var c :| c in s.courses && c.id == a.courseId;
    LookupUnique(s.courses, CourseId, c);
    assert AbsenceNotices(s, a) == [AbsenceTask(u.email, c.name)];
  }

  /** `[student.user.email for student in Student.objects.all()]`. */
  function AllStudentEmails(s: Store): (r: seq<string>)
    ensures |r| == |s.students|
    ensures forall i :: 0 <= i < |r| ==> r[i] == UserEmailOf(s, s.students[i].userId)
  {
    seq(|s.students|, i requires 0 <= i < |s.students| => UserEmailOf(s, s.students[i].userId))
  }

  /** Users with different ids have different emails. */
  lemma UserEmailsDistinct(s: Store, a: nat, b: nat)
    requires Unique(s.users, UserId) && Unique(s.users, UserEmail)
    requires a in Column(s.users, UserId) && b in Column(s.users, UserId) && a != b
    ensures UserEmailOf(s, a) != UserEmailOf(s, b)
  {
    var u, v := UserById(s, a).value, UserById(s, b).value;
    var k :| 0 <= k < |s.users| && s.users[k] == u;
    var l :| 0 <= l < |s.users| && s.users[l] == v;
    assert UserEmail(s.users[k]) != UserEmail(s.users[l]);
  }

  /** The new-course task reaches every student once: each profile's user
      email is listed, and no address appears twice. */
  lemma AllStudentEmailsCoverEachStudentOnce(s: Store)
    requires Valid(s)
    ensures forall p :: p in s.students ==>
              exists u :: u in s.users && u.id == p.userId && u.email in AllStudentEmails(s)
    ensures forall i, j :: 0 <= i < j < |s.students| ==> AllStudentEmails(s)[i] != AllStudentEmails(s)[j]
  {
    var r := AllStudentEmails(s);
    forall p | p in s.students
      ensures exists u :: u in s.users && u.id == p.userId && u.email in r
    {
      var i :| 0 <= i < |s.students| && s.students[i] == p;
      assert ProfileRefs(s, p);
      assert r[i] == UserById(s, p.userId).value.email;
    }
    forall i, j | 0 <= i < j < |s.students| ensures r[i] != r[j] {
      assert ProfileUser(s.students[i]) != ProfileUser(s.students[j]);
      assert ProfileRefs(s, s.students[i]) && ProfileRefs(s, s.students[j]);
      UserEmailsDistinct(s, s.students[i].userId, s.students[j].userId);
    }
  }

  /** A profile with its user nested, as the student serializer writes it. */
  function StudentDoc(s: Store, p: StudentProfile): Json
  {
    match UserById(s, p.userId)
    case Some(u) => ProfileJson(p, u)
    case None => JNull
  }

  /** An attendance row with its student and course nested. */
  function AttendanceDoc(s: Store, a: Attendance): Json
  {
    var student := match ProfileById(s, a.studentId) case Some(p) => StudentDoc(s, p) case None => JNull;
    var course := match CourseById(s, a.courseId) case Some(c) => CourseJson(c) case None => JNull;
    AttendanceJson(a, student, course)
  }

  function UsersJson(users: seq<User>): Json { JsonList(users, UserJson) }
  function StudentsJson(s: Store, ps: seq<StudentProfile>): Json { JsonList(ps, (p: StudentProfile) => StudentDoc(s, p)) }
  function CoursesJson(cs: seq<Course>): Json { JsonList(cs, CourseJson) }
  function AttendanceListJson(s: Store, rows: seq<Attendance>): Json { JsonList(rows, (a: Attendance) => AttendanceDoc(s, a)) }
  function GradesJson(gs: seq<Grade>): Json { JsonList(gs, GradeJson) }
  function NotificationsJson(ns: seq<Notification>): Json { JsonList(ns, NotificationJson) }

  /** `{field: [message]}`, the shape of a serializer's field error. */
  function FieldError(field: string, message: string): (string, Json)
  {
    (field, JList([JStr(message)]))
  }

  function InvalidPk(pk: nat): string
  {
    "Invalid pk \"" + Decimal(pk) + "\" - object does not exist."
  }

  const EmailTaken: string := "user with this email already exists."
  const GradeTooLong: string := "Ensure this field has no more than 2 characters."

  /** The field errors for references to rows that do not exist. */
  function MissingRefErrors(s: Store, studentId: nat, courseId: nat): seq<(string, Json)>
  {
    (if studentId in Column(s.students, ProfileId) then [] else [FieldError("student", InvalidPk(studentId))])
    + (if courseId in Column(s.courses, CourseId) then [] else [FieldError("course", InvalidPk(courseId))])
  }

  /** `is_valid()` of the attendance serializer: the field checks already
      made, then the primary-key fields must name existing rows. Accepted
      data is what the database can store. */
  function ValidateAttendance(s: Store, input: Checked<AttendanceInput>): (r: Checked<AttendanceInput>)
    ensures r.Accepted? <==> input.Accepted? && AttendanceInputRefs(s, input.data)
    ensures r.Accepted? ==> r == input
    ensures input.Rejected? ==> r == input
    ensures r.Rejected? ==> Truthy(r.errors) || r == input
  {
    match input
    case Rejected(_) => input
    case Accepted(data) =>
      if AttendanceInputRefs(s, data) then input
      else Rejected(JObj(MissingRefErrors(s, data.studentId, data.courseId)))
  }

  /** The verdict on a PATCH body, read as the full input a serializer with
      `partial=True` validates for the stored row: the body's fields, and the
      row's own values for the fields it leaves out. */
  function AttendancePatchInput(a: Attendance, patch: Checked<AttendancePatchBody>): (r: Checked<AttendanceInput>)
    ensures r.Accepted? <==> patch.Accepted?
    ensures patch.Accepted? ==> r.data == PatchedAttendanceInput(a, patch.data)
    ensures patch.Rejected? ==> r.errors == patch.errors
  {
    match patch
    case Accepted(p) => Accepted(PatchedAttendanceInput(a, p))
    case Rejected(errors) => Rejected(errors)
  }

  function CoursePatchInput(c: Course, patch: Checked<CoursePatchBody>): (r: Checked<CourseInput>)
    ensures r.Accepted? <==> patch.Accepted?
    ensures patch.Accepted? ==> r.data == PatchedCourseInput(c, patch.data)
    ensures patch.Rejected? ==> r.errors == patch.errors
  {
    match patch
    case Accepted(p) => Accepted(PatchedCourseInput(c, p))
    case Rejected(errors) => Rejected(errors)
  }

  function GradePatchInput(g: Grade, patch: Checked<GradePatchBody>): (r: Checked<GradeInput>)
    ensures r.Accepted? <==> patch.Accepted?
    ensures patch.Accepted? ==> r.data == PatchedGradeInput(g, patch.data)
    ensures patch.Rejected? ==> r.errors == patch.errors
  {
    match patch
    case Accepted(p) => Accepted(PatchedGradeInput(g, p))
    case Rejected(errors) => Rejected(errors)
  }

  /** Both primary keys of an enrollment name existing rows. */
  predicate EnrollmentInputRefs(s: Store, input: EnrollmentInput)
  {
    input.studentId in Column(s.students, ProfileId) && input.courseId in Column(s.courses, CourseId)
  }

  /** `is_valid()` of the enrollment serializer: the field checks already
      made, then the primary-key fields must name existing rows. */
  function ValidateEnrollment(s: Store, input: Checked<EnrollmentInput>): (r: Checked<EnrollmentInput>)
    ensures r.Accepted? <==> input.Accepted? && EnrollmentInputRefs(s, input.data)
    ensures r.Accepted? ==> r == input
    ensures input.Rejected? ==> r == input
    ensures r.Rejected? ==> Truthy(r.errors) || r == input
  {
    match input
    case Rejected(_) => input
    case Accepted(data) =>
      if EnrollmentInputRefs(s, data) then input
      else Rejected(JObj(MissingRefErrors(s, data.studentId, data.courseId)))
  }

  /** `is_valid()` of the grade serializer: the field checks already made,
      then existing student and course rows and a grade of at most two
      characters. Accepted data is what the database can store. */
  function ValidateGrade(s: Store, input: Checked<GradeInput>): (r: Checked<GradeInput>)
    ensures r.Accepted? <==> input.Accepted? && GradeInputFits(s, input.data)
    ensures r.Accepted? ==> r == input
    ensures input.Rejected? ==> r == input
    ensures r.Rejected? ==> Truthy(r.errors) || r == input
  {
    match input
    case Rejected(_) => input
    case Accepted(data) =>
      if GradeInputFits(s, data) then input
      else Rejected(JObj(MissingRefErrors(s, data.studentId, data.courseId)
                         + (if GradeCodeFits(data.grade) then [] else [FieldError("grade", GradeTooLong)])))
  }

  /** `is_valid()` of the sign-up serializer: the field checks already
      made, then the email must not belong to a user yet. */
  function ValidateSignUp(s: Store, input: Checked<SignUpInput>): (r: Checked<SignUpInput>)
    ensures r.Accepted? <==> input.Accepted? && EmailFree(s, input.data.email)
    ensures r.Accepted? ==> r == input
    ensures input.Rejected? ==> r == input
    ensures r.Rejected? ==> Truthy(r.errors) || r == input
  {
    match input
    case Rejected(_) => input
    case Accepted(data) =>
      if EmailFree(s, data.email) then input else Rejected(JObj([FieldError("email", EmailTaken)]))
  }

  const OnlyTeachersCreateCourses: string := "Only teachers can create courses."
  const OnlyTeachersUpdateCourses: string := "Only teachers can update courses."
  const OnlyOwnCourses: string := "You can only modify your own courses."
  const OnlyStudentsEnroll: string := "Only students can enroll in courses."
  const OnlyTeachersAddAttendance: string := "Only teachers can add attendance records."
  const OnlyTeachersUpdateAttendance: string := "Only teachers can update attendance records."
  const OnlyTeachersDeleteAttendance: string := "Only teachers can delete attendance records."
  const OnlyTeachersAddGrades: string := "Only teachers can add grades"
  const OnlyTeachersUpdateGrades: string := "Only teachers can update grades"
  /** DRF's body when `get_object` finds no row. */
  const NoSuchObject: string := "Not found."
  const NotificationsFailed: string := "An error occurred while fetching notifications"


  class Backend {
    var store: Store
    var cache: CacheStore
    var outbox: seq<MailTask>

    ghost predicate Valid()
      reads this
    {
      Database.Valid(store)
    }

    /** Everything a handler may change. */
    function State(): (Store, CacheStore, seq<MailTask>)
      reads this
    {
      (store, cache, outbox)
    }

    /** An empty database, an empty cache, nothing queued. */
    constructor()
      ensures Valid() && State() == (Empty, map[], [])
    {
      store, cache, outbox := Empty, map[], [];
      EmptyValid();
    }

    /** Where a handler's writes land: the database, the cache and the
        outbox are replaced together, and the database stays consistent. */
    method Commit(s: Store, c: CacheStore, o: seq<MailTask>)
      requires Database.Valid(s)
      modifies this
      ensures Valid() && State() == (s, c, o)
    {
      store, cache, outbox := s, c, o;
    }

    /** Sign-up through the create serializer: the email must be free; the
        username defaults to the email's local part, the role to student. */
    method SignUp(input: Checked<SignUpInput>) returns (resp: Response)
      requires Valid()
      modifies this
      ensures Valid() && cache == old(cache) && outbox == old(outbox)
      ensures match ValidateSignUp(old(store), input)
              case Rejected(errors) => resp == Response(400, errors) && store == old(store)
              case Accepted(data) =>
                && store == AddUser(old(store), data)
                && resp == Response(201, SignUpJson(CreateUser(old(store).nextId, data.email, data.username, data.role)))
    {
      var checked := ValidateSignUp(store, input);
      if checked.Rejected? {
        resp := Response(400, checked.errors);
      } else {
        var data := checked.data;
        var u := CreateUser(store.nextId, data.email, data.username, data.role);
        Commit(AddUser(store, data), cache, outbox);
        resp := Response(201, SignUpJson(u));
      }
    }

    /** `UserListView.list`: the cached list serves admins only; anyone else
        gets their role's view of the users, which is never cached. */
    method UserList(actor: User) returns (resp: Response)
      requires Valid()
      modifies this
      ensures Valid() && store == old(store) && outbox == old(outbox) && resp.status == 200
      ensures actor.role == Admin ==>
                (resp.body, cache) == ReadThrough(old(cache), UserListKey, UsersJson(store.users))
      ensures actor.role != Admin ==>
                resp.body == UsersJson(VisibleUsers(actor, store.users)) && cache == old(cache)
    {
      var body := UsersJson(VisibleUsers(actor, store.users));
      if actor.role == Admin {
        var read := ReadThrough(cache, UserListKey, body);
        Commit(store, read.1, outbox);
        resp := Response(200, read.0);
      } else {
        resp := Response(200, body);
      }
    }

    /** `UserDetailView.retrieve`: a cached user is served as it is; on a
        miss an unknown id is a 404 and a known one is cached. */
    method RetrieveUser(pk: nat) returns (resp: Response)
      requires Valid()
      modifies this
      ensures Valid() && store == old(store) && outbox == old(outbox)
      ensures Hit(old(cache), UserKey(pk)) ==>
                resp == Response(200, old(cache)[UserKey(pk)]) && cache == old(cache)
      ensures !Hit(old(cache), UserKey(pk)) ==>
                match UserById(store, pk)
                case None => resp == NotFound("User not found") && cache == old(cache)
                case Some(u) => resp == Response(200, UserJson(u)) && cache == old(cache)[UserKey(pk) := resp.body]
    {
      var found := UserById(store, pk);
      if Hit(cache, UserKey(pk)) {
        resp := Response(200, cache[UserKey(pk)]);
      } else if found.None? {
        resp := NotFound("User not found");
      } else {
        resp := Response(200, UserJson(found.value));
        Commit(store, cache[UserKey(pk) := resp.body], outbox);
      }
    }

    /** `UserDetailView.update`, reached by PUT or, when `partial`, by PATCH
        (DRF's `partial_update` calls the same handler, and the handler builds
        a full, non-partial serializer either way). `build` selects the
        permission check: as written, PATCH needs no admin role; corrected,
        every write does. The new document replaces `user_{pk}`; the user
        list stays cached. */
    method UpdateUser(actor: User, build: Build, partial: bool, pk: nat, input: Checked<UserInput>) returns (resp: Response)
      requires Valid()
      modifies this
      ensures Valid() && outbox == old(outbox)
      ensures resp.status == 200 ==> UserWriteAdmitted(build, actor, if partial then PATCH else PUT)
      ensures build == Corrected && resp.status == 200 ==> actor.role == Admin
      ensures !UserWriteAdmitted(build, actor, if partial then PATCH else PUT) ==>
                resp == Forbidden(NoPermission) && State() == old(State())
      ensures UserWriteAdmitted(build, actor, if partial then PATCH else PUT) ==>
                match UserById(old(store), pk)
                case None => resp == NotFound("User not found") && State() == old(State())
                case Some(u) =>
                  match input
                  case Rejected(errors) => resp == Response(400, errors) && State() == old(State())
                  case Accepted(data) =>
                    && store == SaveUser(old(store), u, data)
                    && cache == old(cache)[UserKey(pk) := UserJson(ApplyUserInput(u, data))]
                    && resp == Response(200, UserJson(ApplyUserInput(u, data)))
      ensures build == AsWritten && partial && UserById(old(store), pk).Some? && input.Accepted? ==>
                resp.status == 200 && store == SaveUser(old(store), UserById(old(store), pk).value, input.data)
    {
      var m := if partial then PATCH else PUT;
      var found := UserById(store, pk);
      if !UserWriteAdmitted(build, actor, m) {
        resp := Forbidden(NoPermission);
      } else if found.None? {
        resp := NotFound("User not found");
      } else if input.Rejected? {
        resp := Response(400, input.errors);
      } else {
        var doc := UserJson(ApplyUserInput(found.value, input.data));
        Commit(SaveUser(store, found.value, input.data), cache[UserKey(pk) := doc], outbox);
        resp := Response(200, doc);
      }
    }

    /** `UserDetailView.destroy`: admin only; the user goes with everything
        that cascades, and both `user_{pk}` and `user_list` leave the cache. */
    method DestroyUser(actor: User, pk: nat) returns (resp: Response)
      requires Valid()
      modifies this
      ensures Valid() && outbox == old(outbox)
      ensures actor.role != Admin ==> resp == Forbidden(NoPermission) && State() == old(State())
      ensures actor.role == Admin && UserById(old(store), pk).None? ==>
                resp == NotFound("User not found") && State() == old(State())
      ensures actor.role == Admin && UserById(old(store), pk).Some? ==>
                && resp == Response(204, MessageBody("User deleted successfully"))
                && store == DeleteUser(old(store), pk)
                && pk !in Column(store.users, UserId)
                && cache == old(cache) - {UserKey(pk), UserListKey}
    {
      UserWritesNeedAdmin(actor, DELETE);
      if !UserDetailPermitsAsWritten(actor, DELETE) {
        resp := Forbidden(NoPermission);
      } else if UserById(store, pk).None? {
        resp := NotFound("User not found");
      } else {
        Commit(DeleteUser(store, pk), cache - {UserKey(pk), UserListKey}, outbox);
        resp := Response(204, MessageBody("User deleted successfully"));
      }
    }

    /** `StudentListView.get`: admins and teachers only; the cached list
        serves admins only, and only admins' lists are cached. */
    method StudentList(actor: User) returns (resp: Response)
      requires Valid()
      modifies this
      ensures Valid() && store == old(store) && outbox == old(outbox)
      ensures !IsAdminOrTeacher(actor) ==> resp == Forbidden(NoPermission) && cache == old(cache)
      ensures actor.role == Admin ==>
                resp.status == 200
                && (resp.body, cache) == ReadThrough(old(cache), StudentListKey, StudentsJson(store, store.students))
      ensures actor.role == Teacher ==>
                resp == Response(200, StudentsJson(store, VisibleStudents(actor, store))) && cache == old(cache)
    {
      var body := StudentsJson(store, VisibleStudents(actor, store));
      if !IsAdminOrTeacher(actor) {
        resp := Forbidden(NoPermission);
      } else if actor.role == Admin {
        var read := ReadThrough(cache, StudentListKey, body);
        Commit(store, read.1, outbox);
        resp := Response(200, read.0);
      } else {
        resp := Response(200, body);
      }
    }

    /** `StudentDetailView.put`: admins and teachers only; a saved profile
        queues exactly one profile-update mail to the student's own address
        and replaces `student_{pk}`. */
    method UpdateStudent(actor: User, pk: nat, input: Checked<ProfileInput>) returns (resp: Response)
      requires Valid()
      modifies this
      ensures Valid()
      ensures !IsAdminOrTeacher(actor) ==> resp == Forbidden(NoPermission) && State() == old(State())
      ensures IsAdminOrTeacher(actor) ==>
                match ProfileById(old(store), pk)
                case None => resp == NotFound("Student not found") && State() == old(State())
                case Some(p) =>
                  match input
                  case Rejected(errors) => resp == Response(400, errors) && State() == old(State())
                  case Accepted(data) =>
                    && store == SaveProfile(old(store), p, data)
                    && outbox == old(outbox) + [ProfileUpdateTask(UserEmailOf(old(store), p.userId))]
                    && cache == old(cache)[StudentKey(pk) := StudentDoc(store, UpdateProfile(p, data))]
                    && resp == Response(200, StudentDoc(store, UpdateProfile(p, data)))
    {
      var found := ProfileById(store, pk);
      if !IsAdminOrTeacher(actor) {
        resp := Forbidden(NoPermission);
      } else if found.None? {
        resp := NotFound("Student not found");
      } else if input.Rejected? {
        resp := Response(400, input.errors);
      } else {
        var p := found.value;
        var saved := SaveProfile(store, p, input.data);
        var doc := StudentDoc(saved, UpdateProfile(p, input.data));
        Commit(saved, cache[StudentKey(pk) := doc], outbox + [ProfileUpdateTask(UserEmailOf(store, p.userId))]);
        resp := Response(200, doc);
      }
    }

    /** `CourseListView.get`: cache-aside on `course_list` over the active
        courses, for every actor. */
    method CourseList() returns (resp: Response)
      requires Valid()
      modifies this
      ensures Valid() && store == old(store) && outbox == old(outbox) && resp.status == 200
      ensures (resp.body, cache) == ReadThrough(old(cache), CourseListKey, CoursesJson(ActiveCourses(store.courses)))
    {
      var read := ReadThrough(cache, CourseListKey, CoursesJson(ActiveCourses(store.courses)));
      Commit(store, read.1, outbox);
      resp := Response(200, read.0);
    }

    /** `CourseListView.post`: teachers only; the course's instructor is the
        actor, one task carrying every student's email is queued, and the
        course list cache is left as it was. */
    method CreateCourse(actor: User, input: Checked<CourseInput>) returns (resp: Response)
      requires Valid()
      modifies this
      ensures Valid() && cache == old(cache)
      ensures actor.role != Teacher ==> resp == Forbidden(OnlyTeachersCreateCourses) && State() == old(State())
      ensures actor.role == Teacher ==>
                match input
                case Rejected(errors) => resp == Response(400, errors) && State() == old(State())
                case Accepted(data) =>
                  var c := NewCourse(old(store).nextId, data, actor.id);
                  && store == AddCourse(old(store), data, actor.id)
                  && outbox == old(outbox) + [NewCourseTask(c.name, AllStudentEmails(old(store)))]
                  && resp == Response(201, CourseJson(c))
    {
      if actor.role != Teacher {
        resp := Forbidden(OnlyTeachersCreateCourses);
      } else if input.Rejected? {
        resp := Response(400, input.errors);
      } else {
        var c := NewCourse(store.nextId, input.data, actor.id);
        Commit(AddCourse(store, input.data, actor.id), cache, outbox + [NewCourseTask(c.name, AllStudentEmails(store))]);
        resp := Response(201, CourseJson(c));
      }
    }

    /** `CourseDetailView.put`: teachers only, and only the course's own
        instructor; the new document replaces `course_{pk}`. */
    method UpdateCourse(actor: User, pk: nat, input: Checked<CourseInput>) returns (resp: Response)
      requires Valid()
      modifies this
      ensures Valid() && outbox == old(outbox)
      ensures resp.status == 200 ==> exists c :: c in old(store).courses && c.id == pk && c.instructor == actor.id
      ensures actor.role != Teacher ==> resp == Forbidden(OnlyTeachersUpdateCourses) && State() == old(State())
      ensures actor.role == Teacher ==>
                match CourseById(old(store), pk)
                case None => resp == NotFound("Course not found") && State() == old(State())
                case Some(c) =>
                  if c.instructor != actor.id then resp == Forbidden(OnlyOwnCourses) && State() == old(State())
                  else match input
                    case Rejected(errors) => resp == Response(400, errors) && State() == old(State())
                    case Accepted(data) =>
                      && store == SaveCourse(old(store), c, data)
                      && cache == old(cache)[CourseKey(pk) := CourseJson(Courses.UpdateCourse(c, data))]
                      && resp == Response(200, CourseJson(Courses.UpdateCourse(c, data)))
    {
      var found := CourseById(store, pk);
      if actor.role != Teacher {
        resp := Forbidden(OnlyTeachersUpdateCourses);
      } else if found.None? {
        resp := NotFound("Course not found");
      } else if found.value.instructor != actor.id {
        resp := Forbidden(OnlyOwnCourses);
      } else if input.Rejected? {
        resp := Response(400, input.errors);
      } else {
        var doc := CourseJson(Courses.UpdateCourse(found.value, input.data));
        Commit(SaveCourse(store, found.value, input.data), cache[CourseKey(pk) := doc], outbox);
        resp := Response(200, doc);
      }
    }

    /** `CourseDetailView` PATCH, which the view does not override: DRF's
        `partial_update` finds the course and saves the patched fields, with
        neither the teacher check nor the instructor check `put` makes, and
        leaves the cache alone. With `Corrected` it makes `put`'s two checks
        first. */
    method PatchCourse(actor: User, build: Build, pk: nat, patch: Checked<CoursePatchBody>) returns (resp: Response)
      requires Valid()
      modifies this
      ensures Valid() && cache == old(cache) && outbox == old(outbox)
      ensures build == Corrected && resp.status == 200 ==>
                actor.role == Teacher && exists c :: c in old(store).courses && c.id == pk && c.instructor == actor.id
      ensures build == Corrected && actor.role != Teacher ==>
                resp == Forbidden(OnlyTeachersUpdateCourses) && State() == old(State())
      ensures build == AsWritten || actor.role == Teacher ==>
                match CourseById(old(store), pk)
                case None => resp == Response(404, Detail(NoSuchObject)) && State() == old(State())
                case Some(c) =>
                  if build == Corrected && c.instructor != actor.id then
                    resp == Forbidden(OnlyOwnCourses) && State() == old(State())
                  else match CoursePatchInput(c, patch)
                    case Rejected(errors) => resp == Response(400, errors) && State() == old(State())
                    case Accepted(data) =>
                      && store == SaveCourse(old(store), c, data)
                      && resp == Response(200, CourseJson(Courses.UpdateCourse(c, data)))
    {
      var found := CourseById(store, pk);
      if build == Corrected && actor.role != Teacher {
        resp := Forbidden(OnlyTeachersUpdateCourses);
      } else if found.None? {
        resp := Response(404, Detail(NoSuchObject));
      } else if build == Corrected && found.value.instructor != actor.id {
        resp := Forbidden(OnlyOwnCourses);
      } else if patch.Rejected? {
        resp := Response(400, patch.errors);
      } else {
        var data := PatchedCourseInput(found.value, patch.data);
        Commit(SaveCourse(store, found.value, data), cache, outbox);
        resp := Response(200, CourseJson(Courses.UpdateCourse(found.value, data)));
      }
    }

    /** `CourseDetailView` DELETE, which the view does not override: DRF's
        `destroy` deletes any existing course for any logged-in caller; its
        attendance rows and grades go with it. With `Corrected` it makes
        `put`'s two checks first. */
    method DestroyCourse(actor: User, build: Build, pk: nat) returns (resp: Response)
      requires Valid()
      modifies this
      ensures Valid() && cache == old(cache) && outbox == old(outbox)
      ensures build == Corrected && resp.status == 204 ==>
                actor.role == Teacher && exists c :: c in old(store).courses && c.id == pk && c.instructor == actor.id
      ensures build == Corrected && actor.role != Teacher ==>
                resp == Forbidden(OnlyTeachersUpdateCourses) && State() == old(State())
      ensures build == AsWritten || actor.role == Teacher ==>
                match CourseById(old(store), pk)
                case None => resp == Response(404, Detail(NoSuchObject)) && State() == old(State())
                case Some(c) =>
                  if build == Corrected && c.instructor != actor.id then
                    resp == Forbidden(OnlyOwnCourses) && State() == old(State())
                  else resp == Response(204, JNull) && store == DeleteCourse(old(store), pk)
    {
      var found := CourseById(store, pk);
      if build == Corrected && actor.role != Teacher {
        resp := Forbidden(OnlyTeachersUpdateCourses);
      } else if found.None? {
        resp := Response(404, Detail(NoSuchObject));
      } else if build == Corrected && found.value.instructor != actor.id {
        resp := Forbidden(OnlyOwnCourses);
      } else {
        Commit(DeleteCourse(store, pk), cache, outbox);
        resp := Response(204, JNull);
      }
    }

    /** `EnrollmentListView.post`: students only. */
    method Enroll(actor: User, input: Checked<EnrollmentInput>) returns (resp: Response)
      requires Valid()
      modifies this
      ensures Valid() && cache == old(cache) && outbox == old(outbox)
      ensures actor.role != Student ==> resp == Forbidden(OnlyStudentsEnroll) && State() == old(State())
      ensures actor.role == Student ==>
                match ValidateEnrollment(old(store), input)
                case Rejected(errors) => resp == Response(400, errors) && State() == old(State())
                case Accepted(data) =>
                  && store == AddEnrollment(old(store), data)
                  && resp == Response(201, EnrollmentJson(Enrollment(old(store).nextId, data.studentId, data.courseId)))
      ensures resp.status == 201 ==> actor.role == Student && input.Accepted? && EnrollmentInputRefs(old(store), input.data)
    {
      var checked := ValidateEnrollment(store, input);
      if actor.role != Student {
        resp := Forbidden(OnlyStudentsEnroll);
      } else if checked.Rejected? {
        resp := Response(400, checked.errors);
      } else {
        var e := Enrollment(store.nextId, checked.data.studentId, checked.data.courseId);
        Commit(AddEnrollment(store, checked.data), cache, outbox);
        resp := Response(201, EnrollmentJson(e));
      }
    }

    /** `AttendanceListView.get`: cache-aside on the actor's own key. The
        role check runs only on a miss, so an admin is refused there, and
        nothing is cached for them. */
    method AttendanceList(actor: User) returns (resp: Response)
      requires Valid()
      modifies this
      ensures Valid() && store == old(store) && outbox == old(outbox)
      ensures Hit(old(cache), AttendanceListKey(actor.id)) ==>
                resp == Response(200, old(cache)[AttendanceListKey(actor.id)]) && cache == old(cache)
      ensures !Hit(old(cache), AttendanceListKey(actor.id)) && actor.role == Admin ==>
                resp == Forbidden(AttendanceListDenied) && cache == old(cache)
      ensures actor.role != Admin ==>
                resp.status == 200
                && (resp.body, cache) == ReadThrough(old(cache), AttendanceListKey(actor.id),
                                                     AttendanceListJson(store, VisibleAttendance(actor, store).value))
    {
      var rows := VisibleAttendance(actor, store);
      if Hit(cache, AttendanceListKey(actor.id)) {
        resp := Response(200, cache[AttendanceListKey(actor.id)]);
      } else if rows.None? {
        resp := Forbidden(AttendanceListDenied);
      } else {
        var body := AttendanceListJson(store, rows.value);
        Commit(store, cache[AttendanceListKey(actor.id) := body], outbox);
        resp := Response(200, body);
      }
    }

    /** `AttendanceCreateView.post`: teachers only (of any course); a row
        marked absent queues exactly one absence mail to the student, a row
        marked present none. No list cache is touched. */
    method CreateAttendance(actor: User, input: Checked<AttendanceInput>, today: string) returns (resp: Response)
      requires Valid()
      modifies this
      ensures Valid() && cache == old(cache)
      ensures actor.role != Teacher ==> resp == Forbidden(OnlyTeachersAddAttendance) && State() == old(State())
      ensures actor.role == Teacher ==>
                match ValidateAttendance(old(store), input)
                case Rejected(errors) => resp == Response(400, errors) && State() == old(State())
                case Accepted(data) =>
                  var a := NewAttendance(old(store).nextId, data, today);
                  && store == AddAttendance(old(store), data, today)
                  && outbox == old(outbox) + AbsenceNotices(old(store), a)
                  && resp == Response(201, AttendanceDoc(store, a))
    {
      var checked := ValidateAttendance(store, input);
      if actor.role != Teacher {
        resp := Forbidden(OnlyTeachersAddAttendance);
      } else if checked.Rejected? {
        resp := Response(400, checked.errors);
      } else {
        var a := NewAttendance(store.nextId, checked.data, today);
        var saved := AddAttendance(store, checked.data, today);
        Commit(saved, cache, outbox + AbsenceNotices(store, a));
        resp := Response(201, AttendanceDoc(saved, a));
      }
    }

    /** `AttendanceDetailView` GET: the row, subject to `get_object`'s
        ownership check; nothing changes. */
    method RetrieveAttendance(actor: User, pk: nat) returns (resp: Response)
      requires Valid()
      ensures match AttendanceById(store, pk)
              case None => resp == Response(404, Detail(NoSuchObject))
              case Some(a) =>
                match AttendanceDenial(actor, store, a)
                case Some(why) => resp == Forbidden(why)
                case None => resp == Response(200, AttendanceDoc(store, a))
    {
      var found := AttendanceById(store, pk);
      if found.None? {
        resp := Response(404, Detail(NoSuchObject));
      } else if AttendanceDenial(actor, store, found.value).Some? {
        resp := Forbidden(AttendanceDenial(actor, store, found.value).value);
      } else {
        resp := Response(200, AttendanceDoc(store, found.value));
      }
    }

    /** `AttendanceDetailView.put`: teachers only, then `get_object` (the
        teacher must instruct the row's course), then validation. The date
        stays; no mail is queued and no cache entry changes. */
    method UpdateAttendance(actor: User, pk: nat, input: Checked<AttendanceInput>) returns (resp: Response)
      requires Valid()
      modifies this
      ensures Valid() && cache == old(cache) && outbox == old(outbox)
      ensures resp.status == 200 ==> exists a :: a in old(store).attendance && a.id == pk && TaughtBy(old(store), a, actor.id)
      ensures actor.role != Teacher ==> resp == Forbidden(OnlyTeachersUpdateAttendance) && State() == old(State())
      ensures actor.role == Teacher ==>
                match AttendanceById(old(store), pk)
                case None => resp == Response(404, Detail(NoSuchObject)) && State() == old(State())
                case Some(a) =>
                  if AttendanceDenial(actor, old(store), a).Some? then
                    resp == Forbidden(NotYourCourse) && State() == old(State())
                  else match ValidateAttendance(old(store), input)
                    case Rejected(errors) => resp == Response(400, errors) && State() == old(State())
                    case Accepted(data) =>
                      && store == SaveAttendance(old(store), a, data)
                      && resp == Response(200, AttendanceDoc(store, Attendances.UpdateAttendance(a, data)))
    {
      var found := AttendanceById(store, pk);
      var checked := ValidateAttendance(store, input);
      if actor.role != Teacher {
        resp := Forbidden(OnlyTeachersUpdateAttendance);
      } else if found.None? {
        resp := Response(404, Detail(NoSuchObject));
      } else if AttendanceDenial(actor, store, found.value).Some? {
        resp := Forbidden(AttendanceDenial(actor, store, found.value).value);
      } else if checked.Rejected? {
        resp := Response(400, checked.errors);
      } else {
        DetailAgreesWithList(actor, store, found.value);
        var saved := SaveAttendance(store, found.value, checked.data);
        Commit(saved, cache, outbox);
        resp := Response(200, AttendanceDoc(saved, Attendances.UpdateAttendance(found.value, checked.data)));
      }
    }

    /** `AttendanceDetailView.delete`: teachers only, and only rows of a
        course they instruct; no cache entry changes. */
    method DestroyAttendance(actor: User, pk: nat) returns (resp: Response)
      requires Valid()
      modifies this
      ensures Valid() && cache == old(cache) && outbox == old(outbox)
      ensures resp.status == 204 ==> exists a :: a in old(store).attendance && a.id == pk && TaughtBy(old(store), a, actor.id)
      ensures actor.role != Teacher ==> resp == Forbidden(OnlyTeachersDeleteAttendance) && State() == old(State())
      ensures actor.role == Teacher ==>
                match AttendanceById(old(store), pk)
                case None => resp == Response(404, Detail(NoSuchObject)) && State() == old(State())
                case Some(a) =>
                  if AttendanceDenial(actor, old(store), a).Some? then
                    resp == Forbidden(NotYourCourse) && State() == old(State())
                  else
                    resp == Response(204, JNull) && store == DeleteAttendance(old(store), pk)
    {
      var found := AttendanceById(store, pk);
      if actor.role != Teacher {
        resp := Forbidden(OnlyTeachersDeleteAttendance);
      } else if found.None? {
        resp := Response(404, Detail(NoSuchObject));
      } else if AttendanceDenial(actor, store, found.value).Some? {
        resp := Forbidden(AttendanceDenial(actor, store, found.value).value);
      } else {
        DetailAgreesWithList(actor, store, found.value);
        Commit(DeleteAttendance(store, pk), cache, outbox);
        resp := Response(204, JNull);
      }
    }

    /** `AttendanceDetailView` PATCH, which the view does not override: DRF's
        `partial_update` runs `get_object` and saves, without the teacher
        check `put` makes, so a student may change their own row. No mail
        is queued and no cache entry changes. With `Corrected` it makes
        `put`'s teacher check first. */
    method PatchAttendance(actor: User, build: Build, pk: nat, patch: Checked<AttendancePatchBody>) returns (resp: Response)
      requires Valid()
      modifies this
      ensures Valid() && cache == old(cache) && outbox == old(outbox)
      ensures resp.status == 200 ==>
                exists a :: a in old(store).attendance && a.id == pk && AttendanceDenial(actor, old(store), a).None?
      ensures build == Corrected && resp.status == 200 ==> actor.role == Teacher
      ensures build == Corrected && actor.role != Teacher ==>
                resp == Forbidden(OnlyTeachersUpdateAttendance) && State() == old(State())
      ensures build == AsWritten || actor.role == Teacher ==>
                match AttendanceById(old(store), pk)
                case None => resp == Response(404, Detail(NoSuchObject)) && State() == old(State())
                case Some(a) =>
                  match AttendanceDenial(actor, old(store), a)
                  case Some(why) => resp == Forbidden(why) && State() == old(State())
                  case None =>
                    match ValidateAttendance(old(store), AttendancePatchInput(a, patch))
                    case Rejected(errors) => resp == Response(400, errors) && State() == old(State())
                    case Accepted(data) =>
                      && store == SaveAttendance(old(store), a, data)
                      && resp == Response(200, AttendanceDoc(store, Attendances.UpdateAttendance(a, data)))
      ensures build == AsWritten && actor.role == Student && patch.Accepted?
              && patch.data.studentId.None? && patch.data.courseId.None?
              && (exists a :: a in old(store).attendance && a.id == pk && AttendedBy(old(store), a, actor.id)) ==>
                resp.status == 200
    {
      if build == AsWritten && actor.role == Student && patch.Accepted?
         && patch.data.studentId.None? && patch.data.courseId.None?
         && (exists a :: a in store.attendance && a.id == pk && AttendedBy(store, a, actor.id))
      {
        var a :| a in store.attendance && a.id == pk && AttendedBy(store, a, actor.id);
        LookupUnique(store.attendance, AttendanceId, a);
        DetailAgreesWithList(actor, store, a);
        assert AttendanceRefs(store, a);
      }
      var found := AttendanceById(store, pk);
      if build == Corrected && actor.role != Teacher {
        resp := Forbidden(OnlyTeachersUpdateAttendance);
      } else if found.None? {
        resp := Response(404, Detail(NoSuchObject));
      } else if AttendanceDenial(actor, store, found.value).Some? {
        resp := Forbidden(AttendanceDenial(actor, store, found.value).value);
      } else {
        var checked := ValidateAttendance(store, AttendancePatchInput(found.value, patch));
        if checked.Rejected? {
          resp := Response(400, checked.errors);
        } else {
          var saved := SaveAttendance(store, found.value, checked.data);
          Commit(saved, cache, outbox);
          resp := Response(200, AttendanceDoc(saved, Attendances.UpdateAttendance(found.value, checked.data)));
        }
      }
    }

    /** `GradeListView.get`: cache-aside on `grade_list` over every grade,
        for every actor. */
    method GradeList() returns (resp: Response)
      requires Valid()
      modifies this
      ensures Valid() && store == old(store) && outbox == old(outbox) && resp.status == 200
      ensures (resp.body, cache) == ReadThrough(old(cache), GradeListKey, GradesJson(store.grades))
    {
      var read := ReadThrough(cache, GradeListKey, GradesJson(store.grades));
      Commit(store, read.1, outbox);
      resp := Response(200, read.0);
    }

    /** `GradeListView.post`: teachers only, refused with an `error` body; the
        grade's teacher is the actor, exactly one new-grade mail is queued,
        and `grade_list` is left as it was. */
    method CreateGrade(actor: User, input: Checked<GradeInput>, today: string) returns (resp: Response)
      requires Valid()
      modifies this
      ensures Valid() && cache == old(cache)
      ensures actor.role != Teacher ==>
                resp == Response(403, ErrorBody(OnlyTeachersAddGrades)) && State() == old(State())
      ensures actor.role == Teacher ==>
                match ValidateGrade(old(store), input)
                case Rejected(errors) => resp == Response(400, errors) && State() == old(State())
                case Accepted(data) =>
                  var g := NewGrade(old(store).nextId, data, actor.id, today);
                  && store == AddGrade(old(store), data, actor.id, today)
                  && outbox == old(outbox) + [NewGradeTask(ProfileEmail(old(store), g.studentId),
                                                           CourseName(old(store), g.courseId), g.grade)]
                  && resp == Response(201, GradeJson(g))
    {
      var checked := ValidateGrade(store, input);
      if actor.role != Teacher {
        resp := Response(403, ErrorBody(OnlyTeachersAddGrades));
      } else if checked.Rejected? {
        resp := Response(400, checked.errors);
      } else {
        var g := NewGrade(store.nextId, checked.data, actor.id, today);
        var task := NewGradeTask(ProfileEmail(store, g.studentId), CourseName(store, g.courseId), g.grade);
        Commit(AddGrade(store, checked.data, actor.id, today), cache, outbox + [task]);
        resp := Response(201, GradeJson(g));
      }
    }

    /** `GradeDetailView.put`: teachers only, with no check that the teacher
        gave the grade or teaches the course; the new document replaces
        `grade_{pk}` and `grade_list` is left as it was. */
    method UpdateGrade(actor: User, pk: nat, input: Checked<GradeInput>) returns (resp: Response)
      requires Valid()
      modifies this
      ensures Valid() && outbox == old(outbox)
      ensures actor.role != Teacher ==>
                resp == Response(403, ErrorBody(OnlyTeachersUpdateGrades)) && State() == old(State())
      ensures actor.role == Teacher ==>
                match GradeById(old(store), pk)
                case None => resp == NotFound("Grade not found") && State() == old(State())
                case Some(g) =>
                  match ValidateGrade(old(store), input)
                  case Rejected(errors) => resp == Response(400, errors) && State() == old(State())
                  case Accepted(data) =>
                    && store == SaveGrade(old(store), g, data)
                    && cache == old(cache)[GradeKey(pk) := GradeJson(Grades.UpdateGrade(g, data))]
                    && resp == Response(200, GradeJson(Grades.UpdateGrade(g, data)))
    {
      var found := GradeById(store, pk);
      var checked := ValidateGrade(store, input);
      if actor.role != Teacher {
        resp := Response(403, ErrorBody(OnlyTeachersUpdateGrades));
      } else if found.None? {
        resp := NotFound("Grade not found");
      } else if checked.Rejected? {
        resp := Response(400, checked.errors);
      } else {
        var doc := GradeJson(Grades.UpdateGrade(found.value, checked.data));
        Commit(SaveGrade(store, found.value, checked.data), cache[GradeKey(pk) := doc], outbox);
        resp := Response(200, doc);
      }
    }

    /** `GradeDetailView` PATCH, which the view does not override: DRF's
        `partial_update` finds the grade and saves the patched fields without
        the teacher check `put` makes, and leaves the cache alone. With
        `Corrected` it makes `put`'s teacher check first. */
    method PatchGrade(actor: User, build: Build, pk: nat, patch: Checked<GradePatchBody>) returns (resp: Response)
      requires Valid()
      modifies this
      ensures Valid() && cache == old(cache) && outbox == old(outbox)
      ensures build == Corrected && resp.status == 200 ==> actor.role == Teacher
      ensures build == Corrected && actor.role != Teacher ==>
                resp == Response(403, ErrorBody(OnlyTeachersUpdateGrades)) && State() == old(State())
      ensures build == AsWritten || actor.role == Teacher ==>
                match GradeById(old(store), pk)
                case None => resp == Response(404, Detail(NoSuchObject)) && State() == old(State())
                case Some(g) =>
                  match ValidateGrade(old(store), GradePatchInput(g, patch))
                  case Rejected(errors) => resp == Response(400, errors) && State() == old(State())
                  case Accepted(data) =>
                    && store == SaveGrade(old(store), g, data)
                    && resp == Response(200, GradeJson(Grades.UpdateGrade(g, data)))
    {
      var found := GradeById(store, pk);
      if build == Corrected && actor.role != Teacher {
        resp := Response(403, ErrorBody(OnlyTeachersUpdateGrades));
      } else if found.None? {
        resp := Response(404, Detail(NoSuchObject));
      } else {
        var checked := ValidateGrade(store, GradePatchInput(found.value, patch));
        if checked.Rejected? {
          resp := Response(400, checked.errors);
        } else {
          Commit(SaveGrade(store, found.value, checked.data), cache, outbox);
          resp := Response(200, GradeJson(Grades.UpdateGrade(found.value, checked.data)));
        }
      }
    }

    /** `GradeDetailView` DELETE, which the view does not override: DRF's
        `destroy` deletes any existing grade for any logged-in caller. With
        `Corrected` it makes `put`'s teacher check first. */
    method DestroyGrade(actor: User, build: Build, pk: nat) returns (resp: Response)
      requires Valid()
      modifies this
      ensures Valid() && cache == old(cache) && outbox == old(outbox)
      ensures build == Corrected && resp.status == 204 ==> actor.role == Teacher
      ensures build == Corrected && actor.role != Teacher ==>
                resp == Response(403, ErrorBody(OnlyTeachersUpdateGrades)) && State() == old(State())
      ensures build == AsWritten || actor.role == Teacher ==>
                match GradeById(old(store), pk)
                case None => resp == Response(404, Detail(NoSuchObject)) && State() == old(State())
                case Some(_) => resp == Response(204, JNull) && store == DeleteGrade(old(store), pk)
    {
      var found := GradeById(store, pk);
      if build == Corrected && actor.role != Teacher {
        resp := Response(403, ErrorBody(OnlyTeachersUpdateGrades));
      } else if found.None? {
        resp := Response(404, Detail(NoSuchObject));
      } else {
        Commit(DeleteGrade(store, pk), cache, outbox);
        resp := Response(204, JNull);
      }
    }

    /** `NotificationListView.get`: cache-aside on the actor's own key over
        the actor's notifications, newest first. `failure` stands for an
        error raised by the cache or the database, which becomes a 500. */
    method NotificationList(actor: User, failure: bool) returns (resp: Response)
      requires Valid()
      modifies this
      ensures Valid() && store == old(store) && outbox == old(outbox)
      ensures failure ==> resp == Response(500, ErrorBody(NotificationsFailed)) && cache == old(cache)
      ensures !failure ==>
                resp.status == 200
                && (resp.body, cache) == ReadThrough(old(cache), NotificationsKey(actor.id),
                                                     NotificationsJson(InboxOf(store.notifications, actor.id)))
    {
      if failure {
        resp := Response(500, ErrorBody(NotificationsFailed));
      } else {
        var read := ReadThrough(cache, NotificationsKey(actor.id), NotificationsJson(InboxOf(store.notifications, actor.id)));
        Commit(store, read.1, outbox);
        resp := Response(200, read.0);
      }
    }

    /** `NotificationListView.post`: the owner is always the actor, and the
        actor's cached list is dropped. */
    method CreateNotification(actor: User, input: Checked<NotificationInput>, now: int) returns (resp: Response)
      requires Valid()
      modifies this
      ensures Valid() && outbox == old(outbox)
      ensures match input
              case Rejected(errors) => resp == Response(400, errors) && State() == old(State())
              case Accepted(data) =>
                && store == AddNotification(old(store), actor.id, data, now)
                && cache == old(cache) - {NotificationsKey(actor.id)}
                && resp == Response(201, NotificationJson(NewNotification(old(store).nextId, actor.id, data, now)))
    {
      if input.Rejected? {
        resp := Response(400, input.errors);
      } else {
        var n := NewNotification(store.nextId, actor.id, input.data, now);
        Commit(AddNotification(store, actor.id, input.data, now), cache - {NotificationsKey(actor.id)}, outbox);
        resp := Response(201, NotificationJson(n));
      }
    }

    /** `NotificationDetailView.put`: only the actor's own notification is
        found (anyone else's is a 404); the update is partial and the
        actor's cached list is dropped. */
    method UpdateNotification(actor: User, pk: nat, patch: Checked<NotificationPatch>) returns (resp: Response)
      requires Valid()
      modifies this
      ensures Valid() && outbox == old(outbox)
      ensures match OwnNotification(old(store), pk, actor.id)
              case None => resp == NotFound("Notification not found") && State() == old(State())
              case Some(n) =>
                match patch
                case Rejected(errors) => resp == Response(400, errors) && State() == old(State())
                case Accepted(data) =>
                  && store == SaveNotification(old(store), n, data)
                  && cache == old(cache) - {NotificationsKey(actor.id)}
                  && resp == Response(200, NotificationJson(PatchNotification(n, data)))
    {
      var found := OwnNotification(store, pk, actor.id);
      if found.None? {
        resp := NotFound("Notification not found");
      } else if patch.Rejected? {
        resp := Response(400, patch.errors);
      } else {
        Commit(SaveNotification(store, found.value, patch.data), cache - {NotificationsKey(actor.id)}, outbox);
        resp := Response(200, NotificationJson(PatchNotification(found.value, patch.data)));
      }
    }

    /** `NotificationDetailView.delete`: only the actor's own notification
        is removed, and the actor's cached list is dropped. */
    method DestroyNotification(actor: User, pk: nat) returns (resp: Response)
      requires Valid()
      modifies this
      ensures Valid() && outbox == old(outbox)
      ensures OwnNotification(old(store), pk, actor.id).None? ==>
                resp == NotFound("Notification not found") && State() == old(State())
      ensures OwnNotification(old(store), pk, actor.id).Some? ==>
                && store == DeleteNotification(old(store), pk)
                && cache == old(cache) - {NotificationsKey(actor.id)}
                && resp == Response(204, MessageBody("Notification deleted successfully"))
    {
      if OwnNotification(store, pk, actor.id).None? {
        resp := NotFound("Notification not found");
      } else {
        Commit(DeleteNotification(store, pk), cache - {NotificationsKey(actor.id)}, outbox);
        resp := Response(204, MessageBody("Notification deleted successfully"));
      }
    }

    /** `APIAnalyticsView.get`: the per-endpoint counts of the filtered logs,
        largest first; nothing changes. */
    method Analytics(f: QueryFilter) returns (resp: Response)
      requires Valid()
      ensures resp == Response(200, CountsJson(EndpointCounts(store.logs, f)))
    {
      resp := Response(200, CountsJson(EndpointCounts(store.logs, f)));
    }
  }
}
